=== FILE: README.md ===
# Pulp resolution engine in Dafny

A model of the resolution engine of Pulp, a dependency-injection container
for PHP, with proofs about it. The model covers:

- the binder and its bindings;
- the scope registry, the instance scope and the singleton scope;
- the injection metadata of classes and parameters;
- the injector's recursive resolution: constructor arguments, assisted
  parameters, property and setter injection, and the per-class metadata
  cache;
- lazy providers;
- assisted-injection factory providers and the factory classes they
  generate;
- the injector builder.

Modules, in dependency order:

| module | models |
|---|---|
| `Failures` (failures.dfy) | option, result and the container's exceptions |
| `Values` (values.dfy) | PHP values: scalars, ordered arrays, object references; truthiness, `isset`, `(array)` |
| `Seqs` (seqs.dfy) | filtering and counting helpers |
| `Parameters` (parameters.dfy) | lib/Meta/InjectionParameter.php |
| `MetaClasses` (metaclasses.dfy) | lib/Meta/InjectionMetaClass.php over a declarative class descriptor |
| `Scopes` (scopes.dfy) | lib/Scope/Scopes.php |
| `Singletons` (singletons.dfy) | the cache key of lib/Scope/SingletonScope.php |
| `Factories` (factories.dfy) | lib/Assisted/FactoryProvider.php and lib/Assisted/template.php |
| `Bindings` (bindings.dfy) | lib/Binding/Binding.php |
| `Binders` (binders.dfy) | lib/Binding/Binder.php, with modules as data |
| `Injectors` (injectors.dfy) | lib/Injector.php, the scopes' `getDependency`, `createDependency`, lib/Provider/ProviderImpl.php, the factory provider's `get` and generated methods |
| `InjectorFacts` (injector_facts.dfy) | properties of resolution that span several calls |
| `Builders` (builders.dfy) | lib/InjectorBuilder.php |

Resolution is a family of mutually recursive functions that thread one
`State` through every call. The state holds:

- the created objects, indexed by id;
- the properties injected into each object and the setters called on it;
- the metadata cache;
- the singleton cache;
- the factory object of each factory provider;
- the generated factory files, keyed by path.

A failure returns the state reached when it was raised, since a PHP
exception does not undo cache writes that happened before it.

Three things are parameters rather than state:

- PHP reflection and the attribute readers become a `World`: the declared
  classes with their annotated methods and properties, plus the declared
  factory interfaces.
- User code that the container calls becomes `World.user`, a fixed
  function of the call. This covers callable providers, module provider
  methods and the `get` of user provider objects.
- The source has no cycle detection. `fuel` bounds the nesting of
  `getInstance` calls, and running out is the error `Exhausted`.

Every resolution step has a proved frame, `Injectors.Frame`:

- objects, cached metadata, generated files and factory objects are never
  removed or replaced;
- injected members only accumulate;
- a metadata cache that agrees with extraction keeps agreeing;
- no object that existed before the step has its members changed, except
  the one being injected and the provider objects held by bindings.

## Model

| member | source | states |
|---|---|---|
| Failures.NoBindingMessageNamesKey | lib/Injector.php:88 | the not-found message names the requested key: two keys give the same message exactly when they are equal |
| Values.ArrayCast | lib/Injector.php:105 | `(array)` of the assisted values: null gives the empty array, an array stays as it is, an object gives its property table, and any other value becomes a one-element list |
| Parameters.TypePrecedence | lib/Meta/InjectionParameter.php:78-82 | `type()` agrees with an independent "first present of alias, interface, else the name" definition |
| Parameters.New | lib/Meta/InjectionParameter.php:21-31 | a new parameter resolves to its own name and is neither assisted, optional nor a provider |
| Parameters.SetIsAssisted | lib/Meta/InjectionParameter.php:37-39 | marking a parameter assisted changes neither its name, its type, its optionality nor whether it is a provider |
| Parameters.SetInterface | lib/Meta/InjectionParameter.php:45-47 | after setting an interface the type is the alias if one is set and the interface otherwise; nothing else changes |
| Parameters.SetAlias | lib/Meta/InjectionParameter.php:49-51 | after setting an alias the type is that alias, whatever interface is set |
| Parameters.SetDefaultValue | lib/Meta/InjectionParameter.php:57-60 | setting a default makes the parameter optional with that default, and leaves its name, type and assisted flag alone |
| Parameters.SetProvides | lib/Meta/InjectionParameter.php:66-72 | the parameter becomes a provider exactly when the key is a truthy string (so `""` and `"0"` do not); its type is unchanged |
| Parameters.FreshParameter | lib/Meta/InjectionParameter.php:21-31 | a new parameter resolves to its own name and is not assisted, not optional, not a provider and has no alias |
| Parameters.AliasWins | lib/Meta/InjectionParameter.php:45-51 | an alias decides the type whether the interface is set before or after it |
| Parameters.DefaultMakesOptional | lib/Meta/InjectionParameter.php:57-64 | setting a default, even null, makes the parameter optional, and the default read back is the last one set |
| Parameters.NameStable | lib/Meta/InjectionParameter.php:29-68 | no sequence of setter calls changes the name or withdraws optionality |
| MetaClasses.ClassifyParameter | lib/Meta/InjectionMetaClass.php:78-89 | classification order assisted > named > provides > declared class type > name; an assisted parameter off the constructor is the setter error; optional exactly when a default exists |
| MetaClasses.ParameterClassName | lib/Meta/InjectionMetaClass.php:97-100 | a parameter has a class name exactly when it declares a type other than exactly `array`, and then the name is that type with its leading and trailing `?` trimmed; the comparison with `array` comes before trimming |
| MetaClasses.NullableTypeTrimmed | lib/Meta/InjectionMetaClass.php:97-100 | a nullable class type `?T` names the class `T`; `array` names no class, but `?array` names the class "array" because the test precedes the trim |
| MetaClasses.ClassifyParameters | lib/Meta/InjectionMetaClass.php:78-90 | all parameters of a method classified in declaration order; fails exactly when some assisted parameter is misplaced |
| MetaClasses.MethodEntry | lib/Meta/InjectionMetaClass.php:72-91 | a method contributes one entry exactly when it carries Inject and has parameters, and fails exactly when it is misconfigured |
| MetaClasses.InjectableMethods | lib/Meta/InjectionMetaClass.php:70-94 | the recorded methods are the Inject methods with parameters, in order, each classified; extraction fails exactly when some method is misconfigured |
| MetaClasses.PropertyParameter | lib/Meta/InjectionMetaClass.php:45-54 | a property's key is Named > Provides > Inject value > its name, and it is always optional with its declared default |
| MetaClasses.InjectableProperties | lib/Meta/InjectionMetaClass.php:41-58 | exactly the properties carrying Inject, in order, each with its recorded parameter |
| MetaClasses.Extract | lib/Meta/InjectionMetaClass.php:32-39 | metadata is the injectable properties plus the injectable methods, and fails exactly when a method is misconfigured |
| MetaClasses.InjectableConstructor | lib/Meta/InjectionMetaClass.php:121-128 | succeeds exactly when `__construct` is recorded, and returns its recorded parameters; otherwise the no-constructor error |
| MetaClasses.InjectableSetters | lib/Meta/InjectionMetaClass.php:130-132 | exactly the recorded methods other than `__construct`, in their recorded order |
| MetaClasses.AssistedOnlyInConstructor | lib/Meta/InjectionMetaClass.php:81-83 | in successfully extracted metadata every assisted parameter belongs to the constructor |
| Scopes.ScopeFor | lib/Scope/Scopes.php:24-33 | `instance` and `singleton` give a scope of that kind and every other name is the invalid-scope error; a known name is answered from the registry; a failure leaves the registry unchanged; existing scopes are kept |
| Scopes.KindOf | lib/Scope/Scopes.php:26-29 | `instance` names the instance kind, `singleton` the singleton kind, and every other name no kind |
| Scopes.ScopeMemoised | lib/Scope/Scopes.php:25-32 | asking again for the same name returns the identical scope and leaves the registry as it was |
| Scopes.InstanceAndSingletonDiffer | lib/Scope/Scopes.php:27-28 | the instance and singleton scopes are distinct objects of the right kinds |
| Singletons.AbsentParamsShareKey | lib/Scope/SingletonScope.php:36-37 | null, false and an empty array all leave the key at the binding's identity |
| Singletons.Hash | lib/Scope/SingletonScope.php:37-46 | values that are not a non-empty array add nothing to the key; an array of scalars adds one piece per value, in order, namely its string conversion |
| Singletons.UniqueKey | lib/Scope/SingletonScope.php:35-38 | the key is made of the scope, the binding and the flattened assisted values |
| Singletons.UniqueKeyIdentifies | lib/Scope/SingletonScope.php:35-38 | two requests share a key exactly when they have the same scope, the same binding and the same flattened values |
| Singletons.PartsOfAppend | lib/Scope/SingletonScope.php:41-47 | flattening the assisted values distributes over concatenation |
| Singletons.NamesIgnored | lib/Scope/SingletonScope.php:41-46 | arrays holding the same values in the same order flatten alike, whatever their keys |
| Singletons.NestedArraysFlatten | lib/Scope/SingletonScope.php:44 | a nested array contributes its own pieces in place |
| Singletons.FlatParts | lib/Scope/SingletonScope.php:42-45 | for scalar values the key has one piece per value, in order, namely its string conversion |
| Singletons.CacheKeySeparatesStrings | lib/Scope/SingletonScope.php:35-38 | with the structured key, two string-valued arrays share an entry only when they hold the same strings in the same order |
| Singletons.Join | lib/Scope/SingletonScope.php:38 | joining starts with the head, adds nothing for no pieces and `:::` and the text for one piece |
| Singletons.JoinedKey | lib/Scope/SingletonScope.php:35-38 | the joined key begins with the binding hash, and is just that hash when there are no assisted values |
| Singletons.JoinedKeyCollides | lib/Scope/SingletonScope.php:35-47 | the key as written, joined with ":::", is equal for two different argument arrays that the structured key keeps apart |
| Factories.ImplName | lib/Assisted/FactoryProvider.php:45 | the implementation name is the interface name with each backslash replaced by an underscore, followed by `Impl` |
| Factories.ImplNameOfPlainName | lib/Assisted/FactoryProvider.php:45 | a name without backslashes only gains the `Impl` suffix |
| Factories.ImplNameConflatesSeparators | lib/Assisted/FactoryProvider.php:45 | `A\B` and `A_B` share one implementation name and so one cache file |
| Factories.NewFactoryProvider | lib/Assisted/FactoryProvider.php:43-48 | construction fails with the cache error exactly when no truthy cache directory is set; the path is directory, `/`, implementation name, `.php` |
| Factories.ForInterfaceRoundTrip | lib/Assisted/FactoryProvider.php:43-57 | `forInterface()` of a constructed provider returns the interface it was constructed with, and the class name is derived from it |
| Factories.ArgText | lib/Assisted/FactoryProvider.php:94-99 | argument text is an optional `Type ` prefix and `$name`, and holds `=` exactly when a default exists |
| Factories.FactoryArgs | lib/Assisted/FactoryProvider.php:92-103 | one argument per interface parameter, in order, with its name, text and default |
| Factories.MethodTable | lib/Assisted/FactoryProvider.php:79-90 | one entry per interface method with name, Returns type and arguments; fails exactly when some method lacks a usable Returns |
| Factories.FactoryMethods | lib/Assisted/FactoryProvider.php:79-81 | an undeclared interface fails; a declared one gives its method table |
| Factories.Generate | lib/Assisted/template.php:2-15 | the generated class has the implementation name, implements the interface, and has exactly the table's methods |
| Factories.FindMethod | lib/Assisted/template.php:10-11 | a generated method is found exactly when the table has an entry of that name |
| Factories.BindArgs | lib/Assisted/template.php:11 | a call binds each argument to the value passed, else its default; it succeeds exactly when every missing argument has a default |
| Factories.AssistedMap | lib/Assisted/template.php:12-13 | the assisted map is name => value for every argument in order, and false when there are none |
| Factories.FactoryRequest | lib/Assisted/template.php:11-13 | a generated method of that name succeeds exactly when its arguments bind, fails with the binding error otherwise, and then asks for its return type with the assisted map of the bound values; an unknown name is an error |
| Factories.AssistedMapDeliversArgument | lib/Assisted/template.php:12-13 | when argument names are distinct, in the assisted map an argument's name is set exactly when its value is not null, and then holds that value |
| Bindings.NewBinding | lib/Binding/Binding.php:32-35 | a new binding has no implementation, instance or provider, and the registry's instance scope |
| Bindings.To | lib/Binding/Binding.php:37-41 | redirecting to its own key is the self-binding error; otherwise only the implementation changes |
| Bindings.ToInstance | lib/Binding/Binding.php:43-46 | only the instance changes, a null instance counts as none, and a binding with neither implementation nor provider then yields the instance |
| Bindings.ToProvider | lib/Binding/Binding.php:48-51 | only the provider changes, and a binding without implementation then yields the provider's value |
| Bindings.In | lib/Binding/Binding.php:53-55 | only the scope changes, so the strategy is the same as before |
| Bindings.StrategyOf | lib/Binding/Binding.php:57-67 | construction exactly when nothing is set, redirect exactly when an implementation is set, provider exactly when a provider but no implementation is set |
| Bindings.StrategyPrecedence | lib/Binding/Binding.php:74-84 | an implementation overrides provider and instance, and a provider overrides an instance |
| Bindings.ToInstanceYieldsValue | lib/Binding/Binding.php:43-46 | `toInstance(v)` with a non-null v, on a binding without redirect or provider, yields exactly v |
| Bindings.FreshBindingConstructs | lib/Binding/Binding.php:84 | a fresh binding constructs its own key |
| Bindings.SettersCommute | lib/Binding/Binding.php:37-55 | each setter writes only its own field, so setters of different fields commute |
| Binders.GetBindingFor | lib/Binding/Binder.php:71-74 | finds a binding exactly when the key is bound, and the binding is the one for that key |
| Binders.NewBinder | lib/Binding/Binder.php:29-35 | a new binder has no bindings, no installed modules and an empty log; it is well formed exactly when its scope registry is |
| Binders.BindKey | lib/Binding/Binder.php:46-50 | `bind` puts a new binding with a fresh id under the key and leaves every other key alone |
| Binders.ApplyOp | lib/Binding/Binding.php:37-55 | a chained call fails exactly for a self-redirect or an invalid scope name, and then changes nothing; otherwise it writes only its own field of the binding (`in` the registry's scope of that name) and touches no other key |
| Binders.ApplyOps | lib/Binding/Binding.php:37-55 | a chain succeeds exactly when no call raises and nothing is chained after `in`; it then leaves the binding as its calls configured, keeps the binding's identity and touches no other key |
| Binders.ChainAfterInFails | lib/Binding/Binding.php:53-55 | `in` returns nothing, so a call chained after it is a call on null; the scope `in` set stays |
| Binders.InstallFactoryProvider | lib/Binding/Binder.php:52-55 | the provider's interface becomes bound, in the instance scope, to the provider, and no other key changes |
| Binders.Step | lib/AbstractModule.php:28-34 | a statement succeeds exactly when its chain runs, or for a factory provider when a cache directory is set; its key then holds a new binding with the fields its chain last wrote, in the instance scope unless `in` chose another (a factory provider binds its interface to the provider); no other key changes |
| Binders.Steps | lib/AbstractModule.php:28-34 | a configuration succeeds exactly when every statement does; on success each key holds what the last statement naming it made, and keys no statement names are unchanged; modules and log are untouched |
| Binders.ProviderMethods | lib/Binding/Binder.php:57-68 | every provided key is bound to the last Provides method of the module for it, singleton exactly when that method is; other keys are unchanged |
| Binders.ProviderMethod | lib/Binding/Binder.php:60-66 | one Provides method binds its key to the method, in the singleton scope when marked Singleton |
| Binders.Install | lib/Binding/Binder.php:37-44 | an installed module is skipped; otherwise setBinder then configure are logged, installation succeeds exactly when every configuration statement does, provider methods win over statements for their keys, each other key named by a statement holds what the last such statement made, the rest are unchanged, and the module is marked only on success |
| Binders.InstallBindsRedirect | lib/AbstractModule.php:28-30 | a module whose configuration is `bind(k)->to(t)` installs and leaves k redirecting to t, unless one of its provider methods provides k |
| Binders.InstallIdempotent | lib/Binding/Binder.php:37-44 | installing the same module a second time changes nothing |
| Binders.InstallConfiguresOnce | lib/Binding/Binder.php:38-42 | after a successful install each installed module has been configured exactly once and no other module at all |
| Binders.BindReplaces | lib/Binding/Binder.php:46-50 | a later `bind` for the same key replaces the earlier binding with a new one |
| Injectors.Meta | lib/Injector.php:46-48 | metadata is read from the cache when present and otherwise extracted and stored; with a coherent cache the answer is always what extraction gives |
| Injectors.GetInstance | lib/Injector.php:37-42 | the injector's own class yields the injector; an unbound undeclared class is null when optional and the not-found error otherwise; a bound instance-scope constant is returned; all of these leave the state alone; an unbound declared class that resolves yields an object of that class |
| Injectors.GetDependency | lib/Scope/SingletonScope.php:27-33 | in the instance scope the binding creates the dependency directly; after a successful singleton request the cache holds the result under the request's key |
| Injectors.CreateDependency | lib/Binding/Binding.php:74-84 | a redirect resolves its target with the same assisted values and optional flag, a provider yields its value, a bound instance is returned as it is with no state change, and otherwise the key itself is constructed |
| Injectors.ProviderValue | lib/Binding/Binding.php:76-82 | a callable yields the user code's value for that call, with no state change; so does a provider method, whose member injection is not modelled (see below); a user provider object first has its members injected (its class's metadata cached, failing with the metadata error or exactly as member injection fails) and then yields its `get` |
| Injectors.CreateInstance | lib/Injector.php:76-90 | an undeclared class is null when optional and the not-found error otherwise; a declared class yields a new object of that class whose constructor arguments are, with an injectable constructor, the assisted values as `AssistedArg` gives them and what `createParameter` gives for the rest (a missing assisted value fails, and the first argument that certainly fails decides the error); with a constructor that is not injectable, the `(array)` cast of the assisted values; with no constructor, none. The new object's members are injected as `MembersInjected` states, and when the arguments are certain the outcome is that of member injection |
| Injectors.NewInstanceArgs | lib/Injector.php:82-86 | the branch for a class with a constructor: with an injectable constructor the arguments are the assisted values as `AssistedArg` gives them and `createParameter` for the rest, a missing assisted value fails, and the first argument that certainly fails decides the error; otherwise the arguments are the `(array)` cast of the assisted values. On success the object is the next fresh heap entry of that class with those arguments, its members injected as `MembersInjected` states, and with a non-injectable constructor the outcome is that of member injection; the cached metadata is unchanged |
| Injectors.AssistedArg | lib/Injector.php:95-100 | an assisted parameter takes the caller's non-null value, else its default, else the missing-assisted error |
| Injectors.CtorArgs | lib/Injector.php:92-106 | with an injectable constructor, one positional argument per recorded parameter, as `CreateInstance` states, failing with the first certain failure; without one, the `(array)` cast of the assisted values |
| Injectors.Instantiate | lib/Injector.php:82-86 | the new object is the next fresh heap entry, of the requested class with the constructor arguments given; its properties and setter log are exactly what injecting the class's members into an empty object gives (starting from no properties and no calls); member injection only grows the heap, metadata and caches, fails with the metadata error or as the first failing setter parameter decides, and leaves the members of earlier objects outside the shared set as they were |
| Injectors.CtorParams | lib/Injector.php:94-103 | one value per parameter in order, assisted ones as `AssistedArg` gives and the others as `createParameter` gives; failure when an assisted parameter has no value, with the error of the first argument that certainly fails |
| Injectors.CtorArg | lib/Injector.php:95-102 | an assisted parameter is resolved from the caller's values without touching the state; a parameter whose outcome is fixed gets it without touching the state; a provider parameter always succeeds |
| Injectors.CreateParameter | lib/Injector.php:108-111 | a provider parameter only creates a lazy provider for its key; any other parameter resolves its type with no assisted values and its own optional flag, so a value received for a type fixed by the binder and the declared classes is that value, and for an unbound declared type is an object of that type |
| Injectors.InjectMembers | lib/Injector.php:44-51 | metadata for the class is cached; every injectable property holds the value `createParameter` gives for the last recorded property of that name, and one call per injectable setter is logged, in order, with the values `createParameter` gives its parameters. When the class's metadata fails, that error; when the properties certainly resolve, success exactly when every setter parameter certainly resolves, and otherwise the error of the first setter parameter that certainly fails |
| Injectors.InjectProperties | lib/Injector.php:53-64 | every injectable property is set to what `createParameter` gives its parameter, a later property of the same name winning, other properties keep their values, and no setter is called; it succeeds whenever every property parameter certainly resolves |
| Injectors.InjectSetters | lib/Injector.php:66-72 | one call per setter, in order, each with the values `createParameter` gives its parameters, appended to the object's call log; properties are untouched; success when every parameter certainly resolves, and the error of the first parameter that certainly fails when the ones before it certainly resolve |
| Injectors.SetterArgs | lib/Injector.php:68-70 | one argument per setter parameter, each what `createParameter` gives that parameter; success when every parameter certainly resolves, otherwise the error of the first one that certainly fails |
| Injectors.FactoryGet | lib/Assisted/FactoryProvider.php:59-66 | a provider with a factory returns it and changes nothing; otherwise a new factory object is made from the existing file, or from a new one only when none exists |
| Injectors.Artifact | lib/Assisted/FactoryProvider.php:60-61 | an existing file at the cache path is reused; otherwise generation succeeds exactly when the interface's method table does, giving the implementation class for that interface with exactly that table |
| Injectors.AddFactory | lib/Assisted/FactoryProvider.php:61-63 | the factory object is the next heap entry, is recorded for the provider, and its file is stored at the cache path; members, metadata and singletons are unchanged |
| Injectors.ProviderGet | lib/Provider/ProviderImpl.php:32-34 | `get` resolves its key anew, with no assisted values and not optional |
| Injectors.CallFactory | lib/Assisted/template.php:11-13 | a generated method makes exactly one `getInstance` call, for its return type with the assisted map of its arguments |
| InjectorFacts.BoundKeyDelegates | lib/Injector.php:39-40 | a bound key is resolved by its binding with the same assisted values and optional flag |
| InjectorFacts.InstanceScopeDelegates | lib/Scope/InstanceScope.php:25-32 | the instance scope forwards every request unchanged to `createDependency` |
| InjectorFacts.DistinctBindingsSeparate | lib/Scope/SingletonScope.php:36 | two different bindings of one binder never share a singleton cache entry |
| InjectorFacts.RedirectFollows | lib/Binding/Binding.php:75 | a redirect resolves as its target does, with the same assisted values and optional flag |
| InjectorFacts.UnboundKeyConstructs | lib/Injector.php:38-41 | an unbound key is constructed, and the injector's class always yields the injector |
| InjectorFacts.UnresolvableParameter | lib/Injector.php:77-89 | a parameter of an unknown, unbound type is null when optional and the not-found error naming the type otherwise |
| InjectorFacts.UnresolvableConstructorParameter | lib/Injector.php:83-110 | when the earlier constructor parameters certainly resolve, a required non-assisted parameter of an unknown, unbound type makes construction fail with the not-found error naming that type |
| InjectorFacts.UnresolvableSetterParameter | lib/Injector.php:66-88 | for a class without a constructor, once the properties and the setter parameters before it certainly resolve, a required setter parameter of an unknown, unbound type makes creation fail with the not-found error naming that type |
| InjectorFacts.OptionalConstructorParameterIsNull | lib/Injector.php:102-110 | an optional non-assisted constructor parameter of an unknown, unbound type receives null |
| InjectorFacts.UnresolvablePropertyIsNull | lib/Injector.php:53-63 | an injectable property of an unknown, unbound type is set to null, since properties are always optional |
| InjectorFacts.FactoryInterfaceYieldsFactory | lib/Binding/Binder.php:52-55 | after `installFactoryProvider`, asking for the factory interface is asking the factory provider for its factory |
| InjectorFacts.InjectorParameter | lib/Injector.php:38 | a parameter of the injector's type receives the injector |
| InjectorFacts.SingletonRepeat | lib/Scope/SingletonScope.php:27-33 | after a non-null singleton result, the same request returns it again and changes nothing |
| InjectorFacts.SingletonIgnoresNames | lib/Scope/SingletonScope.php:41-46 | assisted arrays holding the same values in the same order share one singleton |
| InjectorFacts.SingletonRetriesNull | lib/Scope/SingletonScope.php:29-30 | a cached null counts as absent, so the dependency is created again |
| InjectorFacts.InstanceScopeFresh | lib/Scope/InstanceScope.php:31 | two successful requests in the instance scope yield two different objects |
| InjectorFacts.InstanceBindingConstant | lib/Binding/Binding.php:83 | a bound instance is returned as it is, without touching the state |
| InjectorFacts.MetaOnce | lib/Injector.php:78-80 | metadata is computed at most once per class |
| InjectorFacts.CacheTransparent | lib/Injector.php:46-48 | after any resolution from an empty state, cached metadata is what extraction gives |
| InjectorFacts.FactoryOnce | lib/Assisted/FactoryProvider.php:59-66 | later `get` calls return the same factory object and change nothing |
| InjectorFacts.StaleFactoryReused | lib/Assisted/FactoryProvider.php:61 | an existing file at the cache path is used without regenerating |
| InjectorFacts.ProviderDefersResolution | lib/Provider/ProviderImpl.php:27-34 | injecting a provider only allocates it; each `get` resolves the key at that time |
| InjectorFacts.FactoryArgumentReachesConstructor | lib/Assisted/template.php:11-13 | a generated method call succeeds exactly when every omitted argument has a default, otherwise fails without a request; on success it requests its return type, and each argument, passed or defaulted, reaches the assisted constructor parameter of the same name: a non-null value as it is, a null as if absent |
| Builders.AddModules | lib/InjectorBuilder.php:24-27 | `array_merge` of the modules so far and the new ones, for all inputs: the result's module list equals the reference `Merged`, so every slot already there stays in its position under its key and ends up holding the last module the new list gives for its string key (or keeps its own); after them, in order, come a new slot for each integer-keyed new module and for the first new module under each string key not used before, holding the last module given for that key. String keys stay unique, and when none repeats the list is the old one followed by the new one |
| Builders.MergeInto | lib/InjectorBuilder.php:25 | adding the entries one by one keeps every earlier slot in place under its key (and an integer-keyed one with its module), keeps string keys unique, and leaves exactly the module list of the reference `Merged`: existing slots first with their final modules, then the slots the new entries open, in order |
| Builders.MergeSlot | lib/InjectorBuilder.php:25 | one entry merged: string keys stay unique, the entry's string key now holds its module and every other string key what it held, a new string key or an integer key appends the module at the end, and no earlier slot moves or loses its key |
| Builders.MergeSlotShape | lib/InjectorBuilder.php:25 | under a string key already in use the entry replaces that slot's module in place, keeping the length and the keys; otherwise it opens exactly one slot at the end with its module, under its own string key or under an integer key |
| Builders.MergedStep | lib/InjectorBuilder.php:25 | merging the first entry and then the rest gives the reference module order for the whole list, whether the first entry replaces a slot or opens one |
| Builders.ReaddedKeepsPlace | lib/InjectorBuilder.php:25 | for any lists, a module added again under a string key already in use sits at the earlier module's position, under the same key |
| Builders.StringKeyReplacedInPlace | lib/InjectorBuilder.php:25 | a module re-added under a used string key takes the earlier module's place; one under an integer key goes to the end |
| Builders.InstallAll | lib/InjectorBuilder.php:31 | installing a list marks exactly its modules installed on success |
| Builders.InstallAllAppend | lib/InjectorBuilder.php:24-31 | installing two lists one after the other is installing their concatenation |
| Builders.InstallAllConfiguresOnce | lib/InjectorBuilder.php:31 | a module listed several times is still configured exactly once |
| Builders.Build | lib/InjectorBuilder.php:29-33 | build succeeds exactly when every installation does, and yields an injector whose binder has all the modules installed, each configured once |

## Left out

- PHP reflection and the Doctrine/attribute readers: classes and interfaces are declarative descriptors in `World`.
- `class_exists`, the `newInstanceArgs` call, visibility bypass with `setAccessible`, and the regex on the parameter's string form: a declared class exists, and a parameter has an optional declared type.
- User code is an oracle. This covers callable providers, module provider methods (`ProviderMethod::get`) and the `get` of user provider objects, which is `World.user`. The member injection into a user provider object that precedes its `get` is modelled.
- Injectors.ProviderValue: the source runs `injectMembers` on every provider that is not callable (lib/Binding/Binding.php:80), including the provider-method and factory-provider objects the binder creates. The model runs it only on user provider objects. For a provider method that injection only caches the metadata of its class, which the model does not add. For a factory provider it also calls the Inject setter `initialise` with the injector; the model gives the factory the injector directly and does not cache that metadata or log that call.
- Filesystem and code loading: the generated files are the `artifacts` map of the state. Directory creation and writability checks of `setCacheDir`, output buffering and `require_once` are left out. A set cache directory is an `Option<string>` parameter of configuration.
- `var_export` of default values: each factory parameter carries the exported text of its default.
- `spl_object_hash`: objects are named by ids, and the joined key takes the hash as a function parameter.
- Floating-point values, and PHP's case-insensitive class names: keys are compared exactly.
- Bindings.To: compares keys with exact string equality, whereas the source uses loose `==`, which also equates distinct numeric strings such as "1" and "01".
- Fuel: resolution nested deeper than `fuel` fails with `Exhausted`. The source has no cycle detection and would recurse until PHP stops it.
- Injectors.GetDependency: the singleton cache is keyed by the structured `Singletons.UniqueKey` rather than the `:::`-joined string of lib/Scope/SingletonScope.php:38 (see Findings). Assisted values that are a truthy non-array scalar leave the key at the binding's identity, as in the source, whose `foreach` over a scalar iterates nothing; the warning PHP raises for it is not modelled. An object passed as the assisted values themselves also leaves the key at the binding's identity, whereas the source's `foreach` iterates over its public properties.
- Injectors.GetInstance: the value a request settles without looking at the state is stated only for the injector's class, an exhausted depth, an unknown class and a bound constant in the instance scope; other bindings and constructions are described through `CreateDependency` and `CreateInstance`.
- Factories.BindArgs: the declared parameter types of a generated method are not checked, so no `TypeError` and no scalar coercion are modelled; every value is passed through as given.
- Injectors.AssistedArg: an object passed as the assisted values is taken to hold no key. In the source, `isset($assisted[$name])` on an object raises an `Error` unless its class implements `ArrayAccess`, in which case its `offsetExists` answers; the model follows neither, since it does not track which classes implement `ArrayAccess`.
- Builders.AddModules: the builder's modules are a list of keyed slots, and `build` is given the modules in array order (`Builders.Modules`); `addModules` of anything but an array is not modelled.
- Injectors.ProviderValue: for a user provider object the members injected are not stated, because the object is shared with every binding of it, and a nested resolution may inject into the same object; only the cached metadata and the success or error of the injection are promised.
- Values.ArrayCast: the property table of an object is a function of its id in `World` (`tables`) rather than computed from the object's declared and dynamic properties and their visibility.
- The source has these inconsistencies between file versions; the model follows the evident intent in each case:
  - `InstanceScope::getDependency` declares its assisted parameter as `array` while the injector passes `false` by default. The model forwards the value unchanged.
  - `InjectionParameter::$interface` is typed `string` and never initialised when unset, yet `type()` reads it. The model takes an unset interface as absent.
  - The binder uses the annotation namespace and calls a `setAnnotationReader` that the factory provider does not define. The factory provider uses the attribute namespace. Both are read as the same annotations, and `setAnnotationReader` is left out.
  - `InjectorBuilder` constructs the binder and the injector with fewer arguments than their constructors take. The model passes the annotation data through `World`.
  - The factory provider's error message names the Returns attribute, while its test expects the older annotation text. The model follows the code.
- Concurrency: there is none in the source.

## Findings

| source | as written | input that shows it | evidently intended | confidence | as-written member | corrected member |
|---|---|---|---|---|---|---|
| lib/Scope/SingletonScope.php:35-47 | the singleton key joins the binding hash and the flattened assisted values into one string with ":::" | assisted `["x" => "a:::b"]` and `["x" => "a", "y" => "b"]` on one singleton binding give the same key, so the second request returns the instance made for the first | a key that tells different argument lists apart | not executed | Singletons.JoinedKeyCollides | Singletons.CacheKeySeparatesStrings |

The model's singleton cache (`Injectors.GetDependency`) uses the structured
key `Singletons.UniqueKey`. It keeps the pieces as a sequence, so the
collision cannot arise there.

=== FILE: binders.dfy ===
/** The binder: lib/Binding/Binder.php, with the module interface of
    lib/Module.php and lib/AbstractModule.php.

    A module is described by what its `configure` does (a sequence of
    `bind(...)->...` chains and factory-provider installations) and by its
    methods with their Provides and Singleton annotations. The binder's
    log records the calls `install` makes on the module. Bindings, factory
    providers and scope objects are named by ids drawn from one counter.
 */
module Binders {
  import opened Failures
  import opened Values
  import opened Scopes
  import opened Factories
  import opened Bindings
  import opened Seqs

  /** One call chained on a fresh binding. */
  datatype BindingOp =
    | OpTo(target: string)
    | OpToInstance(v: Value)
    | OpToProvider(p: Provider)
    | OpIn(scopeName: string)   // `in(Scopes::<scopeName>())`

  /** One statement of a module's `configure`. */
  datatype ConfigStep =
    | Bind(key: string, ops: seq<BindingOp>)   // `$this->bind(key)->op1->op2...`
    | InstallFactory(iface: string)            // `$this->install(new FactoryProvider(iface))`

  /** A module method with the value of its Provides annotation (if any)
      and whether it carries Singleton. */
  datatype ModuleMethod = ModuleMethod(name: string, providesKey: Option<string>, singleton: bool)

  /** A module instance: its identity, its configuration and its methods. */
  datatype ModuleDecl = ModuleDecl(id: nat, steps: seq<ConfigStep>, methods: seq<ModuleMethod>)

  /** A call `install` makes on a module. */
  datatype Event = SetBinder(moduleId: nat) | Configure(moduleId: nat)

  datatype Binder = Binder(
    bindings: map<string, Binding>,
    installed: set<nat>,
    nextId: nat,
    scopes: ScopeRegistry,
    log: seq<Event>)

  /** A new binder: nothing bound, nothing installed, nothing logged. */
  function NewBinder(reg: ScopeRegistry): (r: Binder)
    ensures forall k :: GetBindingFor(r, k).None?
    ensures r.installed == {} && r.log == [] && r.scopes == reg
    ensures WellFormed(r) <==> Scopes.Valid(reg)
  {
    Binder(map[], {}, 0, reg, [])
  }

  /** Each binding sits under its own key, and distinct keys hold distinct
      binding objects. */
  predicate WellFormed(b: Binder) {
    Scopes.Valid(b.scopes)
    && (forall k :: k in b.bindings ==> b.bindings[k].key == k && b.bindings[k].id < b.nextId)
    && (forall k1, k2 :: k1 in b.bindings && k2 in b.bindings && k1 != k2 ==>
          b.bindings[k1].id != b.bindings[k2].id)
  }

  /** `m2` agrees with `m1` on every key except `key`. */
  ghost predicate SameElsewhere(m1: map<string, Binding>, m2: map<string, Binding>, key: string) {
    forall k :: k != key ==> (k in m1 <==> k in m2) && (k in m1 ==> m2[k] == m1[k])
  }

  /** `getBindingFor(key)`: the binding stored under exactly `key`. */
  function GetBindingFor(b: Binder, key: string): (r: Option<Binding>)
    ensures r.Some? <==> key in b.bindings
    ensures WellFormed(b) && r.Some? ==> r.value.key == key
  {
    if key in b.bindings then Some(b.bindings[key]) else None
  }

  /** `bind(key)`: a new binding replaces whatever was bound to `key`. */
  function BindKey(b: Binder, key: string): (r: Binder)
    requires WellFormed(b)
    ensures WellFormed(r)
    ensures key in r.bindings && r.bindings[key].id == b.nextId
    ensures StrategyOf(r.bindings[key]) == Construct(key) && r.bindings[key].scope.kind == InstanceKind
    ensures SameElsewhere(b.bindings, r.bindings, key)
    ensures r.nextId == b.nextId + 1 && r.installed == b.installed && r.log == b.log
  {
    var nb := NewBinding(b.nextId, key, b.scopes);
    b.(bindings := b.bindings[key := nb.0], nextId := b.nextId + 1, scopes := nb.1)
  }

  /** The binding field a chained call writes. */
  datatype Field = ImplField | InstanceField | ProviderField | ScopeField

  function FieldOf(op: BindingOp): Field {
    match op
    case OpTo(_) => ImplField
    case OpToInstance(_) => InstanceField
    case OpToProvider(_) => ProviderField
    case OpIn(_) => ScopeField
  }

  /** The method name of a chained call. */
  function OpName(op: BindingOp): string {
    match op
    case OpTo(_) => "to"
    case OpToInstance(_) => "toInstance"
    case OpToProvider(_) => "toProvider"
    case OpIn(_) => "in"
  }

  /** A chained call that throws: a redirect to the binding's own key, or
      a scope name `Scopes` does not know. */
  predicate Raises(key: string, op: BindingOp) {
    (op.OpTo? && op.target == key) || (op.OpIn? && KindOf(op.scopeName).None?)
  }

  /** A chain PHP runs to its end: no call throws, and `in`, which returns
      nothing, comes last if at all. */
  predicate Runnable(key: string, ops: seq<BindingOp>) {
    forall i :: 0 <= i < |ops| ==> !Raises(key, ops[i]) && (ops[i].OpIn? ==> i == |ops| - 1)
  }

  /** `bd` is what the chain `ops` makes of `start`: every field holds what
      the last call writing it wrote, or what it held in `start` when no
      call writes it; a scope comes from the registry `reg`. */
  ghost predicate Configured(start: Binding, ops: seq<BindingOp>, bd: Binding, reg: ScopeRegistry) {
    bd.id == start.id && bd.key == start.key
    && bd.implementation == (match LastWith(ops, FieldOf, ImplField)
                             case Some(op) => Some(op.target)
                             case None => start.implementation)
    && bd.instance == (match LastWith(ops, FieldOf, InstanceField)
                       case Some(op) => if op.v == Null then None else Some(op.v)
                       case None => start.instance)
    && bd.provider == (match LastWith(ops, FieldOf, ProviderField)
                       case Some(op) => Some(op.p)
                       case None => start.provider)
    && (match LastWith(ops, FieldOf, ScopeField)
        case Some(op) => KindOf(op.scopeName) == Some(bd.scope.kind)
                         && op.scopeName in reg.scopes && bd.scope == reg.scopes[op.scopeName]
        case None => bd.scope == start.scope)
  }

  /** One chained call on the binding under `key`. A call that throws
      leaves the binder as it was; otherwise it writes its own field of
      the binding and nothing else. */
  function ApplyOp(b: Binder, key: string, op: BindingOp): (r: Run<Binder, ()>)
    requires WellFormed(b) && key in b.bindings
    ensures WellFormed(r.st) && key in r.st.bindings
    ensures r.out.Fail? ==> r.st == b
    ensures r.out.Fail? <==> Raises(key, op)
    ensures op.OpTo? && r.out.Ok? ==> r.st.bindings[key] == b.bindings[key].(implementation := Some(op.target))
    ensures op.OpToInstance? ==>
              r.st.bindings[key] == b.bindings[key].(instance := if op.v == Null then None else Some(op.v))
    ensures op.OpToProvider? ==> r.st.bindings[key] == b.bindings[key].(provider := Some(op.p))
    ensures op.OpIn? && r.out.Ok? ==>
              op.scopeName in r.st.scopes.scopes
              && r.st.bindings[key] == b.bindings[key].(scope := r.st.scopes.scopes[op.scopeName])
              && KindOf(op.scopeName) == Some(r.st.bindings[key].scope.kind)
    ensures !op.OpIn? ==> r.st.scopes == b.scopes
    ensures SameElsewhere(b.bindings, r.st.bindings, key)
    ensures r.st.nextId == b.nextId && r.st.installed == b.installed && r.st.log == b.log
  {
    var bd := b.bindings[key];
    match op
    case OpTo(t) =>
      var to := To(bd, t);
      if to.Fail? then Run(Fail(to.error), b)
      else Run(Ok(()), b.(bindings := b.bindings[key := to.value]))
    case OpToInstance(v) => Run(Ok(()), b.(bindings := b.bindings[key := ToInstance(bd, v)]))
    case OpToProvider(p) => Run(Ok(()), b.(bindings := b.bindings[key := ToProvider(bd, Some(p))]))
    case OpIn(name) =>
      var s := ScopeFor(b.scopes, name);
      if s.out.Fail? then Run(Fail(s.out.error), b)
      else Run(Ok(()), b.(bindings := b.bindings[key := In(bd, s.out.value)], scopes := s.st))
  }

  /** A whole chain, stopping at the first call that throws. `in` returns
      nothing, so a call chained after it is a call on null: the scope is
      set and then the chain fails. */
  function ApplyOps(b: Binder, key: string, ops: seq<BindingOp>): (r: Run<Binder, ()>)
    requires WellFormed(b) && key in b.bindings
    ensures WellFormed(r.st) && key in r.st.bindings
    ensures r.out.Ok? <==> Runnable(key, ops)
    ensures r.out.Ok? ==> Configured(b.bindings[key], ops, r.st.bindings[key], r.st.scopes)
    ensures r.st.bindings[key].id == b.bindings[key].id
    ensures SameElsewhere(b.bindings, r.st.bindings, key)
    ensures r.st.nextId == b.nextId && r.st.installed == b.installed && r.st.log == b.log
    decreases |ops|
  {
    if ops == [] then Run(Ok(()), b)
    else
      var r1 := ApplyOp(b, key, ops[0]);
      if r1.out.Fail? then r1
      else if ops[0].OpIn? && |ops| > 1 then Run(Fail(CallOnNull(OpName(ops[1]))), r1.st)
      else
        var rest := ApplyOps(r1.st, key, ops[1..]);
        OneOpConfigured(b.bindings[key], ops[0], r1.st.bindings[key], r1.st.scopes, rest.st.scopes);
        ChainCons(key, b.bindings[key], ops, r1.st.bindings[key], rest.out.Ok?, rest.st.bindings[key], rest.st.scopes);
        rest
  }

  /** A single call configures the binding as its own one-call chain; a
      call other than `in` does so against any registry. */
  lemma OneOpConfigured(start: Binding, op: BindingOp, mid: Binding, reg1: ScopeRegistry, reg: ScopeRegistry)
    requires op.OpTo? ==> mid == start.(implementation := Some(op.target))
    requires op.OpToInstance? ==> mid == start.(instance := if op.v == Null then None else Some(op.v))
    requires op.OpToProvider? ==> mid == start.(provider := Some(op.p))
    requires op.OpIn? ==>
               op.scopeName in reg1.scopes && mid == start.(scope := reg1.scopes[op.scopeName])
               && KindOf(op.scopeName) == Some(mid.scope.kind) && reg == reg1
    ensures Configured(start, [op], mid, reg)
  {
  }

  /** The inductive step of `ApplyOps`: the first call followed by the
      rest of the chain. */
  lemma ChainCons(key: string, start: Binding, ops: seq<BindingOp>, mid: Binding,
                  restOk: bool, bd: Binding, reg: ScopeRegistry)
    requires ops != [] && !Raises(key, ops[0]) && (ops[0].OpIn? ==> |ops| == 1)
    requires Configured(start, [ops[0]], mid, reg)
    requires restOk <==> Runnable(key, ops[1..])
    requires restOk ==> Configured(mid, ops[1..], bd, reg)
    ensures restOk <==> Runnable(key, ops)
    ensures restOk ==> Configured(start, ops, bd, reg)
  {
    RunnableCons(key, ops);
    if restOk {
      assert ops == [ops[0]] + ops[1..];
      ConfiguredCons(start, ops[0], ops[1..], mid, bd, reg);
    }
  }

  lemma {:induction false} RunnableCons(key: string, ops: seq<BindingOp>)
    requires ops != []
    ensures Runnable(key, ops) <==>
              !Raises(key, ops[0]) && (ops[0].OpIn? ==> |ops| == 1) && Runnable(key, ops[1..])
  {
    if Runnable(key, ops) {
      forall i | 0 <= i < |ops[1..]|
        ensures !Raises(key, ops[1..][i]) && (ops[1..][i].OpIn? ==> i == |ops[1..]| - 1)
      {
        assert ops[1..][i] == ops[i + 1];
      }
    }
    if !Raises(key, ops[0]) && (ops[0].OpIn? ==> |ops| == 1) && Runnable(key, ops[1..]) {
      forall i | 0 <= i < |ops|
        ensures !Raises(key, ops[i]) && (ops[i].OpIn? ==> i == |ops| - 1)
      {
        if i > 0 {
          assert ops[i] == ops[1..][i - 1];
        }
      }
    }
  }

  /** Configuring by one call and then by a chain is configuring by the
      whole chain, provided `in` was last. */
  lemma {:induction false} ConfiguredCons(start: Binding, op: BindingOp, tail: seq<BindingOp>, mid: Binding, bd: Binding, reg: ScopeRegistry)
    requires op.OpIn? ==> tail == []
    requires Configured(start, [op], mid, reg) && Configured(mid, tail, bd, reg)
    ensures Configured(start, [op] + tail, bd, reg)
  {
    LastWithCons(op, tail, FieldOf, ImplField);
    LastWithCons(op, tail, FieldOf, InstanceField);
    LastWithCons(op, tail, FieldOf, ProviderField);
    LastWithCons(op, tail, FieldOf, ScopeField);
    LastWithCons(op, [], FieldOf, ImplField);
    LastWithCons(op, [], FieldOf, InstanceField);
    LastWithCons(op, [], FieldOf, ProviderField);
    LastWithCons(op, [], FieldOf, ScopeField);
    assert [op] + [] == [op];
  }

  /** A chain that calls anything after `in` fails on the call after it,
      once the scope has been set. */
  lemma ChainAfterInFails(b: Binder, key: string, name: string, op: BindingOp)
    requires WellFormed(b) && key in b.bindings && KindOf(name).Some?
    ensures var r := ApplyOps(b, key, [OpIn(name), op]);
            r.out == Fail(CallOnNull(OpName(op))) && r.st.bindings[key].scope.kind == KindOf(name).value
  {
    var r1 := ApplyOp(b, key, OpIn(name));
    assert r1.out.Ok?;
    assert ApplyOps(b, key, [OpIn(name), op]) == Run(Fail(CallOnNull(OpName(op))), r1.st);
  }

  /** `installFactoryProvider(fp)`: binds the provider's interface to it. */
  function InstallFactoryProvider(b: Binder, fp: FactoryProvider): (r: Binder)
    requires WellFormed(b)
    ensures WellFormed(r)
    ensures GetBindingFor(r, ForInterface(fp)).Some?
    ensures StrategyOf(GetBindingFor(r, ForInterface(fp)).value) == Provide(FactoryProviderOf(fp))
    ensures GetBindingFor(r, ForInterface(fp)).value.scope.kind == InstanceKind
    ensures SameElsewhere(b.bindings, r.bindings, fp.iface)
    ensures r.nextId == b.nextId + 1 && r.installed == b.installed && r.log == b.log
  {
    var b1 := BindKey(b, fp.iface);
    b1.(bindings := b1.bindings[fp.iface := ToProvider(b1.bindings[fp.iface], Some(FactoryProviderOf(fp)))])
  }

  /** The key a configuration statement binds. */
  function StepKey(step: ConfigStep): string {
    match step
    case Bind(key, _) => key
    case InstallFactory(iface) => iface
  }

  /** A statement that runs without throwing. */
  predicate StepRuns(step: ConfigStep, cacheDir: Option<string>) {
    match step
    case Bind(key, ops) => Runnable(key, ops)
    case InstallFactory(_) => cacheDir.Some? && TruthyString(cacheDir.value)
  }

  /** `bd` is the binding the statement `step` leaves under its key: for
      `bind`, a new binding whose fields are what its chain last wrote and
      which stays in the instance scope unless `in` chose another; for a
      factory provider, a binding of its interface to it. */
  ghost predicate Made(step: ConfigStep, bd: Binding) {
    bd.key == StepKey(step)
    && match step
       case Bind(_, ops) =>
         && bd.implementation == (match LastWith(ops, FieldOf, ImplField)
                                  case Some(op) => Some(op.target)
                                  case None => None)
         && bd.instance == (match LastWith(ops, FieldOf, InstanceField)
                            case Some(op) => if op.v == Null then None else Some(op.v)
                            case None => None)
         && bd.provider == (match LastWith(ops, FieldOf, ProviderField)
                            case Some(op) => Some(op.p)
                            case None => None)
         && (match LastWith(ops, FieldOf, ScopeField)
             case Some(op) => KindOf(op.scopeName) == Some(bd.scope.kind)
             case None => bd.scope.kind == InstanceKind)
       case InstallFactory(iface) =>
         && bd.implementation.None? && bd.instance.None? && bd.scope.kind == InstanceKind
         && bd.provider.Some? && bd.provider.value.FactoryProviderOf? && bd.provider.value.fp.iface == iface
  }

  /** A chain run on a new binding leaves what `Made` describes. */
  lemma FreshConfigured(start: Binding, ops: seq<BindingOp>, bd: Binding, reg: ScopeRegistry)
    requires start.implementation.None? && start.instance.None? && start.provider.None?
    requires start.scope.kind == InstanceKind
    requires Configured(start, ops, bd, reg)
    ensures Made(Bind(start.key, ops), bd)
  {
  }

  /** One statement of `configure`. A factory provider takes the next id
      and its binding the one after. */
  function Step(b: Binder, step: ConfigStep, cacheDir: Option<string>): (r: Run<Binder, ()>)
    requires WellFormed(b)
    ensures WellFormed(r.st)
    ensures r.st.installed == b.installed && r.st.log == b.log
    ensures r.out.Ok? <==> StepRuns(step, cacheDir)
    ensures r.out.Ok? ==> StepKey(step) in r.st.bindings && Made(step, r.st.bindings[StepKey(step)])
    ensures SameElsewhere(b.bindings, r.st.bindings, StepKey(step))
    ensures step.Bind? ==> step.key in r.st.bindings && r.st.bindings[step.key].id == b.nextId
    ensures step.InstallFactory? && r.out.Fail? ==> r.st == b
    ensures step.InstallFactory? && r.out.Ok? ==>
              step.iface in r.st.bindings
              && StrategyOf(r.st.bindings[step.iface]) == Provide(FactoryProviderOf(NewFactoryProvider(b.nextId, step.iface, cacheDir).value))
  {
    match step
    case Bind(key, ops) =>
      var b1 := BindKey(b, key);
      var r := ApplyOps(b1, key, ops);
      if r.out.Ok? then
        FreshConfigured(b1.bindings[key], ops, r.st.bindings[key], r.st.scopes);
        r
      else r
    case InstallFactory(iface) =>
      var fp := NewFactoryProvider(b.nextId, iface, cacheDir);
      if fp.Fail? then Run(Fail(fp.error), b)
      else Run(Ok(()), InstallFactoryProvider(b.(nextId := b.nextId + 1), fp.value))
  }

  /** `configure()`: the statements in order, stopping at the first
      failure. A key no statement binds keeps its binding; after a
      successful configuration, a key holds what the last statement
      binding it made. */
  function Steps(b: Binder, steps: seq<ConfigStep>, cacheDir: Option<string>): (r: Run<Binder, ()>)
    requires WellFormed(b)
    ensures WellFormed(r.st)
    ensures r.st.installed == b.installed && r.st.log == b.log
    ensures r.out.Ok? <==> forall i :: 0 <= i < |steps| ==> StepRuns(steps[i], cacheDir)
    ensures forall k :: LastWith(steps, StepKey, k).None? ==>
              (k in r.st.bindings <==> k in b.bindings) && (k in b.bindings ==> r.st.bindings[k] == b.bindings[k])
    ensures r.out.Ok? ==> forall k :: LastWith(steps, StepKey, k).Some? ==>
              k in r.st.bindings && Made(LastWith(steps, StepKey, k).value, r.st.bindings[k])
    decreases |steps|
  {
    if steps == [] then Run(Ok(()), b)
    else
      var r1 := Step(b, steps[0], cacheDir);
      if r1.out.Fail? then
        StepsHead(steps, cacheDir);
        r1
      else
        var rest := Steps(r1.st, steps[1..], cacheDir);
        StepsCons(b, r1.st, rest.st, steps, cacheDir, rest.out.Ok?);
        rest
  }

  /** A failing first statement fails the configuration, and binds only
      a key that some statement binds. */
  lemma StepsHead(steps: seq<ConfigStep>, cacheDir: Option<string>)
    requires steps != []
    ensures !StepRuns(steps[0], cacheDir) ==> !forall i :: 0 <= i < |steps| ==> StepRuns(steps[i], cacheDir)
    ensures forall k :: LastWith(steps, StepKey, k).None? ==> StepKey(steps[0]) != k
  {
  }

  /** The inductive step of `Steps`. */
  lemma StepsCons(b: Binder, mid: Binder, r: Binder, steps: seq<ConfigStep>, cacheDir: Option<string>, restOk: bool)
    requires steps != [] && StepRuns(steps[0], cacheDir)
    requires StepKey(steps[0]) in mid.bindings && Made(steps[0], mid.bindings[StepKey(steps[0])])
    requires SameElsewhere(b.bindings, mid.bindings, StepKey(steps[0]))
    requires restOk <==> forall i :: 0 <= i < |steps[1..]| ==> StepRuns(steps[1..][i], cacheDir)
    requires forall k :: LastWith(steps[1..], StepKey, k).None? ==>
               (k in r.bindings <==> k in mid.bindings) && (k in mid.bindings ==> r.bindings[k] == mid.bindings[k])
    requires restOk ==> forall k :: LastWith(steps[1..], StepKey, k).Some? ==>
               k in r.bindings && Made(LastWith(steps[1..], StepKey, k).value, r.bindings[k])
    ensures restOk <==> forall i :: 0 <= i < |steps| ==> StepRuns(steps[i], cacheDir)
    ensures forall k :: LastWith(steps, StepKey, k).None? ==>
              (k in r.bindings <==> k in b.bindings) && (k in b.bindings ==> r.bindings[k] == b.bindings[k])
    ensures restOk ==> forall k :: LastWith(steps, StepKey, k).Some? ==>
              k in r.bindings && Made(LastWith(steps, StepKey, k).value, r.bindings[k])
  {
    StepsRunCons(steps, cacheDir);
    forall k | LastWith(steps, StepKey, k).None?
      ensures (k in r.bindings <==> k in b.bindings) && (k in b.bindings ==> r.bindings[k] == b.bindings[k])
    {
      LastStepCons(steps, k);
    }
    if restOk {
      forall k | LastWith(steps, StepKey, k).Some?
        ensures k in r.bindings && Made(LastWith(steps, StepKey, k).value, r.bindings[k])
      {
        LastStepCons(steps, k);
      }
    }
  }

  /** Every statement runs exactly when the first does and every later one does. */
  lemma {:induction false} StepsRunCons(steps: seq<ConfigStep>, cacheDir: Option<string>)
    requires steps != []
    ensures (forall i :: 0 <= i < |steps| ==> StepRuns(steps[i], cacheDir))
        <==> StepRuns(steps[0], cacheDir) && forall i :: 0 <= i < |steps[1..]| ==> StepRuns(steps[1..][i], cacheDir)
  {
    assert forall i :: 1 <= i < |steps| ==> steps[i] == steps[1..][i - 1];
  }

  /** The last statement binding `k` is among the later ones if any binds
      it, and otherwise the first. */
  lemma {:induction false} LastStepCons(steps: seq<ConfigStep>, k: string)
    requires steps != []
    ensures LastWith(steps, StepKey, k) == if LastWith(steps[1..], StepKey, k).Some? then LastWith(steps[1..], StepKey, k)
                                           else if StepKey(steps[0]) == k then Some(steps[0]) else None
  {
    assert steps == [steps[0]] + steps[1..];
    LastWithCons(steps[0], steps[1..], StepKey, k);
  }

  /** The key a module method provides, if any. */
  function ProvidesKeyOf(mm: ModuleMethod): Option<string> {
    mm.providesKey
  }

  /** Some method of `ms` provides `key`. */
  predicate Provided(ms: seq<ModuleMethod>, key: string) {
    LastWith(ms, ProvidesKeyOf, Some(key)).Some?
  }

  /** The binding under `key` is the one `getProviderMethods` makes for
      method `mm` of module `moduleId`. */
  predicate FromProviderMethod(bd: Binding, moduleId: nat, mm: ModuleMethod) {
    StrategyOf(bd) == Provide(MethodProvider(moduleId, mm.name))
    && (bd.scope.kind == SingletonKind <==> mm.singleton)
  }

  /** `getProviderMethods`: every Provides method becomes a provider
      binding for the key it names, in the singleton scope when the
      method also carries Singleton. Since `bind` replaces, a key that
      several methods provide ends up with the last of them. */
  function ProviderMethods(b: Binder, moduleId: nat, ms: seq<ModuleMethod>): (r: Binder)
    requires WellFormed(b)
    ensures WellFormed(r)
    ensures r.installed == b.installed && r.log == b.log
    ensures forall k :: Provided(ms, k) ==>
              k in r.bindings && FromProviderMethod(r.bindings[k], moduleId, LastWith(ms, ProvidesKeyOf, Some(k)).value)
    ensures forall k :: !Provided(ms, k) ==> (k in r.bindings <==> k in b.bindings)
    ensures forall k :: !Provided(ms, k) && k in b.bindings ==> r.bindings[k] == b.bindings[k]
    decreases |ms|
  {
    if ms == [] then b
    else
      var b1 := ProviderMethod(b, moduleId, ms[0]);
      var r := ProviderMethods(b1, moduleId, ms[1..]);
      ProviderMethodsStep(b, b1, r, moduleId, ms);
      r
  }

  /** The inductive step of `ProviderMethods`: the first method's binding
      survives unless a later method provides the same key. */
  lemma {:induction false} ProviderMethodsStep(b: Binder, b1: Binder, r: Binder, moduleId: nat, ms: seq<ModuleMethod>)
    requires ms != [] && WellFormed(b)
    requires ms[0].providesKey.Some? ==>
               ms[0].providesKey.value in b1.bindings
               && FromProviderMethod(b1.bindings[ms[0].providesKey.value], moduleId, ms[0])
               && SameElsewhere(b.bindings, b1.bindings, ms[0].providesKey.value)
    requires ms[0].providesKey.None? ==> b1 == b
    requires forall k :: Provided(ms[1..], k) ==>
               k in r.bindings && FromProviderMethod(r.bindings[k], moduleId, LastWith(ms[1..], ProvidesKeyOf, Some(k)).value)
    requires forall k :: !Provided(ms[1..], k) ==> (k in r.bindings <==> k in b1.bindings)
    requires forall k :: !Provided(ms[1..], k) && k in b1.bindings ==> r.bindings[k] == b1.bindings[k]
    ensures forall k :: Provided(ms, k) ==>
              k in r.bindings && FromProviderMethod(r.bindings[k], moduleId, LastWith(ms, ProvidesKeyOf, Some(k)).value)
    ensures forall k :: !Provided(ms, k) ==> (k in r.bindings <==> k in b.bindings)
    ensures forall k :: !Provided(ms, k) && k in b.bindings ==> r.bindings[k] == b.bindings[k]
  {
    assert ms == [ms[0]] + ms[1..];
    forall k
      ensures LastWith(ms, ProvidesKeyOf, Some(k))
           == if LastWith(ms[1..], ProvidesKeyOf, Some(k)).Some? then LastWith(ms[1..], ProvidesKeyOf, Some(k))
              else if ProvidesKeyOf(ms[0]) == Some(k) then Some(ms[0]) else None
    {
      LastWithCons(ms[0], ms[1..], ProvidesKeyOf, Some(k));
    }
  }

  /** What `getProviderMethods` does for one method. */
  function ProviderMethod(b: Binder, moduleId: nat, mm: ModuleMethod): (r: Binder)
    requires WellFormed(b)
    ensures WellFormed(r)
    ensures r.installed == b.installed && r.log == b.log
    ensures mm.providesKey.Some? ==>
              (mm.providesKey.value in r.bindings && FromProviderMethod(r.bindings[mm.providesKey.value], moduleId, mm))
    ensures mm.providesKey.Some? ==> SameElsewhere(b.bindings, r.bindings, mm.providesKey.value)
    ensures mm.providesKey.None? ==> r == b
  {
    match mm.providesKey
    case None => b
    case Some(key) =>
      var b1 := BindKey(b, key);
      var bd := ToProvider(b1.bindings[key], Some(MethodProvider(moduleId, mm.name)));
      if mm.singleton then
        var s := ScopeFor(b1.scopes, SingletonName);
        b1.(bindings := b1.bindings[key := In(bd, s.out.value)], scopes := s.st)
      else b1.(bindings := b1.bindings[key := bd])
  }

  /** The binding under `key` comes from the last of the module's Provides
      methods for `key`. */
  ghost predicate ProvidedBy(b: Binder, m: ModuleDecl, key: string) {
    Provided(m.methods, key) && key in b.bindings
    && FromProviderMethod(b.bindings[key], m.id, LastWith(m.methods, ProvidesKeyOf, Some(key)).value)
  }

  /** `install(module)`: unless the module is already installed, record
      `setBinder` and `configure`, run the configuration, bind the provider
      methods and mark the module installed. A failure inside `configure`
      leaves the module unmarked. On success a provided key holds its last
      provider method; any other key holds what the last configuration
      statement binding it made, or what it held before. */
  function Install(b: Binder, m: ModuleDecl, cacheDir: Option<string>): (r: Run<Binder, ()>)
    requires WellFormed(b)
    ensures WellFormed(r.st)
    ensures m.id in b.installed ==> r == Run(Ok(()), b)
    ensures m.id !in b.installed ==> r.st.log == b.log + [SetBinder(m.id), Configure(m.id)]
    ensures m.id !in b.installed ==> (r.out.Ok? <==> forall i :: 0 <= i < |m.steps| ==> StepRuns(m.steps[i], cacheDir))
    ensures r.out.Ok? ==> r.st.installed == b.installed + {m.id}
    ensures r.out.Fail? ==> r.st.installed == b.installed
    ensures r.out.Ok? && m.id !in b.installed ==>
              forall k :: Provided(m.methods, k) ==> ProvidedBy(r.st, m, k)
    ensures r.out.Ok? && m.id !in b.installed ==>
              forall k :: !Provided(m.methods, k) && LastWith(m.steps, StepKey, k).Some? ==>
                k in r.st.bindings && Made(LastWith(m.steps, StepKey, k).value, r.st.bindings[k])
    ensures r.out.Ok? && m.id !in b.installed ==>
              forall k :: !Provided(m.methods, k) && LastWith(m.steps, StepKey, k).None? ==>
                (k in r.st.bindings <==> k in b.bindings) && (k in b.bindings ==> r.st.bindings[k] == b.bindings[k])
  {
    if m.id in b.installed then Run(Ok(()), b)
    else
      var b1 := b.(log := b.log + [SetBinder(m.id), Configure(m.id)]);
      var c := Steps(b1, m.steps, cacheDir);
      if c.out.Fail? then c
      else
        var b2 := ProviderMethods(c.st, m.id, m.methods);
        Run(Ok(()), b2.(installed := b2.installed + {m.id}))
  }

  /** A module whose configuration is `bind(k)->to(t)`, with no provider
      method for `k`, leaves `k` redirecting to `t`. */
  lemma InstallBindsRedirect(b: Binder, m: ModuleDecl, cacheDir: Option<string>, k: string, t: string)
    requires WellFormed(b) && m.id !in b.installed
    requires m.steps == [Bind(k, [OpTo(t)])] && t != k && !Provided(m.methods, k)
    ensures Install(b, m, cacheDir).out.Ok?
    ensures k in Install(b, m, cacheDir).st.bindings
    ensures StrategyOf(Install(b, m, cacheDir).st.bindings[k]) == Redirect(t)
  {
    var step := Bind(k, [OpTo(t)]);
    assert StepRuns(m.steps[0], cacheDir);
    assert LastWith(m.steps, StepKey, k) == Some(step);
    var r := Install(b, m, cacheDir);
    MadeRedirect(k, t, r.st.bindings[k]);
  }

  /** The binding `bind(k)->to(t)` makes redirects to `t`. */
  lemma MadeRedirect(k: string, t: string, bd: Binding)
    requires Made(Bind(k, [OpTo(t)]), bd)
    ensures StrategyOf(bd) == Redirect(t)
  {
    assert LastWith([OpTo(t)], FieldOf, ImplField) == Some(OpTo(t));
  }

  /** Installing a module a second time changes nothing. */
  lemma InstallIdempotent(b: Binder, m: ModuleDecl, cacheDir: Option<string>)
    requires WellFormed(b)
    requires Install(b, m, cacheDir).out.Ok?
    ensures Install(Install(b, m, cacheDir).st, m, cacheDir) == Install(b, m, cacheDir)
  {
  }

  /** Every module marked installed was configured exactly once, and no
      other module was configured. */
  ghost predicate ConfiguredOnce(b: Binder) {
    forall id :: Count(b.log, Configure(id)) == (if id in b.installed then 1 else 0)
  }

  /** A successful `install` keeps each installed module configured once. */
  lemma {:induction false} InstallConfiguresOnce(b: Binder, m: ModuleDecl, cacheDir: Option<string>)
    requires WellFormed(b) && ConfiguredOnce(b)
    requires Install(b, m, cacheDir).out.Ok?
    ensures ConfiguredOnce(Install(b, m, cacheDir).st)
  {
    var r := Install(b, m, cacheDir);
    if m.id !in b.installed {
      assert r.st.log == b.log + [SetBinder(m.id), Configure(m.id)];
      assert r.st.installed == b.installed + {m.id};
      ConfigureCounted(b.log, b.installed, m.id);
    }
  }

  /** Logging `setBinder` and `configure` for a module not yet installed
      and marking it installed keeps each module configured once. */
  lemma {:induction false} ConfigureCounted(log: seq<Event>, installed: set<nat>, mid: nat)
    requires mid !in installed
    requires forall id :: Count(log, Configure(id)) == (if id in installed then 1 else 0)
    ensures forall id :: Count(log + [SetBinder(mid), Configure(mid)], Configure(id)) == (if id in installed + {mid} then 1 else 0)
  {
    forall id
      ensures Count(log + [SetBinder(mid), Configure(mid)], Configure(id)) == (if id in installed + {mid} then 1 else 0)
    {
      CountAppend(log, [SetBinder(mid), Configure(mid)], Configure(id));
      assert [SetBinder(mid), Configure(mid)][1..] == [Configure(mid)];
      assert [Configure(mid)][1..] == [];
      assert Count([Configure(mid)], Configure(id)) == (if id == mid then 1 else 0);
      assert Count([SetBinder(mid), Configure(mid)], Configure(id)) == (if id == mid then 1 else 0);
    }
  }

  /** A later `bind` for the same key replaces the earlier binding, and
      the lookup finds the newest binding object. */
  lemma BindReplaces(b: Binder, key: string, ops1: seq<BindingOp>, ops2: seq<BindingOp>)
    requires WellFormed(b)
    ensures var b1 := ApplyOps(BindKey(b, key), key, ops1).st;
            var b2 := ApplyOps(BindKey(b1, key), key, ops2).st;
            GetBindingFor(b2, key).Some? && GetBindingFor(b2, key).value.id == b1.nextId
            && GetBindingFor(b2, key).value.id != GetBindingFor(b1, key).value.id
  {
  }
}

=== FILE: bindings.dfy ===
/** One binding: lib/Binding/Binding.php.

    A binding maps a key to at most one of each strategy: an
    implementation key to redirect to, a provider, a fixed instance. When
    several are set, the implementation wins over the provider and the
    provider over the instance; with none set, the key's own class is
    constructed. Every binding lives in a scope. How a strategy is carried
    out is the injector's part (`Injectors.CreateDependency`).
 */
module Bindings {
  import opened Failures
  import opened Values
  import opened Scopes
  import opened Factories

  /** What `toProvider` may be given. */
  datatype Provider =
    | Callable(fn: nat)                           // a PHP callable, called with the injector
    | MethodProvider(moduleId: nat, methodName: string) // ProviderMethod over a module method
    | FactoryProviderOf(fp: FactoryProvider)      // an assisted-injection factory provider
    | ObjectProvider(obj: nat, cls: string)       // any other Provider object, with its class

  /** `instance` holds no null: `toInstance(null)` unsets it. */
  datatype Binding = Binding(
    id: nat,
    key: string,
    implementation: Option<string>,
    instance: Option<Value>,
    provider: Option<Provider>,
    scope: ScopeObject)

  /** `new Binding(key)`: no strategy, and the scope `Scopes::instance()`. */
  function NewBinding(id: nat, key: string, reg: ScopeRegistry): (r: (Binding, ScopeRegistry))
    requires Valid(reg)
    ensures r.0.id == id && r.0.key == key
    ensures r.0.implementation.None? && r.0.instance.None? && r.0.provider.None?
    ensures r.0.scope.kind == InstanceKind
    ensures Valid(r.1) && InstanceName in r.1.scopes && r.1.scopes[InstanceName] == r.0.scope
    ensures forall n :: n in reg.scopes ==> n in r.1.scopes && r.1.scopes[n] == reg.scopes[n]
  {
    var s := ScopeFor(reg, InstanceName);
    (Binding(id, key, None, None, None, s.out.value), s.st)
  }

  /** `to(implementation)`: a binding cannot redirect to its own key. */
  function To(b: Binding, implementation: string): (r: Result<Binding>)
    ensures r.Fail? <==> implementation == b.key
    ensures r.Fail? ==> r.error == SelfBinding
    ensures r.Ok? ==> r.value == b.(implementation := Some(implementation))
  {
    if implementation == b.key then Fail(SelfBinding) else Ok(b.(implementation := Some(implementation)))
  }

  /** `toInstance(v)`: a null instance counts as none. Nothing else
      changes, and a binding with no implementation or provider then yields
      the instance. */
  function ToInstance(b: Binding, v: Value): (r: Binding)
    ensures r.instance.Some? <==> v != Null
    ensures r.instance.Some? ==> r.instance.value == v
    ensures r.key == b.key && r.id == b.id && r.implementation == b.implementation
            && r.provider == b.provider && r.scope == b.scope
    ensures b.implementation.None? && b.provider.None? && v != Null ==> StrategyOf(r) == Constant(v)
  {
    b.(instance := if v == Null then None else Some(v))
  }

  /** `toProvider(p)`: nothing else changes, and a binding with no
      implementation then yields what the provider gives. */
  function ToProvider(b: Binding, p: Option<Provider>): (r: Binding)
    ensures r.provider == p
    ensures r.key == b.key && r.id == b.id && r.implementation == b.implementation
            && r.instance == b.instance && r.scope == b.scope
    ensures b.implementation.None? && p.Some? ==> StrategyOf(r) == Provide(p.value)
  {
    b.(provider := p)
  }

  /** `in(scope)`: only the scope changes, so what the binding yields does
      not. */
  function In(b: Binding, scope: ScopeObject): (r: Binding)
    ensures r.scope == scope
    ensures r.key == b.key && r.id == b.id && r.implementation == b.implementation
            && r.instance == b.instance && r.provider == b.provider
    ensures StrategyOf(r) == StrategyOf(b)
  {
    b.(scope := scope)
  }

  /** The strategy `createDependency` carries out. */
  datatype Strategy =
    | Redirect(target: string)
    | Provide(provider: Provider)
    | Constant(value: Value)
    | Construct(key: string)

  /** `createDependency`'s order: implementation, provider, instance, and
      otherwise construction of the binding's own key. */
  function StrategyOf(b: Binding): (r: Strategy)
    ensures r.Construct? <==> b.implementation.None? && b.provider.None? && b.instance.None?
    ensures r.Construct? ==> r.key == b.key
    ensures r.Redirect? <==> b.implementation.Some?
    ensures r.Provide? <==> b.implementation.None? && b.provider.Some?
  {
    if b.implementation.Some? then Redirect(b.implementation.value)
    else if b.provider.Some? then Provide(b.provider.value)
    else if b.instance.Some? then Constant(b.instance.value)
    else Construct(b.key)
  }

  /** An implementation redirect makes the provider and the instance
      irrelevant; a provider makes the instance irrelevant. */
  lemma StrategyPrecedence(b: Binding, p: Option<Provider>, v: Option<Value>)
    ensures b.implementation.Some? ==>
              StrategyOf(b.(provider := p, instance := v)) == Redirect(b.implementation.value)
    ensures b.implementation.None? && b.provider.Some? ==>
              StrategyOf(b.(instance := v)) == Provide(b.provider.value)
    ensures b.implementation.None? && b.provider.None? && b.instance.Some? ==>
              StrategyOf(b) == Constant(b.instance.value)
  {
  }

  /** `toInstance(v)` on a binding without a redirect or a provider makes
      it produce exactly `v`, for any non-null `v`. */
  lemma ToInstanceYieldsValue(b: Binding, v: Value)
    requires b.implementation.None? && b.provider.None? && v != Null
    ensures StrategyOf(ToInstance(b, v)) == Constant(v)
  {
  }

  /** A fresh binding constructs its own key. */
  lemma FreshBindingConstructs(id: nat, key: string, reg: ScopeRegistry)
    requires Valid(reg)
    ensures StrategyOf(NewBinding(id, key, reg).0) == Construct(key)
  {
  }

  /** Each setter writes only its own field: setters of different fields
      commute, and none of them changes the identity or the key. */
  lemma SettersCommute(b: Binding, impl: string, v: Value, p: Option<Provider>, s: ScopeObject)
    requires impl != b.key
    ensures To(ToInstance(b, v), impl) == Ok(ToInstance(To(b, impl).value, v))
    ensures ToProvider(ToInstance(b, v), p) == ToInstance(ToProvider(b, p), v)
    ensures In(ToProvider(b, p), s) == ToProvider(In(b, s), p)
    ensures To(In(b, s), impl) == Ok(In(To(b, impl).value, s))
    ensures ToInstance(b, v).id == b.id && ToProvider(b, p).key == b.key && In(b, s).id == b.id
  {
  }
}

=== FILE: builders.dfy ===
/** The injector builder: lib/InjectorBuilder.php.

    Modules are collected with PHP's `array_merge`, so a module added
    under a string key already in use takes the earlier one's place;
    `build` installs them in array order into a new binder and wraps the
    binder in an injector. An installation that fails aborts the build.
 */
module Builders {
  import opened Failures
  import opened Values
  import opened Seqs
  import opened Scopes
  import opened Binders
  import opened Injectors

  /** A module under its key in the builder's array of modules. */
  datatype Slot = Slot(key: Key, decl: ModuleDecl)

  function SlotKey(s: Slot): Key {
    s.key
  }

  /** The modules in array order: what `build` installs. */
  function Modules(slots: seq<Slot>): (r: seq<ModuleDecl>)
    ensures |r| == |slots| && forall i :: 0 <= i < |slots| ==> r[i] == slots[i].decl
  {
    seq(|slots|, i requires 0 <= i < |slots| => slots[i].decl)
  }

  /** The position of the first slot under key `k`. */
  function Find(slots: seq<Slot>, k: Key): (r: Option<nat>)
    ensures r.None? <==> forall i :: 0 <= i < |slots| ==> slots[i].key != k
    ensures r.Some? ==> r.value < |slots| && slots[r.value].key == k
                        && forall j :: 0 <= j < r.value ==> slots[j].key != k
    decreases |slots|
  {
    if slots == [] then None
    else if slots[0].key == k then Some(0)
    else
      var rest := Find(slots[1..], k);
      assert forall i :: 1 <= i < |slots| ==> slots[i] == slots[1..][i - 1];
      if rest.None? then None else Some(rest.value + 1)
  }

  /** `$modules[$k]`: the module under key `k`, if any. */
  function ModuleUnder(slots: seq<Slot>, k: Key): Option<ModuleDecl> {
    if Find(slots, k).Some? then Some(slots[Find(slots, k).value].decl) else None
  }

  /** The module a list of overwriting writes leaves under `k`: that of
      the last slot carrying `k`. */
  function LastModule(slots: seq<Slot>, k: Key): Option<ModuleDecl> {
    if LastWith(slots, SlotKey, k).Some? then Some(LastWith(slots, SlotKey, k).value.decl) else None
  }

  /** No string key is carried by two slots (PHP array keys are unique;
      integer keys never clash once renumbered). */
  ghost predicate StrUnique(slots: seq<Slot>) {
    forall i, j :: 0 <= i < j < |slots| && slots[i].key.StrKey? ==> slots[i].key != slots[j].key
  }

  /** The number of integer-keyed slots: the next integer index. */
  function IntCount(slots: seq<Slot>): nat
    decreases |slots|
  {
    if slots == [] then 0 else (if slots[0].key.IntKey? then 1 else 0) + IntCount(slots[1..])
  }

  /** The string keys in use. */
  function StrKeys(slots: seq<Slot>): set<Key> {
    set i | 0 <= i < |slots| && slots[i].key.StrKey? :: slots[i].key
  }

  lemma StrKeysSame(xs: seq<Slot>, ys: seq<Slot>)
    requires |xs| == |ys| && forall i :: 0 <= i < |xs| ==> xs[i].key == ys[i].key
    ensures StrKeys(xs) == StrKeys(ys)
  {
  }

  lemma StrKeysSnoc(xs: seq<Slot>, x: Slot)
    ensures StrKeys(xs + [x]) == StrKeys(xs) + (if x.key.StrKey? then {x.key} else {})
  {
    var ys := xs + [x];
    forall k | k in StrKeys(ys)
      ensures k in StrKeys(xs) + (if x.key.StrKey? then {x.key} else {})
    {
      var i :| 0 <= i < |ys| && ys[i].key.StrKey? && ys[i].key == k;
      if i < |xs| {
        assert ys[i] == xs[i];
      }
    }
    forall k | k in StrKeys(xs)
      ensures k in StrKeys(ys)
    {
      var i :| 0 <= i < |xs| && xs[i].key.StrKey? && xs[i].key == k;
      assert ys[i] == xs[i];
    }
    if x.key.StrKey? {
      assert ys[|xs|] == x;
    }
  }

  /** Every slot of `acc` is still where it was in `r`, under the same
      key, and an integer-keyed one still holds its module. */
  ghost predicate Kept(acc: seq<Slot>, r: seq<Slot>) {
    |acc| <= |r| && forall i :: 0 <= i < |acc| ==> r[i].key == acc[i].key && (acc[i].key.IntKey? ==> r[i].decl == acc[i].decl)
  }

  /** The entries of `more` that open a new slot when merged after slots
      whose string keys are `seen`: every integer-keyed entry, and the
      first entry under each string key not seen before, in order. */
  function Opening(more: seq<Slot>, seen: set<Key>): seq<Slot>
    decreases |more|
  {
    if more == [] then []
    else if more[0].key.StrKey? && more[0].key in seen then Opening(more[1..], seen)
    else [more[0]] + Opening(more[1..], if more[0].key.StrKey? then seen + {more[0].key} else seen)
  }

  /** The module a slot ends up holding once `more` is merged: the last
      module `more` gives under its string key, if any, and otherwise its
      own. */
  function Final(more: seq<Slot>, e: Slot): ModuleDecl {
    if e.key.StrKey? && LastModule(more, e.key).Some? then LastModule(more, e.key).value else e.decl
  }

  function Finals(more: seq<Slot>, es: seq<Slot>): seq<ModuleDecl> {
    seq(|es|, i requires 0 <= i < |es| => Final(more, es[i]))
  }

  /** Reference for the modules `array_merge($acc, $more)` leaves, in
      array order: the slots of `acc` where they were, then one slot per
      entry of `more` that opens one; each slot holds its final module. */
  function Merged(acc: seq<Slot>, more: seq<Slot>): seq<ModuleDecl> {
    Finals(more, acc + Opening(more, StrKeys(acc)))
  }

  /** A string key in `seen` opens no slot. */
  lemma {:induction false} OpeningUnseen(more: seq<Slot>, seen: set<Key>)
    ensures forall j :: 0 <= j < |Opening(more, seen)| && Opening(more, seen)[j].key.StrKey? ==> Opening(more, seen)[j].key !in seen
    decreases |more|
  {
    if more != [] {
      var seen' := if more[0].key.StrKey? then seen + {more[0].key} else seen;
      OpeningUnseen(more[1..], seen);
      OpeningUnseen(more[1..], seen');
    }
  }

  /** A slot under another key than the first entry's ends up the same
      whether or not that entry is merged. */
  lemma FinalSkip(more: seq<Slot>, e: Slot)
    requires more != [] && !(e.key.StrKey? && e.key == more[0].key)
    ensures Final(more, e) == Final(more[1..], e)
  {
    if e.key.StrKey? {
      LastModuleCons(more, e.key);
    }
  }

  /** The slot the first entry writes ends up with what the rest of the
      entries leave for it. */
  lemma FinalFirst(more: seq<Slot>, e: Slot)
    requires more != [] && e.key.StrKey? && e.key == more[0].key
    ensures Final(more, e) == Final(more[1..], more[0])
  {
    LastModuleCons(more, e.key);
  }

  /** Merging the first entry and then the rest leaves the modules the
      reference gives for all of `more`. */
  lemma MergedStep(acc: seq<Slot>, more: seq<Slot>, next: seq<Slot>)
    requires StrUnique(acc) && more != [] && next == MergeSlot(acc, more[0])
    ensures Merged(next, more[1..]) == Merged(acc, more)
  {
    var s := more[0];
    if s.key.StrKey? && Find(acc, s.key).Some? {
      MergedReplace(acc, more, next, Find(acc, s.key).value);
    } else if s.key.StrKey? {
      MergedOpen(acc, more, s);
    } else {
      MergedOpen(acc, more, Slot(IntKey(IntCount(acc)), s.decl));
    }
  }

  /** The first entry replaces the module of slot `p`. */
  lemma {:induction false} MergedReplace(acc: seq<Slot>, more: seq<Slot>, next: seq<Slot>, p: nat)
    requires StrUnique(acc) && more != [] && more[0].key.StrKey?
    requires p < |acc| && acc[p].key == more[0].key && next == acc[p := more[0]]
    ensures Merged(next, more[1..]) == Merged(acc, more)
  {
    var s, rest := more[0], more[1..];
    assert s.key in StrKeys(acc);
    StrKeysSame(acc, next);
    var o := Opening(rest, StrKeys(acc));
    assert Opening(more, StrKeys(acc)) == o;
    OpeningUnseen(rest, StrKeys(acc));
    var xs, ys := acc + o, next + o;
    forall i | 0 <= i < |xs|
      ensures Final(more, xs[i]) == Final(rest, ys[i])
    {
      if i == p {
        assert xs[i] == acc[p] && ys[i] == s;
        FinalFirst(more, acc[p]);
      } else if i < |acc| {
        assert xs[i] == acc[i] && ys[i] == acc[i];
        FinalSkip(more, acc[i]);
      } else {
        assert xs[i] == o[i - |acc|] && ys[i] == o[i - |acc|];
        FinalSkip(more, o[i - |acc|]);
      }
    }
  }

  /** The first entry opens slot `x` at the end: the entry itself under a
      new string key, or its module under the next integer key. */
  lemma {:induction false} MergedOpen(acc: seq<Slot>, more: seq<Slot>, x: Slot)
    requires StrUnique(acc) && more != [] && x.decl == more[0].decl
    requires more[0].key.StrKey? ==> x == more[0] && forall i :: 0 <= i < |acc| ==> acc[i].key != more[0].key
    requires more[0].key.IntKey? ==> x.key.IntKey?
    ensures Merged(acc + [x], more[1..]) == Merged(acc, more)
  {
    var s, rest, next := more[0], more[1..], acc + [x];
    var seen' := if s.key.StrKey? then StrKeys(acc) + {s.key} else StrKeys(acc);
    var o := Opening(rest, seen');
    assert s.key.StrKey? ==> s.key !in StrKeys(acc);
    assert Opening(more, StrKeys(acc)) == [s] + o;
    StrKeysSnoc(acc, x);
    assert StrKeys(next) == seen';
    OpeningUnseen(rest, seen');
    var xs, ys := acc + ([s] + o), next + o;
    assert Merged(acc, more) == Finals(more, xs);
    assert Merged(next, rest) == Finals(rest, ys);
    forall i | 0 <= i < |xs|
      ensures Final(more, xs[i]) == Final(rest, ys[i])
    {
      if i < |acc| {
        assert xs[i] == acc[i] && ys[i] == acc[i];
        FinalSkip(more, acc[i]);
      } else if i == |acc| {
        assert xs[i] == s && ys[i] == x;
        if s.key.StrKey? {
          FinalFirst(more, s);
        }
      } else {
        assert xs[i] == o[i - |acc| - 1] && ys[i] == o[i - |acc| - 1];
        FinalSkip(more, o[i - |acc| - 1]);
      }
    }
  }

  /** One entry of `array_merge`'s second array added to the result so
      far: a string key already present has its module replaced in place,
      a new string key is appended, and an integer key is appended under
      the next integer index. */
  function MergeSlot(acc: seq<Slot>, s: Slot): (r: seq<Slot>)
    ensures StrUnique(acc) ==> StrUnique(r)
    ensures StrUnique(acc) ==> forall k: Key {:trigger ModuleUnder(r, k)} :: k.StrKey? ==>
              ModuleUnder(r, k) == if s.key == k then Some(s.decl) else ModuleUnder(acc, k)
    ensures s.key.IntKey? || Find(acc, s.key).None? ==> Modules(r) == Modules(acc) + [s.decl]
    ensures Kept(acc, r)
  {
    if s.key.StrKey? && Find(acc, s.key).Some? then
      var r := acc[Find(acc, s.key).value := s];
      forall k: Key {
        FindSameKeys(acc, r, k);
      }
      r
    else if s.key.StrKey? then
      forall k: Key {
        FindSnoc(acc, s, k);
      }
      acc + [s]
    else
      var r := acc + [Slot(IntKey(IntCount(acc)), s.decl)];
      forall k: Key {
        FindSnoc(acc, Slot(IntKey(IntCount(acc)), s.decl), k);
      }
      r
  }

  /** Where one merged entry goes: under a string key already in use it
      replaces that slot's module in place and changes no key; otherwise
      it opens one slot at the end, under its own string key or under an
      integer key. */
  lemma MergeSlotShape(acc: seq<Slot>, s: Slot)
    ensures s.key.StrKey? && Find(acc, s.key).Some? ==>
              |MergeSlot(acc, s)| == |acc| && StrKeys(MergeSlot(acc, s)) == StrKeys(acc)
              && Modules(MergeSlot(acc, s)) == Modules(acc)[Find(acc, s.key).value := s.decl]
    ensures s.key.IntKey? || Find(acc, s.key).None? ==>
              |MergeSlot(acc, s)| == |acc| + 1 && MergeSlot(acc, s)[|acc|].decl == s.decl
              && MergeSlot(acc, s)[|acc|].key.StrKey? == s.key.StrKey? && (s.key.StrKey? ==> MergeSlot(acc, s)[|acc|].key == s.key)
              && StrKeys(MergeSlot(acc, s)) == StrKeys(acc) + (if s.key.StrKey? then {s.key} else {})
  {
    var r := MergeSlot(acc, s);
    if s.key.StrKey? && Find(acc, s.key).Some? {
      StrKeysSame(acc, r);
    } else if s.key.StrKey? {
      StrKeysSnoc(acc, s);
    } else {
      StrKeysSnoc(acc, Slot(IntKey(IntCount(acc)), s.decl));
    }
  }

  lemma FindSameKeys(xs: seq<Slot>, ys: seq<Slot>, k: Key)
    requires |xs| == |ys| && forall i :: 0 <= i < |xs| ==> xs[i].key == ys[i].key
    ensures Find(xs, k) == Find(ys, k)
  {
  }

  lemma {:induction false} FindSnoc(xs: seq<Slot>, x: Slot, k: Key)
    ensures Find(xs + [x], k) == if Find(xs, k).Some? then Find(xs, k) else if x.key == k then Some(|xs|) else None
    decreases |xs|
  {
    if xs == [] {
      assert xs + [x] == [x];
    } else {
      assert (xs + [x])[0] == xs[0];
      assert (xs + [x])[1..] == xs[1..] + [x];
      FindSnoc(xs[1..], x, k);
    }
  }

  /** The string keys of `more` are distinct and none is already in
      `acc`: merging them overwrites nothing. */
  ghost predicate Fresh(acc: seq<Slot>, more: seq<Slot>) {
    StrUnique(more) && forall i :: 0 <= i < |more| && more[i].key.StrKey? ==> Find(acc, more[i].key).None?
  }

  /** `array_merge($acc, $more)` once `$acc` is renumbered: the entries of
      `more` added one by one. */
  function MergeInto(acc: seq<Slot>, more: seq<Slot>): (r: seq<Slot>)
    ensures StrUnique(acc) ==> StrUnique(r)
    ensures StrUnique(acc) ==> forall k: Key {:trigger ModuleUnder(r, k)} :: k.StrKey? ==>
              ModuleUnder(r, k) == if LastModule(more, k).Some? then LastModule(more, k) else ModuleUnder(acc, k)
    ensures StrUnique(acc) && Fresh(acc, more) ==> Modules(r) == Modules(acc) + Modules(more)
    ensures Kept(acc, r)
    ensures StrUnique(acc) ==> Modules(r) == Merged(acc, more)
    decreases |more|
  {
    if more == [] then
      assert Opening(more, StrKeys(acc)) == [];
      assert acc + [] == acc;
      acc
    else
      var next := MergeSlot(acc, more[0]);
      var r := MergeInto(next, more[1..]);
      MergeIntoStep(acc, more, next, r);
      MergeOrderStep(acc, more, next, r);
      r
  }

  /** Merging the first entry and then the rest keeps every slot and
      leaves the reference order. */
  lemma {:induction false} MergeOrderStep(acc: seq<Slot>, more: seq<Slot>, next: seq<Slot>, r: seq<Slot>)
    requires more != [] && next == MergeSlot(acc, more[0])
    requires Kept(next, r)
    requires StrUnique(next) ==> Modules(r) == Merged(next, more[1..])
    ensures Kept(acc, r)
    ensures StrUnique(acc) ==> Modules(r) == Merged(acc, more)
  {
    if StrUnique(acc) {
      MergedStep(acc, more, next);
    }
  }

  /** The first slot and then the rest is all of `more`. */
  lemma {:induction false} MergeIntoStep(acc: seq<Slot>, more: seq<Slot>, next: seq<Slot>, r: seq<Slot>)
    requires more != [] && next == MergeSlot(acc, more[0])
    requires StrUnique(next) ==> StrUnique(r)
    requires StrUnique(next) ==> forall k: Key {:trigger ModuleUnder(r, k)} :: k.StrKey? ==>
               ModuleUnder(r, k) == if LastModule(more[1..], k).Some? then LastModule(more[1..], k) else ModuleUnder(next, k)
    requires StrUnique(next) && Fresh(next, more[1..]) ==> Modules(r) == Modules(next) + Modules(more[1..])
    ensures StrUnique(acc) ==> StrUnique(r)
    ensures StrUnique(acc) ==> forall k: Key {:trigger ModuleUnder(r, k)} :: k.StrKey? ==>
              ModuleUnder(r, k) == if LastModule(more, k).Some? then LastModule(more, k) else ModuleUnder(acc, k)
    ensures StrUnique(acc) && Fresh(acc, more) ==> Modules(r) == Modules(acc) + Modules(more)
  {
    if StrUnique(acc) {
      forall k: Key | k.StrKey?
        ensures ModuleUnder(r, k) == if LastModule(more, k).Some? then LastModule(more, k) else ModuleUnder(acc, k)
      {
        LastModuleCons(more, k);
        assert ModuleUnder(next, k) == if more[0].key == k then Some(more[0].decl) else ModuleUnder(acc, k);
      }
      if Fresh(acc, more) {
        FreshStep(acc, more, next);
        ModulesStep(acc, more, next, r);
      }
    }
  }

  lemma ModulesStep(acc: seq<Slot>, more: seq<Slot>, next: seq<Slot>, r: seq<Slot>)
    requires more != [] && Modules(next) == Modules(acc) + [more[0].decl]
    requires Modules(r) == Modules(next) + Modules(more[1..])
    ensures Modules(r) == Modules(acc) + Modules(more)
  {
    assert Modules(more) == [more[0].decl] + Modules(more[1..]);
  }

  lemma LastModuleCons(more: seq<Slot>, k: Key)
    requires more != []
    ensures LastModule(more, k) == if LastModule(more[1..], k).Some? then LastModule(more[1..], k)
                                   else if more[0].key == k then Some(more[0].decl) else None
  {
    assert more == [more[0]] + more[1..];
    LastWithCons(more[0], more[1..], SlotKey, k);
  }

  lemma FreshStep(acc: seq<Slot>, more: seq<Slot>, next: seq<Slot>)
    requires more != [] && next == MergeSlot(acc, more[0]) && StrUnique(acc) && Fresh(acc, more)
    ensures Fresh(next, more[1..])
  {
    forall i | 0 <= i < |more[1..]| && more[1..][i].key.StrKey?
      ensures Find(next, more[1..][i].key).None?
    {
      var k := more[1..][i].key;
      assert more[i + 1] == more[1..][i];
      assert more[0].key != k;
      assert Find(acc, k).None?;
      assert ModuleUnder(next, k) == ModuleUnder(acc, k);
    }
  }

  /** `addModules`: PHP's `array_merge` of the modules added so far and
      the new ones. A new module under an integer key, or under a string
      key not used before, goes after those already added; one under a
      string key already used replaces the earlier module in its place,
      and of several under one string key the last wins. */
  function AddModules(modules: seq<Slot>, more: seq<Slot>): (r: seq<Slot>)
    ensures StrUnique(r)
    ensures forall k: Key {:trigger ModuleUnder(r, k)} :: k.StrKey? ==>
              ModuleUnder(r, k) == if LastModule(more, k).Some? then LastModule(more, k) else LastModule(modules, k)
    ensures StrUnique(modules + more) ==> Modules(r) == Modules(modules) + Modules(more)
    ensures Modules(MergeInto([], modules)) == Merged([], modules)
    ensures Kept(MergeInto([], modules), r) && Modules(r) == Merged(MergeInto([], modules), more)
  {
    var acc := MergeInto([], modules);
    var r := MergeInto(acc, more);
    AddModulesFresh(modules, more, acc, r);
    r
  }

  lemma {:induction false} AddModulesFresh(modules: seq<Slot>, more: seq<Slot>, acc: seq<Slot>, r: seq<Slot>)
    requires acc == MergeInto([], modules) && r == MergeInto(acc, more)
    ensures StrUnique(r)
    ensures forall k: Key {:trigger ModuleUnder(r, k)} :: k.StrKey? ==>
              ModuleUnder(r, k) == if LastModule(more, k).Some? then LastModule(more, k) else LastModule(modules, k)
    ensures StrUnique(modules + more) ==> Modules(r) == Modules(modules) + Modules(more)
  {
    assert StrUnique([]);
    forall k: Key | k.StrKey?
      ensures ModuleUnder(acc, k) == LastModule(modules, k)
    {
      assert ModuleUnder([], k).None?;
    }
    if StrUnique(modules + more) {
      NoClash(modules, more, acc);
      assert Modules([]) + Modules(modules) == Modules(modules);
    }
  }

  /** With no string key repeated across both lists, neither merge
      overwrites anything. */
  lemma {:induction false} NoClash(modules: seq<Slot>, more: seq<Slot>, acc: seq<Slot>)
    requires StrUnique(modules + more)
    requires forall k: Key {:trigger ModuleUnder(acc, k)} :: k.StrKey? ==> ModuleUnder(acc, k) == LastModule(modules, k)
    ensures Fresh([], modules) && Fresh(acc, more)
  {
    var all := modules + more;
    forall i, j | 0 <= i < j < |modules| && modules[i].key.StrKey?
      ensures modules[i].key != modules[j].key
    {
      assert modules[i] == all[i] && modules[j] == all[j];
    }
    forall i, j | 0 <= i < j < |more| && more[i].key.StrKey?
      ensures more[i].key != more[j].key
    {
      assert more[i] == all[|modules| + i] && more[j] == all[|modules| + j];
    }
    forall i | 0 <= i < |more| && more[i].key.StrKey?
      ensures Find(acc, more[i].key).None?
    {
      var k := more[i].key;
      forall j | 0 <= j < |modules|
        ensures modules[j].key != k
      {
        assert modules[j] == all[j] && more[i] == all[|modules| + i];
      }
      assert LastWith(modules, SlotKey, k).None?;
      assert ModuleUnder(acc, k).None?;
    }
  }

  /** A module added again under a string key already in use takes the
      place of the earlier one, whatever else either list holds. */
  lemma ReaddedKeepsPlace(modules: seq<Slot>, more: seq<Slot>, p: nat)
    requires p < |MergeInto([], modules)| && MergeInto([], modules)[p].key.StrKey?
    requires LastModule(more, MergeInto([], modules)[p].key).Some?
    ensures p < |AddModules(modules, more)|
    ensures AddModules(modules, more)[p].key == MergeInto([], modules)[p].key
    ensures Modules(AddModules(modules, more))[p] == LastModule(more, MergeInto([], modules)[p].key).value
  {
    var acc := MergeInto([], modules);
    assert (acc + Opening(more, StrKeys(acc)))[p] == acc[p];
  }

  /** A module added again under a string key already used takes the
      place of the earlier one rather than going to the end; one under an
      integer key is appended. */
  lemma StringKeyReplacedInPlace(m1: ModuleDecl, m2: ModuleDecl, m3: ModuleDecl, m4: ModuleDecl)
    ensures Modules(AddModules([Slot(StrKey("a"), m1), Slot(IntKey(0), m2)], [Slot(StrKey("a"), m3), Slot(IntKey(0), m4)]))
         == [m3, m2, m4]
  {
    var acc := [Slot(StrKey("a"), m1), Slot(IntKey(0), m2)];
    FirstListMerged(m1, m2);
    SecondListMerged(acc, m3, m4);
  }

  lemma {:induction false} FirstListMerged(m1: ModuleDecl, m2: ModuleDecl)
    ensures MergeInto([], [Slot(StrKey("a"), m1), Slot(IntKey(0), m2)]) == [Slot(StrKey("a"), m1), Slot(IntKey(0), m2)]
  {
    MergeTwo([], Slot(StrKey("a"), m1), Slot(IntKey(0), m2));
    assert MergeSlot([], Slot(StrKey("a"), m1)) == [Slot(StrKey("a"), m1)];
    assert IntCount([Slot(StrKey("a"), m1)]) == 0 by {
      assert [Slot(StrKey("a"), m1)][1..] == [];
    }
  }

  lemma {:induction false} SecondListMerged(acc: seq<Slot>, m3: ModuleDecl, m4: ModuleDecl)
    requires |acc| == 2 && acc[0].key == StrKey("a") && acc[1].key.IntKey?
    ensures Modules(MergeInto(acc, [Slot(StrKey("a"), m3), Slot(IntKey(0), m4)])) == [m3, acc[1].decl, m4]
  {
    MergeTwo(acc, Slot(StrKey("a"), m3), Slot(IntKey(0), m4));
    assert Find(acc, StrKey("a")) == Some(0);
    var r1 := MergeSlot(acc, Slot(StrKey("a"), m3));
    assert Modules(r1) == [m3, acc[1].decl];
  }

  lemma MergeTwo(acc: seq<Slot>, x: Slot, y: Slot)
    ensures MergeInto(acc, [x, y]) == MergeSlot(MergeSlot(acc, x), y)
  {
    var once := MergeSlot(acc, x);
    assert [x, y][1..] == [y];
    assert MergeInto(acc, [x, y]) == MergeInto(once, [y]);
    assert [y][1..] == [];
    assert MergeInto(once, [y]) == MergeInto(MergeSlot(once, y), []);
  }

  /** The modules' ids. */
  function Ids(modules: seq<ModuleDecl>): set<nat> {
    set k | 0 <= k < |modules| :: modules[k].id
  }

  /** Installing each module in turn; the first failure stops. */
  function InstallAll(b: Binder, modules: seq<ModuleDecl>, cacheDir: Option<string>): (r: Run<Binder, ()>)
    requires WellFormed(b)
    ensures WellFormed(r.st)
    ensures r.st.installed >= b.installed
    ensures r.out.Ok? ==> r.st.installed == b.installed + Ids(modules)
    decreases |modules|
  {
    if modules == [] then Run(Ok(()), b)
    else
      var one := Install(b, modules[0], cacheDir);
      if one.out.Fail? then one
      else
        var rest := InstallAll(one.st, modules[1..], cacheDir);
        assert Ids(modules) == {modules[0].id} + Ids(modules[1..]) by {
          forall x | x in Ids(modules) ensures x in {modules[0].id} + Ids(modules[1..]) {
            var k :| 0 <= k < |modules| && modules[k].id == x;
            if k > 0 {
              assert modules[1..][k - 1] == modules[k];
            }
          }
          forall x | x in Ids(modules[1..]) ensures x in Ids(modules) {
            var k :| 0 <= k < |modules[1..]| && modules[1..][k].id == x;
            assert modules[k + 1] == modules[1..][k];
          }
        }
        rest
  }

  /** Installing two lists one after the other is installing their
      concatenation. */
  lemma {:induction false} InstallAllAppend(b: Binder, xs: seq<ModuleDecl>, ys: seq<ModuleDecl>, cacheDir: Option<string>)
    requires WellFormed(b)
    requires InstallAll(b, xs, cacheDir).out.Ok?
    ensures InstallAll(b, xs + ys, cacheDir) == InstallAll(InstallAll(b, xs, cacheDir).st, ys, cacheDir)
    decreases |xs|
  {
    if xs == [] {
      assert xs + ys == ys;
    } else {
      assert (xs + ys)[0] == xs[0];
      assert (xs + ys)[1..] == xs[1..] + ys;
      var one := Install(b, xs[0], cacheDir);
      InstallAllAppend(one.st, xs[1..], ys, cacheDir);
    }
  }

  /** A successful run of installations keeps every installed module
      configured exactly once, however often it is listed. */
  lemma {:induction false} InstallAllConfiguresOnce(b: Binder, modules: seq<ModuleDecl>, cacheDir: Option<string>)
    requires WellFormed(b) && ConfiguredOnce(b)
    ensures InstallAll(b, modules, cacheDir).out.Ok? ==> ConfiguredOnce(InstallAll(b, modules, cacheDir).st)
    decreases |modules|
  {
    if modules != [] {
      var one := Install(b, modules[0], cacheDir);
      if one.out.Ok? {
        InstallConfiguresOnce(b, modules[0], cacheDir);
        InstallAllConfiguresOnce(one.st, modules[1..], cacheDir);
      }
    }
  }

  /** `build()`: a new binder with every module installed, and an injector
      over it. */
  function Build(modules: seq<ModuleDecl>, reg: ScopeRegistry, cacheDir: Option<string>, world: World, self: nat): (r: Result<Injector>)
    requires Valid(reg)
    ensures r.Ok? <==> InstallAll(NewBinder(reg), modules, cacheDir).out.Ok?
    ensures r.Ok? ==> r.value.world == world && r.value.self == self
    ensures r.Ok? ==> WellFormed(r.value.binder) && r.value.binder.installed == Ids(modules)
    ensures r.Ok? ==> forall m :: m in modules ==> Count(r.value.binder.log, Configure(m.id)) == 1
  {
    var b := NewBinder(reg);
    var all := InstallAll(b, modules, cacheDir);
    if all.out.Fail? then Fail(all.out.error)
    else
      InstallAllConfiguresOnce(b, modules, cacheDir);
      assert forall m :: m in modules ==> m.id in Ids(modules) by {
        forall m | m in modules ensures m.id in Ids(modules) {
          var k :| 0 <= k < |modules| && modules[k] == m;
        }
      }
      Ok(Injector(all.st, world, self))
  }
}

=== FILE: factories.dfy ===
/** Assisted-injection factories: lib/Assisted/FactoryProvider.php and the
    class it generates from lib/Assisted/template.php.

    A factory provider derives an implementation class name and a cache
    path from a factory interface, builds a table of factory methods from
    the interface (name, the type named by Returns, the argument list) and
    generates a class whose every method makes one `getInstance` call. The
    filesystem is the `artifacts` map of the injector state; the text of the
    generated file is represented by the `GeneratedFactory` value it
    describes. `var_export` of default values is not modelled: each default
    carries its exported text.
 */
module Factories {
  import opened Failures
  import opened Values

  /** A parameter of a factory interface method. `exported` stands for
      `var_export` of the default. */
  datatype FactoryParamDecl = FactoryParamDecl(
    name: string,
    typeName: Option<string>,
    defaultValue: Option<Value>,
    exported: string)

  /** A method of a factory interface; `returns` is its Returns attribute,
      when present. */
  datatype InterfaceMethod = InterfaceMethod(name: string, returnsType: Option<string>, params: seq<FactoryParamDecl>)

  /** One argument of a generated method: its name, its text in the
      generated parameter list and the default that text declares. */
  datatype Arg = Arg(name: string, text: string, defaultValue: Option<Value>)

  /** One entry of the factory-method table: `['name', 'returns', 'args']`. */
  datatype FactoryMethod = FactoryMethod(name: string, returnsType: string, args: seq<Arg>)

  datatype FactoryProvider = FactoryProvider(id: nat, iface: string, implName: string, cachePath: string)

  /** A generated factory class: its name, the interface it implements and
      its methods. */
  datatype GeneratedFactory = GeneratedFactory(className: string, iface: string, methods: seq<FactoryMethod>)

  /** What a generated method asks of the injector. */
  datatype Request = Request(key: string, assisted: Value)

  /** The generated class name: the interface name with every backslash
      replaced by an underscore, followed by `Impl`. */
  function ImplName(iface: string): (r: string)
    ensures |r| == |iface| + 4 && r[|iface|..] == "Impl"
    ensures forall k :: 0 <= k < |iface| ==> r[k] == (if iface[k] == '\\' then '_' else iface[k])
    ensures '\\' !in r
  {
    Underscored(iface) + "Impl"
  }

  function Underscored(s: string): (r: string)
    ensures |r| == |s|
    ensures forall k :: 0 <= k < |s| ==> r[k] == (if s[k] == '\\' then '_' else s[k])
  {
    seq(|s|, k requires 0 <= k < |s| => if s[k] == '\\' then '_' else s[k])
  }

  /** A name without namespace separators keeps its spelling. */
  lemma ImplNameOfPlainName(iface: string)
    requires '\\' !in iface
    ensures ImplName(iface) == iface + "Impl"
  {
  }

  /** Underscores and namespace separators meet in the same class name, so
      `A\B` and `A_B` share one implementation name and one cache file. */
  lemma ImplNameConflatesSeparators()
    ensures ImplName("A\\B") == ImplName("A_B")
  {
  }

  /** `new FactoryProvider(iface)`: fails unless a truthy cache directory
      has been set. */
  function NewFactoryProvider(id: nat, iface: string, cacheDir: Option<string>): (r: Result<FactoryProvider>)
    ensures r.Ok? <==> cacheDir.Some? && TruthyString(cacheDir.value)
    ensures r.Fail? ==> r.error == CacheDirNotSet
    ensures r.Ok? ==> r.value.id == id && r.value.iface == iface && r.value.implName == ImplName(iface)
    ensures r.Ok? ==> r.value.cachePath == cacheDir.value + "/" + ImplName(iface) + ".php"
  {
    if cacheDir.None? || !TruthyString(cacheDir.value) then Fail(CacheDirNotSet)
    else Ok(FactoryProvider(id, iface, ImplName(iface), cacheDir.value + "/" + ImplName(iface) + ".php"))
  }

  /** `forInterface()`. */
  function ForInterface(fp: FactoryProvider): string {
    fp.iface
  }

  /** `forInterface()` returns the interface the provider was made for, and
      its class and file are named after it. */
  lemma ForInterfaceRoundTrip(id: nat, iface: string, cacheDir: Option<string>)
    requires NewFactoryProvider(id, iface, cacheDir).Ok?
    ensures var fp := NewFactoryProvider(id, iface, cacheDir).value;
            ForInterface(fp) == iface && fp.implName == ImplName(ForInterface(fp))
  {
  }

  /** The argument text: an optional `Type ` prefix, `$name`, and `=default`
      exactly when a default exists. */
  function ArgText(p: FactoryParamDecl): (r: string)
    ensures p.typeName.None? ==> |r| > |p.name| && r[0] == '$' && r[1..|p.name| + 1] == p.name
    ensures p.typeName.Some? ==>
              |r| > |p.typeName.value| + |p.name| + 1 && r[..|p.typeName.value| + 2] == p.typeName.value + " $"
    ensures '=' !in p.name && (p.typeName.Some? ==> '=' !in p.typeName.value) ==>
              ('=' in r <==> p.defaultValue.Some?)
  {
    var prefix := if p.typeName.Some? then p.typeName.value + " " else "";
    var suffix := if p.defaultValue.Some? then "=" + p.exported else "";
    var r := prefix + "$" + p.name + suffix;
    assert r[..|prefix| + 1] == prefix + "$";
    assert r[|prefix| + 1..|prefix| + 1 + |p.name|] == p.name;
    assert forall c :: c in r <==> c in prefix || c == '$' || c in p.name || c in suffix;
    r
  }

  /** `createFactoryMethodParameters`. */
  function FactoryArgs(ps: seq<FactoryParamDecl>): (r: seq<Arg>)
    ensures |r| == |ps|
    ensures forall k :: 0 <= k < |ps| ==> r[k] == Arg(ps[k].name, ArgText(ps[k]), ps[k].defaultValue)
  {
    seq(|ps|, k requires 0 <= k < |ps| => Arg(ps[k].name, ArgText(ps[k]), ps[k].defaultValue))
  }

  /** A method whose Returns attribute is missing or empty. */
  predicate MissingReturnsOn(m: InterfaceMethod) {
    !(m.returnsType.Some? && TruthyString(m.returnsType.value))
  }

  /** The table entries for `ms`, in order; the first method without a
      usable Returns aborts the table. */
  function MethodTable(ms: seq<InterfaceMethod>): (r: Result<seq<FactoryMethod>>)
    ensures r.Fail? <==> exists k :: 0 <= k < |ms| && MissingReturnsOn(ms[k])
    ensures r.Fail? ==> r.error == MissingReturns
    ensures r.Ok? ==> |r.value| == |ms|
    ensures r.Ok? ==> forall k :: 0 <= k < |ms| ==>
              r.value[k] == FactoryMethod(ms[k].name, ms[k].returnsType.value, FactoryArgs(ms[k].params))
    decreases |ms|
  {
    if ms == [] then Ok([])
    else if MissingReturnsOn(ms[0]) then Fail(MissingReturns)
    else
      var rest := MethodTable(ms[1..]);
      assert forall k :: 1 <= k < |ms| ==> ms[k] == ms[1..][k - 1];
      if rest.Fail? then Fail(rest.error)
      else
        var r := [FactoryMethod(ms[0].name, ms[0].returnsType.value, FactoryArgs(ms[0].params))] + rest.value;
        assert forall k :: 1 <= k < |r| ==> r[k] == rest.value[k - 1];
        Ok(r)
  }

  /** `createFactoryMethods`: reflection on an interface the program does
      not declare fails. */
  function FactoryMethods(interfaces: map<string, seq<InterfaceMethod>>, iface: string): (r: Result<seq<FactoryMethod>>)
    ensures iface !in interfaces ==> r == Fail(UnknownInterface(iface))
    ensures iface in interfaces ==> r == MethodTable(interfaces[iface])
  {
    if iface !in interfaces then Fail(UnknownInterface(iface)) else MethodTable(interfaces[iface])
  }

  /** Rendering the template: one generated method per table entry. */
  function Generate(interfaces: map<string, seq<InterfaceMethod>>, fp: FactoryProvider): (r: Result<GeneratedFactory>)
    ensures r.Ok? ==> r.value.className == fp.implName && r.value.iface == fp.iface
    ensures r.Ok? ==> FactoryMethods(interfaces, fp.iface) == Ok(r.value.methods)
    ensures r.Fail? ==> FactoryMethods(interfaces, fp.iface).Fail?
  {
    var ms := FactoryMethods(interfaces, fp.iface);
    if ms.Fail? then Fail(ms.error) else Ok(GeneratedFactory(fp.implName, fp.iface, ms.value))
  }

  /** The first generated method called `name`. */
  function FindMethod(ms: seq<FactoryMethod>, name: string): (r: Option<FactoryMethod>)
    ensures r.Some? <==> exists k :: 0 <= k < |ms| && ms[k].name == name
    ensures r.Some? ==> r.value in ms && r.value.name == name
    decreases |ms|
  {
    if ms == [] then None
    else if ms[0].name == name then Some(ms[0])
    else
      var r := FindMethod(ms[1..], name);
      assert forall k :: 1 <= k < |ms| ==> ms[k] == ms[1..][k - 1];
      r
  }

  /** The value each parameter takes in a call with `actual` arguments: the
      argument passed, else the declared default; a missing argument
      without a default is an error. */
  function BindArgs(args: seq<Arg>, actual: seq<Value>): (r: Result<seq<Value>>)
    ensures r.Ok? <==> forall k :: |actual| <= k < |args| ==> args[k].defaultValue.Some?
    ensures r.Fail? ==> exists k :: |actual| <= k < |args| && r.error == MissingArgument(args[k].name)
    ensures r.Ok? ==> |r.value| == |args|
    ensures r.Ok? ==> forall k :: 0 <= k < |args| ==>
              r.value[k] == (if k < |actual| then actual[k] else args[k].defaultValue.value)
    decreases |args|
  {
    if args == [] then Ok([])
    else if |actual| == 0 && args[0].defaultValue.None? then Fail(MissingArgument(args[0].name))
    else
      var v := if |actual| > 0 then actual[0] else args[0].defaultValue.value;
      var tail := if |actual| > 0 then actual[1..] else [];
      var rest := BindArgs(args[1..], tail);
      BindArgsShift(args, actual, tail);
      if rest.Fail? then Fail(rest.error)
      else
        var r := [v] + rest.value;
        assert forall k :: 1 <= k < |r| ==> r[k] == rest.value[k - 1];
        Ok(r)
  }

  /** Binding the first argument shifts every later position by one, in
      the arguments and in the values passed alike. */
  lemma {:induction false} BindArgsShift(args: seq<Arg>, actual: seq<Value>, tail: seq<Value>)
    requires args != [] && tail == (if |actual| > 0 then actual[1..] else [])
    requires |actual| > 0 || args[0].defaultValue.Some?
    ensures forall k :: 1 <= k < |args| ==> args[k] == args[1..][k - 1]
    ensures forall k :: 1 <= k < |args| && k < |actual| ==> actual[k] == tail[k - 1]
    ensures (forall k :: |actual| <= k < |args| ==> args[k].defaultValue.Some?) <==>
            (forall k :: |tail| <= k < |args[1..]| ==> args[1..][k].defaultValue.Some?)
  {
    assert forall k :: 1 <= k < |args| ==> args[k] == args[1..][k - 1];
    if |actual| > 0 {
      assert |tail| == |actual| - 1;
    }
  }

  /** The assisted map a generated method passes: `[name => value, ...]`
      over its arguments in order, omitted (so `false`) when it has none. */
  function AssistedMap(args: seq<Arg>, values: seq<Value>): (r: Value)
    requires |values| == |args|
    ensures args == [] ==> r == Bool(false)
    ensures args != [] ==> r.Arr? && |r.entries| == |args|
    ensures args != [] ==> forall k :: 0 <= k < |args| ==> r.entries[k] == Entry(StrKey(args[k].name), values[k])
  {
    if args == [] then Bool(false)
    else Arr(seq(|args|, k requires 0 <= k < |args| => Entry(StrKey(args[k].name), values[k])))
  }

  /** Calling method `name` of a generated factory with `actual`: the one
      request it makes of the injector. */
  function FactoryRequest(gf: GeneratedFactory, name: string, actual: seq<Value>): (r: Result<Request>)
    ensures FindMethod(gf.methods, name).None? ==> r == Fail(NoSuchMethod(name))
    ensures r.Ok? ==> exists m :: m in gf.methods && m.name == name && r.value.key == m.returnsType
    ensures FindMethod(gf.methods, name).Some? ==>
              (r.Ok? <==> BindArgs(FindMethod(gf.methods, name).value.args, actual).Ok?)
    ensures FindMethod(gf.methods, name).Some? && r.Fail? ==>
              r == Fail(BindArgs(FindMethod(gf.methods, name).value.args, actual).error)
    ensures FindMethod(gf.methods, name).Some? && r.Ok? ==>
              var m := FindMethod(gf.methods, name).value;
              r.value.key == m.returnsType && r.value.assisted == AssistedMap(m.args, BindArgs(m.args, actual).value)
  {
    match FindMethod(gf.methods, name)
    case None => Fail(NoSuchMethod(name))
    case Some(m) =>
      var vs := BindArgs(m.args, actual);
      if vs.Fail? then Fail(vs.error) else Ok(Request(m.returnsType, AssistedMap(m.args, vs.value)))
  }

  /** Names of a generated method's arguments are distinct (PHP rejects a
      repeated parameter name). */
  predicate DistinctNames(args: seq<Arg>) {
    forall i, j :: 0 <= i < j < |args| ==> args[i].name != args[j].name
  }

  /** Each argument reaches the constructor parameter of the same name:
      in the assisted map, the name of argument `k` is set exactly when its
      value is not null, and then it holds that value. */
  lemma {:induction false} AssistedMapDeliversArgument(args: seq<Arg>, values: seq<Value>, k: nat)
    requires |values| == |args| && DistinctNames(args) && k < |args|
    ensures IssetKey(AssistedMap(args, values), args[k].name) <==> values[k] != Null
    ensures values[k] != Null ==> ValueAt(AssistedMap(args, values), args[k].name) == values[k]
  {
    var es := AssistedMap(args, values).entries;
    LookupUnique(es, StrKey(args[k].name), k);
  }

  /** In an array with distinct keys, the lookup of the key at `k` finds
      the value at `k`. */
  lemma {:induction false} LookupUnique(es: seq<Entry>, key: Key, k: nat)
    requires k < |es| && es[k].key == key
    requires forall i :: 0 <= i < |es| && i != k ==> es[i].key != key
    ensures Lookup(es, key) == Some(es[k].val)
    decreases |es|
  {
    if k > 0 {
      assert es[0].key != key;
      LookupUnique(es[1..], key, k - 1);
    }
  }
}

=== FILE: failures.dfy ===
/** Optional values, results and the errors the container raises.

    Every exception the PHP code throws becomes an `Error`; an operation that
    also threads state returns a `Run`, which keeps the state reached at the
    point of failure (a PHP exception does not roll back caches filled before
    it was thrown).
 */
module Failures {

  datatype Option<+T> = None | Some(value: T) {
    function GetOr(default: T): T {
      match this
      case Some(v) => v
      case None => default
    }
  }

  /** The exceptions of the container, one constructor per distinct message. */
  datatype Error =
    | SelfBinding                   // BindingException from Binding::to
    | NoBinding(key: string)        // BindingException from Injector::createInstance
    | MissingAssisted(name: string) // BindingException from createConstructorParameters
    | AssistedOnSetter              // \Exception from InjectionMetaClass
    | NoInjectableConstructor       // \Exception from InjectionMetaClass::injectableConstructor
    | InvalidScope                  // InvalidScopeException from Scopes
    | MissingReturns                // AssistedInjectException from FactoryProvider
    | CacheDirNotSet                // AssistedInjectCacheException from FactoryProvider
    | UnknownInterface(name: string) // ReflectionException on a factory interface that does not exist
    | MissingArgument(name: string)  // ArgumentCountError calling a generated factory method
    | NoSuchMethod(name: string)     // calling an undefined method on a generated factory
    | Exhausted                     // resolution nested deeper than the fuel allows
    | CallOnNull(name: string)      // Error calling a method on the null that `Binding::in` returns

  datatype Result<+T> = Ok(value: T) | Fail(error: Error) {
    predicate IsFailure() { Fail? }

    function PropagateFailure<U>(): Result<U>
      requires Fail?
    {
      Fail(error)
    }

    function Extract(): T
      requires Ok?
    {
      value
    }
  }

  /** The outcome of a stateful operation together with the state it left. */
  datatype Run<+S, +T> = Run(out: Result<T>, st: S)

  /** The text of the exception each error stands for. */
  function Message(e: Error): string
  {
    match e
    case SelfBinding => "Cannot bind an interface to itself"
    case NoBinding(key) => "No binding found for interface \"" + key + "\""
    case MissingAssisted(name) => "Missing assisted parameter \"" + name + "\""
    case AssistedOnSetter => "Assisted injection not possible for setters"
    case NoInjectableConstructor => "No injectable constructor found"
    case InvalidScope => "Invalid scope specified"
    case MissingReturns => "Missing #[Returns(...)] attribute in factory interface"
    case CacheDirNotSet => "Cache directory not set, call FactoryProvider::setCacheDir first"
    case UnknownInterface(name) => "Class \"" + name + "\" does not exist"
    case MissingArgument(name) => "Too few arguments: missing $" + name
    case NoSuchMethod(name) => "Call to undefined method " + name + "()"
    case Exhausted => "Maximum function nesting level reached"
    case CallOnNull(name) => "Call to a member function " + name + "() on null"
  }

  /** The resolution-error message names the missing key, and different keys
      give different messages. */
  lemma {:induction false} NoBindingMessageNamesKey(k1: string, k2: string)
    ensures Message(NoBinding(k1)) == Message(NoBinding(k2)) <==> k1 == k2
  {
    var pre := "No binding found for interface \"";
    if Message(NoBinding(k1)) == Message(NoBinding(k2)) {
      var m1 := Message(NoBinding(k1));
      var m2 := Message(NoBinding(k2));
      assert |m1| == |pre| + |k1| + 1;
      assert |k1| == |k2|;
      forall i | 0 <= i < |k1|
        ensures k1[i] == k2[i]
      {
        assert m1[|pre| + i] == k1[i];
        assert m2[|pre| + i] == k2[i];
      }
    }
  }
}

=== FILE: injector_facts.dfy ===
/** What resolution promises, stated across several calls of the injector:
    how bindings redirect, what the scopes share and what they do not,
    that metadata and factories are made once, that a provider parameter
    resolves nothing until asked, and that each argument of a generated
    factory method reaches the constructor parameter of the same name.
 */
module InjectorFacts {
  import opened Failures
  import opened Values
  import opened Parameters
  import opened MetaClasses
  import opened Scopes
  import opened Singletons
  import opened Factories
  import opened Bindings
  import opened Binders
  import opened Injectors
  import opened Seqs

  /** A key bound, in the instance scope, to an implementation resolves as
      that implementation does, one level of nesting further down. */
  lemma RedirectFollows(inj: Injector, fuel: nat, st: State, key: string, assisted: Value, optional: bool)
    requires key != InjectorClass && key in inj.binder.bindings
    requires inj.binder.bindings[key].scope.kind == InstanceKind
    requires inj.binder.bindings[key].implementation.Some?
    ensures GetInstance(inj, fuel + 1, st, key, assisted, optional)
         == GetInstance(inj, fuel, st, inj.binder.bindings[key].implementation.value, assisted, optional)
  {
    var b := inj.binder.bindings[key];
    assert GetInstance(inj, fuel + 1, st, key, assisted, optional) == GetDependency(inj, fuel, st, b, assisted, optional);
    assert StrategyOf(b) == Redirect(b.implementation.value);
  }

  /** A bound key is resolved by its binding, with the same assisted values
      and optional flag, one level of nesting further down. */
  lemma BoundKeyDelegates(inj: Injector, fuel: nat, st: State, key: string, assisted: Value, optional: bool)
    requires key != InjectorClass && key in inj.binder.bindings
    ensures GetInstance(inj, fuel + 1, st, key, assisted, optional)
         == GetDependency(inj, fuel, st, inj.binder.bindings[key], assisted, optional)
  {
  }

  /** The instance scope forwards every request, assisted values and
      optional flag unchanged, to the binding's strategy. */
  lemma InstanceScopeDelegates(inj: Injector, fuel: nat, st: State, b: Binding, assisted: Value, optional: bool)
    requires b.scope.kind == InstanceKind
    ensures GetDependency(inj, fuel, st, b, assisted, optional) == CreateDependency(inj, fuel, st, b, assisted, optional)
  {
  }

  /** Two different bindings of one binder never share a singleton cache
      entry, whatever the assisted values. */
  lemma DistinctBindingsSeparate(inj: Injector, k1: string, k2: string, a1: Value, a2: Value)
    requires WellFormed(inj.binder) && k1 in inj.binder.bindings && k2 in inj.binder.bindings && k1 != k2
    ensures var b1 := inj.binder.bindings[k1];
            var b2 := inj.binder.bindings[k2];
            UniqueKey(b1.scope.id, b1.id, a1) != UniqueKey(b2.scope.id, b2.id, a2)
  {
  }

  /** An unbound key is constructed; the class of the injector is never
      constructed, whatever is bound to it. */
  lemma UnboundKeyConstructs(inj: Injector, fuel: nat, st: State, key: string, assisted: Value, optional: bool)
    requires key !in inj.binder.bindings && fuel > 0
    ensures key != InjectorClass ==>
              GetInstance(inj, fuel, st, key, assisted, optional) == CreateInstance(inj, fuel - 1, st, key, assisted, optional)
    ensures GetInstance(inj, fuel, st, InjectorClass, assisted, optional) == Run(Ok(Ref(inj.self)), st)
  {
  }

  /** A parameter whose type is neither bound nor a declared class is null
      when it is optional and an error naming the type otherwise; nothing
      changes either way. */
  lemma UnresolvableParameter(inj: Injector, fuel: nat, st: State, p: InjectionParameter)
    requires !IsProvider(p) && fuel > 0
    requires Type(p) != InjectorClass && Type(p) !in inj.binder.bindings && Type(p) !in inj.world.classes
    ensures p.isOptional ==> CreateParameter(inj, fuel, st, p) == Run(Ok(Null), st)
    ensures !p.isOptional ==> CreateParameter(inj, fuel, st, p) == Run(Fail(NoBinding(Type(p))), st)
  {
  }

  /** A required constructor parameter whose type is neither bound nor a
      declared class makes construction fail with an error naming the type,
      once every parameter before it is certain to be found. */
  lemma UnresolvableConstructorParameter(inj: Injector, fuel: nat, st: State, key: string, assisted: Value, optional: bool, k: nat)
    requires key in inj.world.classes && Coherent(inj, st) && InjectableCtor(inj.world, key) && fuel > 0
    requires var ps := CtorParamsOf(inj.world, key);
             k < |ps| && (forall j :: 0 <= j < k ==> Succeeds(inj, fuel, ps[j], assisted))
             && !ps[k].isAssisted && !IsProvider(ps[k]) && !ps[k].isOptional
             && Type(ps[k]) != InjectorClass && Type(ps[k]) !in inj.binder.bindings && Type(ps[k]) !in inj.world.classes
    ensures CreateInstance(inj, fuel, st, key, assisted, optional).out == Fail(NoBinding(Type(CtorParamsOf(inj.world, key)[k])))
  {
    CtorFailsWith(inj, fuel, CtorParamsOf(inj.world, key), assisted, k);
  }

  lemma CtorFailsWith(inj: Injector, fuel: nat, ps: seq<InjectionParameter>, assisted: Value, k: nat)
    requires k < |ps| && (forall j :: 0 <= j < k ==> Succeeds(inj, fuel, ps[j], assisted)) && fuel > 0
    requires !ps[k].isAssisted && !IsProvider(ps[k]) && !ps[k].isOptional
             && Type(ps[k]) != InjectorClass && Type(ps[k]) !in inj.binder.bindings && Type(ps[k]) !in inj.world.classes
    ensures FailsFirst(inj, fuel, ps, assisted, k)
    ensures ArgSettled(inj, fuel, ps[k], assisted).value.error == NoBinding(Type(ps[k]))
  {
  }

  /** A required setter parameter whose type is neither bound nor a
      declared class makes creating a class without a constructor fail with
      an error naming the type, once the properties and every setter
      parameter before it are certain to be found. */
  lemma UnresolvableSetterParameter(inj: Injector, fuel: nat, st: State, key: string, assisted: Value, optional: bool, i: nat, k: nat)
    requires key in inj.world.classes && !HasConstructor(Decl(inj.world, key)) && Coherent(inj, st) && fuel > 0
    requires Extract(Decl(inj.world, key)).Ok?
    requires var mc := Extract(Decl(inj.world, key)).value;
             var setters := InjectableSetters(mc);
             PropsSucceed(inj, fuel, mc.properties)
             && i < |setters| && SettersSucceed(inj, fuel, setters[..i])
             && k < |setters[i].params| && (forall j :: 0 <= j < k ==> ParamSucceeds(inj, fuel, setters[i].params[j]))
             && !IsProvider(setters[i].params[k]) && !setters[i].params[k].isOptional
             && Type(setters[i].params[k]) != InjectorClass
             && Type(setters[i].params[k]) !in inj.binder.bindings && Type(setters[i].params[k]) !in inj.world.classes
    ensures CreateInstance(inj, fuel, st, key, assisted, optional).out
         == Fail(NoBinding(Type(InjectableSetters(Extract(Decl(inj.world, key)).value)[i].params[k])))
  {
    var mc := Extract(Decl(inj.world, key)).value;
    SetterFailsWith(inj, fuel, InjectableSetters(mc), i, k);
  }

  lemma SetterFailsWith(inj: Injector, fuel: nat, setters: seq<MethodMeta>, i: nat, k: nat)
    requires i < |setters| && SettersSucceed(inj, fuel, setters[..i]) && fuel > 0
    requires k < |setters[i].params| && (forall j :: 0 <= j < k ==> ParamSucceeds(inj, fuel, setters[i].params[j]))
    requires var p := setters[i].params[k];
             !IsProvider(p) && !p.isOptional && Type(p) != InjectorClass
             && Type(p) !in inj.binder.bindings && Type(p) !in inj.world.classes
    ensures SetterFailsFirst(inj, fuel, setters, i, k)
    ensures ParamSettled(inj, fuel, setters[i].params[k]).value.error == NoBinding(Type(setters[i].params[k]))
  {
  }

  /** An optional constructor parameter whose type is neither bound nor a
      declared class receives null. */
  lemma OptionalConstructorParameterIsNull(inj: Injector, fuel: nat, st: State, key: string, assisted: Value, optional: bool, k: nat)
    requires key in inj.world.classes && Coherent(inj, st) && InjectableCtor(inj.world, key) && fuel > 0
    requires CreateInstance(inj, fuel, st, key, assisted, optional).out.Ok?
    requires var ps := CtorParamsOf(inj.world, key);
             k < |ps| && !ps[k].isAssisted && !IsProvider(ps[k]) && ps[k].isOptional
             && Type(ps[k]) != InjectorClass && Type(ps[k]) !in inj.binder.bindings && Type(ps[k]) !in inj.world.classes
    ensures var r := CreateInstance(inj, fuel, st, key, assisted, optional);
            k < |r.st.heap[r.out.value.id].ctorArgs| && r.st.heap[r.out.value.id].ctorArgs[k] == Entry(IntKey(k), Null)
  {
    var r := CreateInstance(inj, fuel, st, key, assisted, optional);
    ReceivesNull(inj, fuel, r.st.heap, CtorParamsOf(inj.world, key), assisted, r.st.heap[r.out.value.id].ctorArgs, k);
  }

  lemma ReceivesNull(inj: Injector, fuel: nat, heap: seq<Obj>, ps: seq<InjectionParameter>, assisted: Value, es: seq<Entry>, k: nat)
    requires ArgsMatch(inj, fuel, heap, ps, assisted, es) && fuel > 0
    requires k < |ps| && !ps[k].isAssisted && !IsProvider(ps[k]) && ps[k].isOptional
             && Type(ps[k]) != InjectorClass && Type(ps[k]) !in inj.binder.bindings && Type(ps[k]) !in inj.world.classes
    ensures k < |es| && es[k] == Entry(IntKey(k), Null)
  {
    assert Receives(inj, fuel, heap, ps[k], assisted, es[k].val);
    assert Settled(inj, fuel, Type(ps[k]), ps[k].isOptional) == Some(Ok(Null));
  }

  /** An injected property whose type is neither bound nor a declared
      class is set to null: property parameters are always optional. */
  lemma UnresolvablePropertyIsNull(inj: Injector, fuel: nat, st: State, id: nat, cls: string, n: string)
    requires Coherent(inj, st) && id < |st.heap| && id !in Shared(inj) && fuel > 0
    requires InjectMembers(inj, fuel, st, id, cls).out.Ok?
    requires Extract(Decl(inj.world, cls)).Ok?
    requires var pm := LastWith(Extract(Decl(inj.world, cls)).value.properties, PropName, n);
             pm.Some? && !IsProvider(pm.value.param) && Type(pm.value.param) != InjectorClass
             && Type(pm.value.param) !in inj.binder.bindings && Type(pm.value.param) !in inj.world.classes
    ensures var r := InjectMembers(inj, fuel, st, id, cls);
            n in MemberOf(r.st, id).props && MemberOf(r.st, id).props[n] == Null
  {
    var r := InjectMembers(inj, fuel, st, id, cls);
    var c := Decl(inj.world, cls);
    var props := Extract(c).value.properties;
    FrameHeap(inj, st, r.st, Shared(inj) + {id});
    assert Coherent(inj, r.st);
    assert r.st.meta[cls] == Extract(c).value;
    var after := MemberOf(r.st, id).props;
    assert PropsSet(inj, fuel, r.st.heap, MemberOf(st, id).props, after, props);
    var pm := LastWith(props, PropName, n).value;
    assert n in after && ParamReceives(inj, fuel, r.st.heap, pm.param, after[n]);
    PropertyParameterOptional(c, n);
    assert Settled(inj, fuel, Type(pm.param), pm.param.isOptional) == Some(Ok(Null));
  }

  /** Every injected property's parameter is optional. */
  lemma PropertyParameterOptional(c: ClassDecl, n: string)
    requires Extract(c).Ok? && LastWith(Extract(c).value.properties, PropName, n).Some?
    ensures LastWith(Extract(c).value.properties, PropName, n).value.param.isOptional
  {
    var props := Extract(c).value.properties;
    LastWithIsLast(props, PropName, n);
    var i :| 0 <= i < |props| && props[i] == LastWith(props, PropName, n).value;
    assert props == InjectableProperties(c.properties, 0);
    assert props[i].param == PropertyParameter(Filter(c.properties[0..], Injected)[i]);
  }

  /** Once a factory provider is installed, asking for its interface yields
      the provider's factory. */
  lemma FactoryInterfaceYieldsFactory(inj: Injector, fuel: nat, st: State, b: Binder, fp: FactoryProvider, assisted: Value, optional: bool)
    requires WellFormed(b) && inj.binder == InstallFactoryProvider(b, fp) && fp.iface != InjectorClass
    ensures GetInstance(inj, fuel + 1, st, fp.iface, assisted, optional) == FactoryGet(inj, st, fp)
  {
    var bd := inj.binder.bindings[fp.iface];
    assert GetDependency(inj, fuel, st, bd, assisted, optional) == CreateDependency(inj, fuel, st, bd, assisted, optional);
  }

  /** A parameter of the injector's own type receives the injector. */
  lemma InjectorParameter(inj: Injector, fuel: nat, st: State, p: InjectionParameter)
    requires !IsProvider(p) && Type(p) == InjectorClass
    ensures CreateParameter(inj, fuel, st, p) == Run(Ok(Ref(inj.self)), st)
  {
  }

  /** After a singleton binding has produced a non-null value, asking again
      with the same assisted values returns that value and changes
      nothing. */
  lemma SingletonRepeat(inj: Injector, fuel1: nat, fuel2: nat, st: State, b: Binding, assisted: Value, opt1: bool, opt2: bool)
    requires b.scope.kind == SingletonKind
    requires GetDependency(inj, fuel1, st, b, assisted, opt1).out.Ok?
    requires GetDependency(inj, fuel1, st, b, assisted, opt1).out.value != Null
    ensures var r := GetDependency(inj, fuel1, st, b, assisted, opt1);
            GetDependency(inj, fuel2, r.st, b, assisted, opt2) == r
  {
  }

  /** The singleton cache ignores the names of the assisted values: arrays
      holding the same values in the same order share one instance. */
  lemma {:induction false} SingletonIgnoresNames(inj: Injector, fuel1: nat, fuel2: nat, st: State, b: Binding,
                                                 es1: seq<Entry>, es2: seq<Entry>, opt1: bool, opt2: bool)
    requires b.scope.kind == SingletonKind
    requires |es1| == |es2| && forall k :: 0 <= k < |es1| ==> es1[k].val == es2[k].val
    requires GetDependency(inj, fuel1, st, b, Arr(es1), opt1).out.Ok?
    requires GetDependency(inj, fuel1, st, b, Arr(es1), opt1).out.value != Null
    ensures var r := GetDependency(inj, fuel1, st, b, Arr(es1), opt1);
            GetDependency(inj, fuel2, r.st, b, Arr(es2), opt2) == r
  {
    NamesIgnored(es1, es2);
    assert UniqueKey(b.scope.id, b.id, Arr(es1)) == UniqueKey(b.scope.id, b.id, Arr(es2));
  }

  /** A cached null is not an instance: the singleton scope creates the
      dependency again. */
  lemma SingletonRetriesNull(inj: Injector, fuel: nat, st: State, b: Binding, assisted: Value, optional: bool)
    requires b.scope.kind == SingletonKind
    requires UniqueKey(b.scope.id, b.id, assisted) in st.singletons
    requires st.singletons[UniqueKey(b.scope.id, b.id, assisted)] == Null
    ensures GetDependency(inj, fuel, st, b, assisted, optional).out == CreateDependency(inj, fuel, st, b, assisted, optional).out
  {
  }

  /** In the instance scope every request constructs a new object: two
      successful requests in a row yield two different objects. */
  lemma InstanceScopeFresh(inj: Injector, fuel1: nat, fuel2: nat, st: State, b: Binding, a1: Value, a2: Value, o1: bool, o2: bool)
    requires b.scope.kind == InstanceKind && StrategyOf(b) == Construct(b.key) && b.key in inj.world.classes
    requires GetDependency(inj, fuel1, st, b, a1, o1).out.Ok?
    requires GetDependency(inj, fuel2, GetDependency(inj, fuel1, st, b, a1, o1).st, b, a2, o2).out.Ok?
    ensures var r1 := GetDependency(inj, fuel1, st, b, a1, o1);
            var r2 := GetDependency(inj, fuel2, r1.st, b, a2, o2);
            r1.out.value.Ref? && r2.out.value.Ref? && r1.out.value != r2.out.value
  {
    var r1 := GetDependency(inj, fuel1, st, b, a1, o1);
    assert r1 == CreateInstance(inj, fuel1, st, b.key, a1, o1);
    assert GetDependency(inj, fuel2, r1.st, b, a2, o2) == CreateInstance(inj, fuel2, r1.st, b.key, a2, o2);
  }

  /** A bound instance in the instance scope is returned as it is,
      without touching the state. */
  lemma InstanceBindingConstant(inj: Injector, fuel: nat, st: State, b: Binding, assisted: Value, optional: bool)
    requires b.implementation.None? && b.provider.None? && b.instance.Some?
    requires b.scope.kind == InstanceKind
    ensures GetDependency(inj, fuel, st, b, assisted, optional) == Run(Ok(b.instance.value), st)
  {
  }

  /** Metadata is computed at most once per class: asking again returns the
      same answer and changes nothing. */
  lemma MetaOnce(inj: Injector, st: State, cls: string)
    ensures Meta(inj, Meta(inj, st, cls).st, cls) == Meta(inj, st, cls)
  {
  }

  /** Starting from an empty state, the cache never changes what the
      metadata of a class is: it is always what extraction gives. */
  lemma {:induction false} CacheTransparent(inj: Injector, fuel: nat, key: string, assisted: Value, optional: bool, cls: string)
    ensures var r := GetInstance(inj, fuel, EmptyState, key, assisted, optional);
            Meta(inj, r.st, cls).out == Extract(Decl(inj.world, cls))
  {
    assert Coherent(inj, EmptyState);
  }

  /** A factory provider makes its factory once; later calls return the
      same object and change nothing. */
  lemma FactoryOnce(inj: Injector, st: State, fp: FactoryProvider)
    requires FactoryGet(inj, st, fp).out.Ok?
    ensures FactoryGet(inj, FactoryGet(inj, st, fp).st, fp) == FactoryGet(inj, st, fp)
  {
  }

  /** An existing file at the cache path is used as it is, even when the
      interface would now generate something else or nothing at all. */
  lemma {:induction false} StaleFactoryReused(inj: Injector, st: State, fp: FactoryProvider)
    requires fp.id !in st.factories && fp.cachePath in st.artifacts
    ensures var r := FactoryGet(inj, st, fp);
            r.out.Ok? && r.st.heap[r.out.value.id] == FactoryObject(st.artifacts[fp.cachePath])
  {
    var r := FactoryGet(inj, st, fp);
    assert r.st == AddFactory(st, fp, st.artifacts[fp.cachePath]);
  }

  /** A provider parameter resolves nothing when it is injected; each `get`
      on the provider it received resolves the key then. */
  lemma ProviderDefersResolution(inj: Injector, fuel: nat, fuel2: nat, st: State, p: InjectionParameter)
    requires IsProvider(p)
    ensures var r := CreateParameter(inj, fuel, st, p);
            r.out.Ok? && r.out.value.Ref?
            && r.st.heap == st.heap + [LazyProvider(p.providesKey.value)]
            && r.st.members == st.members && r.st.singletons == st.singletons
            && ProviderGet(inj, fuel2, r.st, r.out.value.id)
               == GetInstance(inj, fuel2, r.st, p.providesKey.value, Bool(false), false)
  {
  }

  /** Calling a generated factory method asks the injector for the
      method's return type once, and each argument reaches the assisted
      constructor parameter of the same name: a non-null value as it is, a
      null as if it were absent. An argument left out takes the method's
      default; leaving out one without a default is an error. */
  lemma {:induction false} FactoryArgumentReachesConstructor(inj: Injector, fuel: nat, st: State, id: nat, name: string,
                                                             actual: seq<Value>, k: nat, p: InjectionParameter)
    requires id < |st.heap| && st.heap[id].FactoryObject?
    requires FindMethod(st.heap[id].factory.methods, name).Some?
    requires var m := FindMethod(st.heap[id].factory.methods, name).value;
             DistinctNames(m.args) && k < |m.args| && p.name == m.args[k].name
    ensures var m := FindMethod(st.heap[id].factory.methods, name).value;
            var q := FactoryRequest(st.heap[id].factory, name, actual);
            (q.Ok? <==> forall j :: |actual| <= j < |m.args| ==> m.args[j].defaultValue.Some?)
            && (q.Fail? ==> CallFactory(inj, fuel, st, id, name, actual) == Run(Fail(q.error), st))
            && (q.Ok? ==>
                  var v := if k < |actual| then actual[k] else m.args[k].defaultValue.value;
                  q.value.key == m.returnsType
                  && CallFactory(inj, fuel, st, id, name, actual) == GetInstance(inj, fuel, st, m.returnsType, q.value.assisted, false)
                  && (v != Null ==> AssistedArg(p, q.value.assisted) == Ok(v))
                  && (v == Null && p.isOptional ==> AssistedArg(p, q.value.assisted) == Ok(p.defaultValue))
                  && (v == Null && !p.isOptional ==> AssistedArg(p, q.value.assisted) == Fail(MissingAssisted(p.name))))
  {
    var m := FindMethod(st.heap[id].factory.methods, name).value;
    var vs := BindArgs(m.args, actual);
    if vs.Ok? {
      AssistedMapDeliversArgument(m.args, vs.value, k);
    }
  }
}

=== FILE: injectors.dfy ===
/** The injector: lib/Injector.php, with the scopes' `getDependency`
    (lib/Scope/InstanceScope.php, lib/Scope/SingletonScope.php), the
    binding's `createDependency` (lib/Binding/Binding.php), the lazy
    provider (lib/Provider/ProviderImpl.php) and the factory provider's
    `get` and generated methods (lib/Assisted/FactoryProvider.php,
    lib/Assisted/template.php).

    Resolution is one family of mutually recursive functions threading a
    `State`: the objects created so far (`heap`, indexed by object id), the
    properties injected into and setters called on each object (`members`),
    the per-class metadata cache (`meta`), the singleton cache, the factory
    objects of the factory providers and the generated factory files. The
    source has no cycle detection; `fuel` bounds the nesting of
    `getInstance` calls and `Exhausted` reports running out. A failure
    carries the state reached when it was raised.

    Reflection is replaced by the `World`: the declared classes, the
    declared factory interfaces, `user`, which stands for the user code
    the container calls (callable providers, provider methods and the `get`
    of provider objects) as a fixed function of the call, and `tables`, the
    property table `(array)` gives for an object.
 */
module Injectors {
  import opened Failures
  import opened Values
  import opened Parameters
  import opened MetaClasses
  import opened Scopes
  import opened Singletons
  import opened Factories
  import opened Bindings
  import opened Binders
  import opened Seqs

  /** `Pulp\Injector`, the class name the injector answers with itself. */
  const InjectorClass := "Pulp\\Injector"

  /** The objects the injector creates. */
  datatype Obj =
    | Instance(cls: string, ctorArgs: seq<Entry>)   // a constructed class and its constructor arguments
    | LazyProvider(key: string)                     // a ProviderImpl for `key`
    | FactoryObject(factory: GeneratedFactory)      // an instance of a generated factory class

  datatype SetterCall = SetterCall(name: string, args: seq<Value>)

  /** What injection did to one object: its injected properties and the
      setters called on it, in order. */
  datatype Members = Members(props: map<string, Value>, calls: seq<SetterCall>)

  /** A call into user code. */
  datatype UserCall =
    | InvokeCallable(fn: nat)
    | InvokeProviderMethod(moduleId: nat, methodName: string)
    | InvokeGet(obj: nat)

  datatype World = World(
    classes: map<string, ClassDecl>,
    interfaces: map<string, seq<InterfaceMethod>>,
    user: UserCall -> Value,
    tables: nat -> seq<Entry>)

  /** An injector: its binder, the program it runs in and its own object
      id. */
  datatype Injector = Injector(binder: Binder, world: World, self: nat)

  datatype State = State(
    heap: seq<Obj>,
    members: map<nat, Members>,
    meta: map<string, MetaClass>,
    singletons: map<CacheKey, Value>,
    factories: map<nat, nat>,
    artifacts: map<string, GeneratedFactory>)

  const EmptyState := State([], map[], map[], map[], map[], map[])

  /** The declaration of `cls`; an undeclared class has no methods and
      no properties. */
  function Decl(w: World, cls: string): ClassDecl {
    if cls in w.classes then w.classes[cls] else ClassDecl([], [])
  }

  function MemberOf(st: State, id: nat): Members {
    if id in st.members then st.members[id] else Members(map[], [])
  }

  /** A new object takes the next id. */
  function Alloc(st: State, o: Obj): (r: State)
    ensures r.heap == st.heap + [o] && r.heap[|st.heap|] == o
  {
    st.(heap := st.heap + [o])
  }

  function SetProperty(st: State, id: nat, name: string, v: Value): State {
    var m := MemberOf(st, id);
    st.(members := st.members[id := Members(m.props[name := v], m.calls)])
  }

  function RecordCall(st: State, id: nat, c: SetterCall): State {
    var m := MemberOf(st, id);
    st.(members := st.members[id := Members(m.props, m.calls + [c])])
  }

  /** Nothing is ever removed or replaced: objects keep their ids, cached
      metadata, singletons, factory objects and generated files stay, and
      injected properties and setter calls accumulate. */
  ghost predicate Extends(a: State, b: State) {
    a.heap <= b.heap
    && (forall c :: c in a.meta ==> c in b.meta && b.meta[c] == a.meta[c])
    && a.singletons.Keys <= b.singletons.Keys
    && (forall f :: f in a.factories ==> f in b.factories && b.factories[f] == a.factories[f])
    && (forall f :: f in a.artifacts ==> f in b.artifacts && b.artifacts[f] == a.artifacts[f])
    && (forall i :: i in a.members ==>
          (i in b.members
           && a.members[i].props.Keys <= b.members[i].props.Keys
           && a.members[i].calls <= b.members[i].calls))
  }

  /** Every cached metadata entry is what extraction gives for its class. */
  ghost predicate Coherent(inj: Injector, st: State) {
    Agrees(inj.world, st.meta)
  }

  ghost predicate Agrees(w: World, meta: map<string, MetaClass>) {
    forall c :: c in meta ==> Extract(Decl(w, c)) == Ok(meta[c])
  }

  /** How every resolution step relates the state before and after. */
  ghost predicate Grows(inj: Injector, a: State, b: State) {
    Extends(a, b) && (Coherent(inj, a) ==> Coherent(inj, b))
  }

  /** The provider objects the binder refers to. */
  function SharedObjects(b: Binder): set<nat> {
    set k | k in b.bindings && b.bindings[k].provider.Some? && b.bindings[k].provider.value.ObjectProvider?
      :: b.bindings[k].provider.value.obj
  }

  function ProviderIds(p: Option<Provider>): set<nat> {
    if p.Some? && p.value.ObjectProvider? then {p.value.obj} else {}
  }

  function Shared(inj: Injector): set<nat> {
    SharedObjects(inj.binder)
  }

  /** Objects that existed before, other than those in `spare`, keep their
      injected members. */
  ghost predicate Untouched(a: State, b: State, spare: set<nat>) {
    forall i :: 0 <= i < |a.heap| && i !in spare ==> MemberOf(b, i) == MemberOf(a, i)
  }

  /** The frame of a resolution step that may inject into `spare`. */
  ghost predicate Frame(inj: Injector, a: State, b: State, spare: set<nat>) {
    Grows(inj, a, b) && Untouched(a, b, spare)
  }

  lemma FrameRefl(inj: Injector, a: State, spare: set<nat>)
    ensures Frame(inj, a, a, spare)
  {
  }

  /** Two steps make a step, sparing what either spares. */
  lemma FrameTrans(inj: Injector, a: State, b: State, c: State, s1: set<nat>, s2: set<nat>, s: set<nat>)
    requires Frame(inj, a, b, s1) && Frame(inj, b, c, s2)
    requires s1 <= s && s2 <= s
    ensures Frame(inj, a, c, s)
  {
  }

  lemma FrameWeaken(inj: Injector, a: State, b: State, s1: set<nat>, s: set<nat>)
    requires Frame(inj, a, b, s1) && s1 <= s
    ensures Frame(inj, a, b, s)
  {
  }

  /** Injecting into an object created after `a` touches nothing of `a`. */
  lemma FrameFresh(inj: Injector, a: State, b: State, s: set<nat>, id: nat)
    requires Frame(inj, a, b, s + {id}) && id >= |a.heap|
    ensures Frame(inj, a, b, s)
  {
  }

  /** Objects keep their ids and a coherent cache stays coherent. */
  lemma FrameHeap(inj: Injector, a: State, b: State, s: set<nat>)
    requires Frame(inj, a, b, s)
    ensures a.heap <= b.heap && |a.heap| <= |b.heap| && b.heap[..|a.heap|] == a.heap
    ensures Coherent(inj, a) ==> Coherent(inj, b)
  {
  }

  /** A step that leaves the metadata cache as it is keeps it coherent. */
  lemma FrameSameMeta(inj: Injector, a: State, b: State, spare: set<nat>)
    requires Extends(a, b) && b.meta == a.meta && Untouched(a, b, spare)
    ensures Frame(inj, a, b, spare)
  {
  }

  lemma FrameAlloc(inj: Injector, st: State, o: Obj)
    ensures Frame(inj, st, Alloc(st, o), {})
  {
    AllocExtends(st, o);
    AllocUntouched(st, o);
    FrameSameMeta(inj, st, Alloc(st, o), {});
  }

  lemma AllocExtends(st: State, o: Obj)
    ensures Extends(st, Alloc(st, o))
  {
  }

  lemma AllocUntouched(st: State, o: Obj)
    ensures Untouched(st, Alloc(st, o), {})
  {
  }

  lemma FrameSetProperty(inj: Injector, st: State, id: nat, name: string, v: Value)
    ensures Frame(inj, st, SetProperty(st, id, name, v), {id})
  {
    SetPropertyExtends(st, id, name, v);
    SetPropertyUntouched(st, id, name, v);
    FrameSameMeta(inj, st, SetProperty(st, id, name, v), {id});
  }

  lemma SetPropertyExtends(st: State, id: nat, name: string, v: Value)
    ensures Extends(st, SetProperty(st, id, name, v))
  {
  }

  lemma SetPropertyUntouched(st: State, id: nat, name: string, v: Value)
    ensures Untouched(st, SetProperty(st, id, name, v), {id})
  {
  }

  lemma FrameRecordCall(inj: Injector, st: State, id: nat, c: SetterCall)
    ensures Frame(inj, st, RecordCall(st, id, c), {id})
  {
    RecordCallExtends(st, id, c);
    RecordCallUntouched(st, id, c);
    FrameSameMeta(inj, st, RecordCall(st, id, c), {id});
  }

  lemma RecordCallExtends(st: State, id: nat, c: SetterCall)
    ensures Extends(st, RecordCall(st, id, c))
  {
  }

  lemma RecordCallUntouched(st: State, id: nat, c: SetterCall)
    ensures Untouched(st, RecordCall(st, id, c), {id})
  {
  }

  /** Caching what extraction gives keeps the cache coherent. */
  lemma FrameMetaStore(inj: Injector, st: State, cls: string, mc: MetaClass)
    requires cls !in st.meta && Extract(Decl(inj.world, cls)) == Ok(mc)
    ensures Frame(inj, st, st.(meta := st.meta[cls := mc]), {})
  {
    MetaStoreExtends(st, cls, mc);
    MetaStoreAgrees(inj.world, st.meta, cls, mc);
    MetaStoreUntouched(st, cls, mc);
  }

  lemma MetaStoreExtends(st: State, cls: string, mc: MetaClass)
    requires cls !in st.meta
    ensures Extends(st, st.(meta := st.meta[cls := mc]))
  {
  }

  lemma MetaStoreAgrees(w: World, meta: map<string, MetaClass>, cls: string, mc: MetaClass)
    requires Extract(Decl(w, cls)) == Ok(mc)
    ensures Agrees(w, meta) ==> Agrees(w, meta[cls := mc])
  {
  }

  lemma MetaStoreUntouched(st: State, cls: string, mc: MetaClass)
    ensures Untouched(st, st.(meta := st.meta[cls := mc]), {})
  {
  }

  /** The metadata of `cls`, computed once and then read from the cache. */
  function Meta(inj: Injector, st: State, cls: string): (r: Run<State, MetaClass>)
    ensures Frame(inj, st, r.st, {})
    ensures r.st == st.(meta := r.st.meta)
    ensures cls in st.meta ==> r == Run(Ok(st.meta[cls]), st)
    ensures Coherent(inj, st) ==> r.out == Extract(Decl(inj.world, cls))
    ensures r.out.Ok? ==> cls in r.st.meta && r.st.meta[cls] == r.out.value
    ensures r.out.Fail? ==> r.st == st
  {
    if cls in st.meta then Run(Ok(st.meta[cls]), st)
    else
      var mc := Extract(Decl(inj.world, cls));
      if mc.Fail? then Run(Fail(mc.error), st)
      else
        FrameMetaStore(inj, st, cls, mc.value);
        Run(Ok(mc.value), st.(meta := st.meta[cls := mc.value]))
  }

  /** What `getInstance(key, _, optional)` gives whatever the state: the
      injector for its own class, `Exhausted` with no nesting left, the
      value of a constant bound in the instance scope and, for a key that is
      neither bound nor a declared class, null or an error naming the key.
      `None` when the outcome depends on the state: any other binding, or
      the construction of a declared class. */
  function Settled(inj: Injector, fuel: nat, key: string, optional: bool): Option<Result<Value>> {
    if key == InjectorClass then Some(Ok(Ref(inj.self)))
    else if fuel == 0 then Some(Fail(Exhausted))
    else if key in inj.binder.bindings then
      var b := inj.binder.bindings[key];
      if b.scope.kind == InstanceKind && StrategyOf(b).Constant? then Some(Ok(StrategyOf(b).value)) else None
    else if key in inj.world.classes then None
    else if optional then Some(Ok(Null))
    else Some(Fail(NoBinding(key)))
  }

  /** `getInstance` constructs `key`: an unbound declared class. */
  predicate Constructs(inj: Injector, fuel: nat, key: string) {
    key != InjectorClass && fuel > 0 && key !in inj.binder.bindings && key in inj.world.classes
  }

  /** `v` is a value `getInstance(key, _, optional)` returns, as far as the
      binder and the declared classes fix it: the settled value, or a new
      instance of `key` in `heap` when `key` is constructed. */
  ghost predicate Resolved(inj: Injector, fuel: nat, heap: seq<Obj>, key: string, optional: bool, v: Value) {
    (Settled(inj, fuel, key, optional).Some? ==> Settled(inj, fuel, key, optional).value == Ok(v))
    && (Constructs(inj, fuel, key) ==> v.Ref? && v.id < |heap| && heap[v.id].Instance? && heap[v.id].cls == key)
  }

  /** `v` is what `createParameter` gives `p`: a lazy provider for its key
      in `heap`, or what resolving its type gives. */
  ghost predicate ParamReceives(inj: Injector, fuel: nat, heap: seq<Obj>, p: InjectionParameter, v: Value) {
    if IsProvider(p) then v.Ref? && v.id < |heap| && heap[v.id] == LazyProvider(p.providesKey.value)
    else Resolved(inj, fuel, heap, Type(p), p.isOptional, v)
  }

  /** `v` is the argument a constructor parameter receives: its assisted
      value, or what `createParameter` gives it. */
  ghost predicate Receives(inj: Injector, fuel: nat, heap: seq<Obj>, p: InjectionParameter, assisted: Value, v: Value) {
    if p.isAssisted then AssistedArg(p, assisted) == Ok(v) else ParamReceives(inj, fuel, heap, p, v)
  }

  /** `vs` are the values `createParameter` gives `ps`, in order. */
  ghost predicate ArgsReceive(inj: Injector, fuel: nat, heap: seq<Obj>, ps: seq<InjectionParameter>, vs: seq<Value>) {
    |vs| == |ps| && forall k :: 0 <= k < |vs| ==> ParamReceives(inj, fuel, heap, ps[k], vs[k])
  }

  /** The outcome of `createParameter(p)` when it does not depend on the
      state. */
  function ParamSettled(inj: Injector, fuel: nat, p: InjectionParameter): Option<Result<Value>> {
    if IsProvider(p) then None else Settled(inj, fuel, Type(p), p.isOptional)
  }

  /** The outcome of one constructor argument when it does not depend on
      the state. */
  function ArgSettled(inj: Injector, fuel: nat, p: InjectionParameter, assisted: Value): Option<Result<Value>> {
    if p.isAssisted then Some(AssistedArg(p, assisted)) else ParamSettled(inj, fuel, p)
  }

  /** The constructor argument for `p` is certain to be found. */
  predicate Succeeds(inj: Injector, fuel: nat, p: InjectionParameter, assisted: Value) {
    (!p.isAssisted && IsProvider(p))
    || (ArgSettled(inj, fuel, p, assisted).Some? && ArgSettled(inj, fuel, p, assisted).value.Ok?)
  }

  /** Parameter `k` of `ps` is certain to fail and every parameter before
      it is certain to succeed. */
  predicate FailsFirst(inj: Injector, fuel: nat, ps: seq<InjectionParameter>, assisted: Value, k: int) {
    0 <= k < |ps| && (forall j :: 0 <= j < k ==> Succeeds(inj, fuel, ps[j], assisted))
    && ArgSettled(inj, fuel, ps[k], assisted).Some? && ArgSettled(inj, fuel, ps[k], assisted).value.Fail?
  }

  /** `createParameter(p)` is certain to succeed. */
  predicate ParamSucceeds(inj: Injector, fuel: nat, p: InjectionParameter) {
    IsProvider(p) || (ParamSettled(inj, fuel, p).Some? && ParamSettled(inj, fuel, p).value.Ok?)
  }

  /** Parameter `k` of `ps` is certain to fail in `createParameter` and
      every parameter before it is certain to succeed. */
  predicate ParamFailsFirst(inj: Injector, fuel: nat, ps: seq<InjectionParameter>, k: int) {
    0 <= k < |ps| && (forall j :: 0 <= j < k ==> ParamSucceeds(inj, fuel, ps[j]))
    && ParamSettled(inj, fuel, ps[k]).Some? && ParamSettled(inj, fuel, ps[k]).value.Fail?
  }

  /** Every parameter of every setter is certain to succeed. */
  predicate SettersSucceed(inj: Injector, fuel: nat, setters: seq<MethodMeta>) {
    forall i, m :: 0 <= i < |setters| && 0 <= m < |setters[i].params| ==> ParamSucceeds(inj, fuel, setters[i].params[m])
  }

  /** Setter `i` is the first whose arguments are certain to fail, at its
      parameter `k`. */
  predicate SetterFailsFirst(inj: Injector, fuel: nat, setters: seq<MethodMeta>, i: int, k: int) {
    0 <= i < |setters| && SettersSucceed(inj, fuel, setters[..i]) && ParamFailsFirst(inj, fuel, setters[i].params, k)
  }

  /** Every property is certain to receive a value. */
  predicate PropsSucceed(inj: Injector, fuel: nat, props: seq<PropertyMeta>) {
    forall k :: 0 <= k < |props| ==> ParamSucceeds(inj, fuel, props[k].param)
  }

  /** What member injection with metadata `mc` is certain to give: success
      when every property and setter parameter is certain to succeed, and
      when the properties are, the error of the first setter parameter
      certain to fail. */
  ghost predicate InjectionOutcome<T>(inj: Injector, fuel: nat, mc: MetaClass, out: Result<T>) {
    PropsSucceed(inj, fuel, mc.properties) ==>
      (SettersSucceed(inj, fuel, InjectableSetters(mc)) ==> out.Ok?)
      && forall i, k :: SetterFailsFirst(inj, fuel, InjectableSetters(mc), i, k) ==>
           out == Fail(ParamSettled(inj, fuel, InjectableSetters(mc)[i].params[k]).value.error)
  }

  /** A value resolved against a heap is resolved against any heap that
      extends it. */
  lemma ParamReceivesGrows(inj: Injector, fuel: nat, h1: seq<Obj>, h2: seq<Obj>, p: InjectionParameter, v: Value)
    requires h1 <= h2 && ParamReceives(inj, fuel, h1, p, v)
    ensures ParamReceives(inj, fuel, h2, p, v)
  {
    if v.Ref? && v.id < |h1| {
      assert h2[v.id] == h1[v.id];
    }
  }

  lemma ReceivesGrows(inj: Injector, fuel: nat, h1: seq<Obj>, h2: seq<Obj>, p: InjectionParameter, assisted: Value, v: Value)
    requires h1 <= h2 && Receives(inj, fuel, h1, p, assisted, v)
    ensures Receives(inj, fuel, h2, p, assisted, v)
  {
    if !p.isAssisted {
      ParamReceivesGrows(inj, fuel, h1, h2, p, v);
    }
  }

  /** `getInstance(key, assisted, optional)`: the injector itself for its
      own class, otherwise the binding for `key` if there is one, otherwise
      construction of `key`. */
  function GetInstance(inj: Injector, fuel: nat, st: State, key: string, assisted: Value, optional: bool): (r: Run<State, Value>)
    ensures Frame(inj, st, r.st, Shared(inj))
    ensures key == InjectorClass ==> r == Run(Ok(Ref(inj.self)), st)
    ensures Settled(inj, fuel, key, optional).Some? ==> r == Run(Settled(inj, fuel, key, optional).value, st)
    ensures r.out.Ok? ==> Resolved(inj, fuel, r.st.heap, key, optional, r.out.value)
    decreases fuel, 0
  {
    if key == InjectorClass then Run(Ok(Ref(inj.self)), st)
    else if fuel == 0 then Run(Fail(Exhausted), st)
    else match GetBindingFor(inj.binder, key)
      case Some(b) => GetDependency(inj, fuel - 1, st, b, assisted, optional)
      case None => CreateInstance(inj, fuel - 1, st, key, assisted, optional)
  }

  /** `binding->getDependency`: the binding's scope decides. The instance
      scope delegates every call; the singleton scope answers from its
      cache when it holds a non-null value for the key, and otherwise
      delegates and stores the result. */
  function GetDependency(inj: Injector, fuel: nat, st: State, b: Binding, assisted: Value, optional: bool): (r: Run<State, Value>)
    ensures Frame(inj, st, r.st, Shared(inj) + ProviderIds(b.provider))
    ensures b.scope.kind == SingletonKind && r.out.Ok? ==>
              UniqueKey(b.scope.id, b.id, assisted) in r.st.singletons
              && r.st.singletons[UniqueKey(b.scope.id, b.id, assisted)] == r.out.value
    ensures b.scope.kind == InstanceKind ==> r == CreateDependency(inj, fuel, st, b, assisted, optional)
    decreases fuel, 10
  {
    match b.scope.kind
    case InstanceKind => CreateDependency(inj, fuel, st, b, assisted, optional)
    case SingletonKind =>
      var k := UniqueKey(b.scope.id, b.id, assisted);
      if k in st.singletons && st.singletons[k] != Null then Run(Ok(st.singletons[k]), st)
      else
        var c := CreateDependency(inj, fuel, st, b, assisted, optional);
        if c.out.Fail? then c
        else Run(c.out, c.st.(singletons := c.st.singletons[k := c.out.value]))
  }

  /** `binding->createDependency`, following `StrategyOf`. */
  function CreateDependency(inj: Injector, fuel: nat, st: State, b: Binding, assisted: Value, optional: bool): (r: Run<State, Value>)
    ensures Frame(inj, st, r.st, Shared(inj) + ProviderIds(b.provider))
    ensures StrategyOf(b).Constant? ==> r == Run(Ok(StrategyOf(b).value), st)
    ensures StrategyOf(b).Redirect? ==> r == GetInstance(inj, fuel, st, StrategyOf(b).target, assisted, optional)
    ensures StrategyOf(b).Provide? ==> r == ProviderValue(inj, fuel, st, StrategyOf(b).provider)
    ensures StrategyOf(b).Construct? ==> r == CreateInstance(inj, fuel, st, StrategyOf(b).key, assisted, optional)
    decreases fuel, 9
  {
    match StrategyOf(b)
    case Redirect(target) => GetInstance(inj, fuel, st, target, assisted, optional)
    case Provide(p) => ProviderValue(inj, fuel, st, p)
    case Constant(v) => Run(Ok(v), st)
    case Construct(key) => CreateInstance(inj, fuel, st, key, assisted, optional)
  }

  /** What a provider yields. A callable is called with the injector; a
      provider method is called; a factory provider returns its factory; any
      other provider object first has its members injected and then its
      `get` called. */
  function ProviderValue(inj: Injector, fuel: nat, st: State, p: Provider): (r: Run<State, Value>)
    ensures Frame(inj, st, r.st, Shared(inj) + ProviderIds(Some(p)))
    ensures p.Callable? ==> r == Run(Ok(inj.world.user(InvokeCallable(p.fn))), st)
    ensures p.MethodProvider? ==> r == Run(Ok(inj.world.user(InvokeProviderMethod(p.moduleId, p.methodName))), st)
    ensures p.ObjectProvider? && r.out.Ok? ==> r.out == Ok(inj.world.user(InvokeGet(p.obj))) && p.cls in r.st.meta
    ensures p.ObjectProvider? && Coherent(inj, st) && Extract(Decl(inj.world, p.cls)).Fail? ==>
              r.out == Fail(Extract(Decl(inj.world, p.cls)).error)
    ensures p.ObjectProvider? && Coherent(inj, st) && Extract(Decl(inj.world, p.cls)).Ok? ==>
              InjectionOutcome(inj, fuel, Extract(Decl(inj.world, p.cls)).value, r.out)
    decreases fuel, 8
  {
    match p
    case Callable(fn) => Run(Ok(inj.world.user(InvokeCallable(fn))), st)
    case MethodProvider(moduleId, name) => Run(Ok(inj.world.user(InvokeProviderMethod(moduleId, name))), st)
    case FactoryProviderOf(fp) => FactoryGet(inj, st, fp)
    case ObjectProvider(obj, cls) =>
      var m := InjectMembers(inj, fuel, st, obj, cls);
      if m.out.Fail? then Run(Fail(m.out.error), m.st)
      else Run(Ok(inj.world.user(InvokeGet(obj))), m.st)
  }

  /** The class `cls` declares a constructor and its metadata records it
      as injectable. */
  predicate InjectableCtor(w: World, cls: string) {
    HasConstructor(Decl(w, cls)) && Extract(Decl(w, cls)).Ok? && HasInjectableConstructor(Extract(Decl(w, cls)).value)
  }

  function CtorParamsOf(w: World, cls: string): seq<InjectionParameter>
    requires InjectableCtor(w, cls)
  {
    InjectableConstructor(Extract(Decl(w, cls)).value).value
  }

  /** `createInstance(key, assisted, optional)`: an undeclared class is an
      error, or null when optional. A declared class has its metadata
      computed; with a constructor it is made by `NewInstanceArgs`, and
      without one it is allocated with no arguments, and then its members
      are injected. */
  function CreateInstance(inj: Injector, fuel: nat, st: State, key: string, assisted: Value, optional: bool): (r: Run<State, Value>)
    ensures Frame(inj, st, r.st, Shared(inj))
    ensures key !in inj.world.classes && optional ==> r == Run(Ok(Null), st)
    ensures key !in inj.world.classes && !optional ==> r == Run(Fail(NoBinding(key)), st)
    ensures key in inj.world.classes && r.out.Ok? ==>
              r.out.value.Ref? && |st.heap| <= r.out.value.id < |r.st.heap|
              && r.st.heap[r.out.value.id].Instance? && r.st.heap[r.out.value.id].cls == key
    ensures key in inj.world.classes && r.out.Ok? && Coherent(inj, st) && InjectableCtor(inj.world, key) ==>
              ArgsMatch(inj, fuel, r.st.heap, CtorParamsOf(inj.world, key), assisted, r.st.heap[r.out.value.id].ctorArgs)
    ensures (key in inj.world.classes && Coherent(inj, st) && InjectableCtor(inj.world, key)
             && AssistedMissing(CtorParamsOf(inj.world, key), assisted)) ==> r.out.Fail?
    ensures key in inj.world.classes && Coherent(inj, st) && InjectableCtor(inj.world, key) ==>
              forall k :: FailsFirst(inj, fuel, CtorParamsOf(inj.world, key), assisted, k) ==>
                r.out == Fail(ArgSettled(inj, fuel, CtorParamsOf(inj.world, key)[k], assisted).value.error)
    ensures key in inj.world.classes && r.out.Ok? && !HasConstructor(Decl(inj.world, key)) ==>
              r.st.heap[r.out.value.id].ctorArgs == []
    ensures key in inj.world.classes && r.out.Ok? && Coherent(inj, st) && HasConstructor(Decl(inj.world, key))
            && !InjectableCtor(inj.world, key) ==>
              r.st.heap[r.out.value.id].ctorArgs == ArrayCast(assisted, inj.world.tables)
    ensures key in inj.world.classes && r.out.Ok? ==>
              key in r.st.meta && (Coherent(inj, st) ==> Extract(Decl(inj.world, key)) == Ok(r.st.meta[key]))
    ensures key in inj.world.classes && r.out.Ok? && r.out.value.id !in Shared(inj) ==>
              MembersInjected(inj, fuel, r.st.heap, MemberOf(r.st, r.out.value.id), r.st.meta[key])
    ensures key in inj.world.classes && Coherent(inj, st) && Extract(Decl(inj.world, key)).Fail? ==>
              r.out == Fail(Extract(Decl(inj.world, key)).error)
    ensures key in inj.world.classes && Coherent(inj, st) && Extract(Decl(inj.world, key)).Ok? && !InjectableCtor(inj.world, key) ==>
              InjectionOutcome(inj, fuel, Extract(Decl(inj.world, key)).value, r.out)
    decreases fuel, 8
  {
    if key !in inj.world.classes then
      if optional then Run(Ok(Null), st) else Run(Fail(NoBinding(key)), st)
    else
      var m := Meta(inj, st, key);
      FrameWeaken(inj, st, m.st, {}, Shared(inj));
      if m.out.Fail? then Run(Fail(m.out.error), m.st)
      else if HasConstructor(Decl(inj.world, key)) then
        var made := NewInstanceArgs(inj, fuel, m.st, key, m.out.value, assisted);
        FrameTrans(inj, st, m.st, made.st, Shared(inj), Shared(inj), Shared(inj));
        FrameHeap(inj, st, m.st, Shared(inj));
        made
      else
        var made := Instantiate(inj, fuel, m.st, key, []);
        FrameTrans(inj, st, m.st, made.st, Shared(inj), Shared(inj), Shared(inj));
        FrameHeap(inj, m.st, made.st, Shared(inj));
        CreatedStep(inj, fuel, st, m.st, made.st, made.out, key, m.out.value, []);
        made
  }

  /** `newInstanceArgs(createConstructorParameters(...))` followed by
      member injection, for a class `key` with a constructor whose metadata
      `mc` is cached: the constructor arguments, the new object under the
      next id, and its members injected. */
  function NewInstanceArgs(inj: Injector, fuel: nat, st: State, key: string, mc: MetaClass, assisted: Value): (r: Run<State, Value>)
    requires key in st.meta && st.meta[key] == mc
    ensures Frame(inj, st, r.st, Shared(inj))
    ensures key in r.st.meta && r.st.meta[key] == mc
    ensures r.out.Ok? ==>
              r.out.value.Ref? && |st.heap| <= r.out.value.id < |r.st.heap|
              && r.st.heap[r.out.value.id].Instance? && r.st.heap[r.out.value.id].cls == key
    ensures r.out.Ok? && !HasInjectableConstructor(mc) ==>
              r.st.heap[r.out.value.id].ctorArgs == ArrayCast(assisted, inj.world.tables)
    ensures r.out.Ok? && HasInjectableConstructor(mc) ==>
              ArgsMatch(inj, fuel, r.st.heap, InjectableConstructor(mc).value, assisted, r.st.heap[r.out.value.id].ctorArgs)
    ensures HasInjectableConstructor(mc) && AssistedMissing(InjectableConstructor(mc).value, assisted) ==> r.out.Fail?
    ensures HasInjectableConstructor(mc) ==>
              forall k :: FailsFirst(inj, fuel, InjectableConstructor(mc).value, assisted, k) ==>
                r.out == Fail(ArgSettled(inj, fuel, InjectableConstructor(mc).value[k], assisted).value.error)
    ensures r.out.Ok? && r.out.value.id !in Shared(inj) ==>
              MembersInjected(inj, fuel, r.st.heap, MemberOf(r.st, r.out.value.id), mc)
    ensures Coherent(inj, st) && !HasInjectableConstructor(mc) ==> InjectionOutcome(inj, fuel, mc, r.out)
    decreases fuel, 7
  {
    var args := CtorArgs(inj, fuel, st, mc, assisted);
    if args.out.Fail? then Run(Fail(args.out.error), args.st)
    else
      var made := Instantiate(inj, fuel, args.st, key, args.out.value);
      FrameTrans(inj, st, args.st, made.st, Shared(inj), Shared(inj), Shared(inj));
      FrameHeap(inj, args.st, made.st, Shared(inj));
      CreatedStep(inj, fuel, st, args.st, made.st, made.out, key, mc, args.out.value);
      CtorStep(inj, fuel, key, mc, assisted, args.st.heap, made.st.heap, args.out, made.out);
      made
  }

  /** What the constructor arguments promise carries over to the object
      made with them. */
  lemma CtorStep(inj: Injector, fuel: nat, key: string, mc: MetaClass, assisted: Value,
                 h1: seq<Obj>, h2: seq<Obj>, args: Result<seq<Entry>>, out: Result<Value>)
    requires h1 <= h2
    requires !HasInjectableConstructor(mc) ==> args == Ok(ArrayCast(assisted, inj.world.tables))
    requires HasInjectableConstructor(mc) && args.Ok? ==>
               ArgsMatch(inj, fuel, h1, InjectableConstructor(mc).value, assisted, args.value)
    requires HasInjectableConstructor(mc) && AssistedMissing(InjectableConstructor(mc).value, assisted) ==> args.Fail?
    requires HasInjectableConstructor(mc) ==>
               forall k :: FailsFirst(inj, fuel, InjectableConstructor(mc).value, assisted, k) ==>
                 args == Fail(ArgSettled(inj, fuel, InjectableConstructor(mc).value[k], assisted).value.error)
    requires args.Fail? ==> out == Fail(args.error)
    requires args.Ok? && out.Ok? ==> out.value.Ref? && out.value.id < |h2| && h2[out.value.id] == Instance(key, args.value)
    ensures out.Ok? ==> out.value.Ref? && out.value.id < |h2| && h2[out.value.id].Instance?
    ensures out.Ok? && !HasInjectableConstructor(mc) ==> h2[out.value.id].ctorArgs == ArrayCast(assisted, inj.world.tables)
    ensures out.Ok? && HasInjectableConstructor(mc) ==>
              ArgsMatch(inj, fuel, h2, InjectableConstructor(mc).value, assisted, h2[out.value.id].ctorArgs)
    ensures HasInjectableConstructor(mc) && AssistedMissing(InjectableConstructor(mc).value, assisted) ==> out.Fail?
    ensures HasInjectableConstructor(mc) ==>
              forall k :: FailsFirst(inj, fuel, InjectableConstructor(mc).value, assisted, k) ==>
                out == Fail(ArgSettled(inj, fuel, InjectableConstructor(mc).value[k], assisted).value.error)
  {
    if out.Ok? && HasInjectableConstructor(mc) {
      ArgsMatchGrows(inj, fuel, h1, h2, InjectableConstructor(mc).value, assisted, args.value);
    }
  }

  /** After the constructor arguments: the metadata the new object was
      injected with is the cached one, and what injection promises carries
      over to the created value. */
  lemma CreatedStep(inj: Injector, fuel: nat, st: State, ast: State, rst: State, out: Result<Value>, key: string, mc: MetaClass,
                    args: seq<Entry>)
    requires (st == ast || Frame(inj, st, ast, Shared(inj))) && Frame(inj, ast, rst, Shared(inj))
    requires key in ast.meta && ast.meta[key] == mc
    requires out.Ok? ==> out == Ok(Ref(|ast.heap|)) && |ast.heap| < |rst.heap| && rst.heap[|ast.heap|] == Instance(key, args)
    requires out.Ok? && |ast.heap| !in Shared(inj) ==>
               key in rst.meta && MembersInjected(inj, fuel, rst.heap, MemberOf(rst, |ast.heap|), rst.meta[key])
    requires Coherent(inj, ast) && Extract(Decl(inj.world, key)).Ok? ==>
               InjectionOutcome(inj, fuel, Extract(Decl(inj.world, key)).value, out)
    ensures key in rst.meta && rst.meta[key] == mc
    ensures out.Ok? ==>
              out.value.Ref? && |st.heap| <= out.value.id < |rst.heap| && rst.heap[out.value.id] == Instance(key, args)
    ensures out.Ok? && out.value.id !in Shared(inj) ==> MembersInjected(inj, fuel, rst.heap, MemberOf(rst, out.value.id), mc)
    ensures Coherent(inj, st) ==> Extract(Decl(inj.world, key)) == Ok(mc) && InjectionOutcome(inj, fuel, mc, out)
  {
    if st != ast {
      FrameHeap(inj, st, ast, Shared(inj));
    }
  }

  /** A new object of class `key` with constructor arguments `args`, under
      the next id, with its members injected. */
  function Instantiate(inj: Injector, fuel: nat, st: State, key: string, args: seq<Entry>): (r: Run<State, Value>)
    ensures Frame(inj, st, r.st, Shared(inj))
    ensures r.out.Ok? ==> r.out == Ok(Ref(|st.heap|)) && |st.heap| < |r.st.heap| && r.st.heap[|st.heap|] == Instance(key, args)
    ensures r.out.Ok? && |st.heap| !in Shared(inj) ==>
              key in r.st.meta && MembersInjected(inj, fuel, r.st.heap, MemberOf(r.st, |st.heap|), r.st.meta[key])
    ensures r.out.Ok? && |st.heap| !in Shared(inj) && |st.heap| !in st.members ==>
              Logged(inj, fuel, r.st.heap, [], MemberOf(r.st, |st.heap|).calls, InjectableSetters(r.st.meta[key]))
              && PropsSet(inj, fuel, r.st.heap, map[], MemberOf(r.st, |st.heap|).props, r.st.meta[key].properties)
    ensures Coherent(inj, st) && Extract(Decl(inj.world, key)).Fail? ==> r.out == Fail(Extract(Decl(inj.world, key)).error)
    ensures Coherent(inj, st) && Extract(Decl(inj.world, key)).Ok? ==>
              InjectionOutcome(inj, fuel, Extract(Decl(inj.world, key)).value, r.out)
    decreases fuel, 6
  {
    var id := |st.heap|;
    var st2 := Alloc(st, Instance(key, args));
    var inj2 := InjectMembers(inj, fuel, st2, id, key);
    FrameInstantiate(inj, st, inj2.st, key, args);
    if inj2.out.Fail? then Run(Fail(inj2.out.error), inj2.st)
    else
      InjectedFresh(inj, fuel, st, st2, inj2.st, id, key);
      Run(Ok(Ref(id)), inj2.st)
  }

  /** What member injection leaves in an object, whatever it held before:
      every injectable property holds what the last property of its name
      receives, and the call log ends with one call per injectable setter,
      in order, with the values its parameters receive. */
  ghost predicate MembersInjected(inj: Injector, fuel: nat, heap: seq<Obj>, m: Members, mc: MetaClass) {
    |InjectableSetters(mc)| <= |m.calls|
    && Logged(inj, fuel, heap, m.calls[..|m.calls| - |InjectableSetters(mc)|], m.calls, InjectableSetters(mc))
    && forall n :: LastWith(mc.properties, PropName, n).Some? ==>
         n in m.props && ParamReceives(inj, fuel, heap, LastWith(mc.properties, PropName, n).value.param, m.props[n])
  }

  /** Injection into a new object as `Instantiate` states it. */
  lemma InjectedFresh(inj: Injector, fuel: nat, st: State, st2: State, st3: State, id: nat, key: string)
    requires id == |st.heap| && st2.members == st.members
    requires key in st3.meta
    requires id !in Shared(inj) ==>
               Logged(inj, fuel, st3.heap, MemberOf(st2, id).calls, MemberOf(st3, id).calls, InjectableSetters(st3.meta[key]))
               && PropsSet(inj, fuel, st3.heap, MemberOf(st2, id).props, MemberOf(st3, id).props, st3.meta[key].properties)
    ensures id !in Shared(inj) ==> MembersInjected(inj, fuel, st3.heap, MemberOf(st3, id), st3.meta[key])
    ensures id !in Shared(inj) && id !in st.members ==>
              Logged(inj, fuel, st3.heap, [], MemberOf(st3, id).calls, InjectableSetters(st3.meta[key]))
              && PropsSet(inj, fuel, st3.heap, map[], MemberOf(st3, id).props, st3.meta[key].properties)
  {
    if id !in Shared(inj) {
      var before := MemberOf(st2, id);
      var after := MemberOf(st3, id);
      assert |after.calls| - |InjectableSetters(st3.meta[key])| == |before.calls|;
    }
  }

  /** Allocating a new object and injecting into it touches nothing that
      existed before, and the object keeps its place. */
  lemma FrameInstantiate(inj: Injector, st: State, st3: State, key: string, args: seq<Entry>)
    requires Frame(inj, Alloc(st, Instance(key, args)), st3, Shared(inj) + {|st.heap|})
    ensures Frame(inj, st, st3, Shared(inj))
    ensures |st.heap| < |st3.heap| && st3.heap[|st.heap|] == Instance(key, args)
  {
    var id := |st.heap|;
    var st2 := Alloc(st, Instance(key, args));
    FrameAlloc(inj, st, Instance(key, args));
    FrameTrans(inj, st, st2, st3, {}, Shared(inj) + {id}, Shared(inj) + {id});
    FrameFresh(inj, st, st3, Shared(inj), id);
    FrameHeap(inj, st2, st3, Shared(inj) + {id});
    assert st3.heap[id] == st2.heap[id];
  }

  /** The value of an assisted constructor parameter: the caller's value
      under its name when set and not null, else its default when it has
      one, else an error. */
  function AssistedArg(p: InjectionParameter, assisted: Value): (r: Result<Value>)
    ensures IssetKey(assisted, p.name) ==> r == Ok(ValueAt(assisted, p.name))
    ensures !IssetKey(assisted, p.name) && p.isOptional ==> r == Ok(p.defaultValue)
    ensures !IssetKey(assisted, p.name) && !p.isOptional ==> r == Fail(MissingAssisted(p.name))
  {
    if !IssetKey(assisted, p.name) then
      if !p.isOptional then Fail(MissingAssisted(p.name)) else Ok(p.defaultValue)
    else Ok(ValueAt(assisted, p.name))
  }

  /** `createConstructorParameters`: one argument per recorded constructor
      parameter, in order, when the constructor is injectable; otherwise
      the caller's assisted values as an array. */
  function CtorArgs(inj: Injector, fuel: nat, st: State, mc: MetaClass, assisted: Value): (r: Run<State, seq<Entry>>)
    ensures Frame(inj, st, r.st, Shared(inj))
    ensures !HasInjectableConstructor(mc) ==> r == Run(Ok(ArrayCast(assisted, inj.world.tables)), st)
    ensures HasInjectableConstructor(mc) && r.out.Ok? ==>
              ArgsMatch(inj, fuel, r.st.heap, InjectableConstructor(mc).value, assisted, r.out.value)
    ensures HasInjectableConstructor(mc) && AssistedMissing(InjectableConstructor(mc).value, assisted) ==> r.out.Fail?
    ensures HasInjectableConstructor(mc) ==>
              forall k :: FailsFirst(inj, fuel, InjectableConstructor(mc).value, assisted, k) ==>
                r.out == Fail(ArgSettled(inj, fuel, InjectableConstructor(mc).value[k], assisted).value.error)
    decreases fuel, 4
  {
    if HasInjectableConstructor(mc) then
      var vs := CtorParams(inj, fuel, st, InjectableConstructor(mc).value, assisted);
      if vs.out.Fail? then Run(Fail(vs.out.error), vs.st)
      else Run(Ok(ListOf(vs.out.value)), vs.st)
    else Run(Ok(ArrayCast(assisted, inj.world.tables)), st)
  }

  /** `es` is a positional argument list for `ps` in which every parameter
      holds what it receives. */
  ghost predicate ArgsMatch(inj: Injector, fuel: nat, heap: seq<Obj>, ps: seq<InjectionParameter>, assisted: Value, es: seq<Entry>) {
    |es| == |ps|
    && forall k :: 0 <= k < |es| ==>
         es[k].key == IntKey(k) && Receives(inj, fuel, heap, ps[k], assisted, es[k].val)
  }

  lemma ArgsMatchGrows(inj: Injector, fuel: nat, h1: seq<Obj>, h2: seq<Obj>, ps: seq<InjectionParameter>, assisted: Value, es: seq<Entry>)
    requires h1 <= h2
    ensures ArgsMatch(inj, fuel, h1, ps, assisted, es) ==> ArgsMatch(inj, fuel, h2, ps, assisted, es)
  {
    forall k | 0 <= k < |es| && ArgsMatch(inj, fuel, h1, ps, assisted, es)
      ensures Receives(inj, fuel, h2, ps[k], assisted, es[k].val)
    {
      ReceivesGrows(inj, fuel, h1, h2, ps[k], assisted, es[k].val);
    }
  }

  /** Some assisted parameter of `ps` has neither a value nor a default. */
  ghost predicate AssistedMissing(ps: seq<InjectionParameter>, assisted: Value) {
    exists k :: 0 <= k < |ps| && ps[k].isAssisted && AssistedArg(ps[k], assisted).Fail?
  }

  /** The arguments for constructor parameters `ps`, in order. */
  function CtorParams(inj: Injector, fuel: nat, st: State, ps: seq<InjectionParameter>, assisted: Value): (r: Run<State, seq<Value>>)
    ensures Frame(inj, st, r.st, Shared(inj))
    ensures r.out.Ok? ==> |r.out.value| == |ps|
    ensures r.out.Ok? ==> forall k :: 0 <= k < |ps| ==> Receives(inj, fuel, r.st.heap, ps[k], assisted, r.out.value[k])
    ensures AssistedMissing(ps, assisted) ==> r.out.Fail?
    ensures forall k :: FailsFirst(inj, fuel, ps, assisted, k) ==> r.out == Fail(ArgSettled(inj, fuel, ps[k], assisted).value.error)
    decreases fuel, 3, |ps|
  {
    if ps == [] then Run(Ok([]), st)
    else
      var a := CtorArg(inj, fuel, st, ps[0], assisted);
      FailsFirstTail(inj, fuel, ps, assisted);
      if a.out.Fail? then Run(Fail(a.out.error), a.st)
      else
        var rest := CtorParams(inj, fuel, a.st, ps[1..], assisted);
        FrameTrans(inj, st, a.st, rest.st, Shared(inj), Shared(inj), Shared(inj));
        AssistedMissingTail(ps, assisted);
        if rest.out.Fail? then Run(Fail(rest.out.error), rest.st)
        else
          FrameHeap(inj, a.st, rest.st, Shared(inj));
          ReceivesCons(inj, fuel, a.st.heap, rest.st.heap, ps, assisted, a.out.value, rest.out.value);
          Run(Ok([a.out.value] + rest.out.value), rest.st)
  }

  /** Prepending the first parameter's value to the remaining parameters'
      values keeps every parameter's value in place. */
  lemma {:induction false} ReceivesCons(inj: Injector, fuel: nat, h1: seq<Obj>, h2: seq<Obj>, ps: seq<InjectionParameter>,
                                        assisted: Value, v: Value, rest: seq<Value>)
    requires ps != [] && |rest| == |ps| - 1 && h1 <= h2
    requires Receives(inj, fuel, h1, ps[0], assisted, v)
    requires forall k :: 0 <= k < |rest| ==> Receives(inj, fuel, h2, ps[1..][k], assisted, rest[k])
    ensures forall k :: 0 <= k < |ps| ==> Receives(inj, fuel, h2, ps[k], assisted, ([v] + rest)[k])
  {
    ReceivesGrows(inj, fuel, h1, h2, ps[0], assisted, v);
    forall k | 0 <= k < |ps|
      ensures Receives(inj, fuel, h2, ps[k], assisted, ([v] + rest)[k])
    {
      if k > 0 {
        assert ps[k] == ps[1..][k - 1];
        assert ([v] + rest)[k] == rest[k - 1];
      }
    }
  }

  /** The first certain failure after the first parameter is the first
      certain failure among the remaining parameters. */
  lemma {:induction false} FailsFirstTail(inj: Injector, fuel: nat, ps: seq<InjectionParameter>, assisted: Value)
    requires ps != []
    ensures forall k :: FailsFirst(inj, fuel, ps, assisted, k) && k > 0 ==>
              Succeeds(inj, fuel, ps[0], assisted) && FailsFirst(inj, fuel, ps[1..], assisted, k - 1) && ps[1..][k - 1] == ps[k]
    ensures FailsFirst(inj, fuel, ps, assisted, 0) ==> !Succeeds(inj, fuel, ps[0], assisted)
  {
    forall k | FailsFirst(inj, fuel, ps, assisted, k) && k > 0
      ensures Succeeds(inj, fuel, ps[0], assisted) && FailsFirst(inj, fuel, ps[1..], assisted, k - 1)
    {
      assert forall j :: 0 <= j < k - 1 ==> ps[1..][j] == ps[j + 1];
    }
  }

  /** A missing assisted value that is not the first parameter's is one of
      the remaining parameters'. */
  lemma {:induction false} AssistedMissingTail(ps: seq<InjectionParameter>, assisted: Value)
    requires ps != []
    ensures forall k :: 1 <= k < |ps| ==> ps[k] == ps[1..][k - 1]
    ensures AssistedMissing(ps, assisted) && !(ps[0].isAssisted && AssistedArg(ps[0], assisted).Fail?) ==>
              AssistedMissing(ps[1..], assisted)
  {
    assert forall k :: 1 <= k < |ps| ==> ps[k] == ps[1..][k - 1];
    if AssistedMissing(ps, assisted) && !(ps[0].isAssisted && AssistedArg(ps[0], assisted).Fail?) {
      var k :| 0 <= k < |ps| && ps[k].isAssisted && AssistedArg(ps[k], assisted).Fail?;
      assert ps[1..][k - 1] == ps[k];
    }
  }

  /** One constructor argument. */
  function CtorArg(inj: Injector, fuel: nat, st: State, p: InjectionParameter, assisted: Value): (r: Run<State, Value>)
    ensures Frame(inj, st, r.st, Shared(inj))
    ensures p.isAssisted ==> r == Run(AssistedArg(p, assisted), st)
    ensures ArgSettled(inj, fuel, p, assisted).Some? ==> r == Run(ArgSettled(inj, fuel, p, assisted).value, st)
    ensures Succeeds(inj, fuel, p, assisted) ==> r.out.Ok?
    ensures r.out.Ok? ==> Receives(inj, fuel, r.st.heap, p, assisted, r.out.value)
    decreases fuel, 2
  {
    if p.isAssisted then Run(AssistedArg(p, assisted), st)
    else CreateParameter(inj, fuel, st, p)
  }

  /** `createParameter`: a provider parameter gets a new lazy provider for
      its key and resolves nothing; any other parameter is resolved by its
      type, with no assisted values and its own optional flag. */
  function CreateParameter(inj: Injector, fuel: nat, st: State, p: InjectionParameter): (r: Run<State, Value>)
    ensures Frame(inj, st, r.st, Shared(inj))
    ensures IsProvider(p) ==> r == Run(Ok(Ref(|st.heap|)), Alloc(st, LazyProvider(p.providesKey.value)))
    ensures !IsProvider(p) ==> r == GetInstance(inj, fuel, st, Type(p), Bool(false), p.isOptional)
    ensures ParamSettled(inj, fuel, p).Some? ==> r == Run(ParamSettled(inj, fuel, p).value, st)
    ensures r.out.Ok? ==> ParamReceives(inj, fuel, r.st.heap, p, r.out.value)
    decreases fuel, 1
  {
    if IsProvider(p) then Run(Ok(Ref(|st.heap|)), Alloc(st, LazyProvider(p.providesKey.value)))
    else GetInstance(inj, fuel, st, Type(p), Bool(false), p.isOptional)
  }

  /** What injection did to one object, given that it is neither shared
      nor spared: the members before a step and after it. */
  lemma MembersKept(a: State, b: State, id: nat)
    requires Extends(a, b)
    ensures MemberOf(a, id).props.Keys <= MemberOf(b, id).props.Keys
    ensures MemberOf(a, id).calls <= MemberOf(b, id).calls
  {
  }

  /** `after` is `before` followed by one call per setter, in order, each
      with the values its parameters receive. */
  ghost predicate Logged(inj: Injector, fuel: nat, heap: seq<Obj>, before: seq<SetterCall>, after: seq<SetterCall>, setters: seq<MethodMeta>) {
    |after| == |before| + |setters|
    && after[..|before|] == before
    && forall k :: 0 <= k < |setters| ==>
         after[|before| + k].name == setters[k].name && ArgsReceive(inj, fuel, heap, setters[k].params, after[|before| + k].args)
  }

  lemma ArgsReceiveGrows(inj: Injector, fuel: nat, h1: seq<Obj>, h2: seq<Obj>, ps: seq<InjectionParameter>, vs: seq<Value>)
    requires h1 <= h2 && ArgsReceive(inj, fuel, h1, ps, vs)
    ensures ArgsReceive(inj, fuel, h2, ps, vs)
  {
    forall k | 0 <= k < |vs|
      ensures ParamReceives(inj, fuel, h2, ps[k], vs[k])
    {
      ParamReceivesGrows(inj, fuel, h1, h2, ps[k], vs[k]);
    }
  }

  lemma {:induction false} LoggedStep(inj: Injector, fuel: nat, h1: seq<Obj>, h2: seq<Obj>,
                                      before: seq<SetterCall>, args: seq<Value>, after: seq<SetterCall>, setters: seq<MethodMeta>)
    requires setters != [] && h1 <= h2 && ArgsReceive(inj, fuel, h1, setters[0].params, args)
    requires Logged(inj, fuel, h2, before + [SetterCall(setters[0].name, args)], after, setters[1..])
    ensures Logged(inj, fuel, h2, before, after, setters)
  {
    var mid := before + [SetterCall(setters[0].name, args)];
    assert after[..|mid|] == mid;
    assert after[..|before|] == mid[..|before|];
    assert mid[..|before|] == before;
    ArgsReceiveGrows(inj, fuel, h1, h2, setters[0].params, args);
    forall k | 0 <= k < |setters|
      ensures after[|before| + k].name == setters[k].name
              && ArgsReceive(inj, fuel, h2, setters[k].params, after[|before| + k].args)
    {
      if k == 0 {
        assert after[|before|] == mid[|before|];
      } else {
        assert setters[k] == setters[1..][k - 1];
        assert after[|before| + k] == after[|mid| + (k - 1)];
      }
    }
  }

  lemma LoggedGrows(inj: Injector, fuel: nat, h1: seq<Obj>, h2: seq<Obj>, before: seq<SetterCall>, after: seq<SetterCall>, setters: seq<MethodMeta>)
    requires h1 <= h2 && Logged(inj, fuel, h1, before, after, setters)
    ensures Logged(inj, fuel, h2, before, after, setters)
  {
    forall k | 0 <= k < |setters|
      ensures ArgsReceive(inj, fuel, h2, setters[k].params, after[|before| + k].args)
    {
      ArgsReceiveGrows(inj, fuel, h1, h2, setters[k].params, after[|before| + k].args);
    }
  }

  function PropName(pm: PropertyMeta): string {
    pm.name
  }

  /** Property injection took the properties `before` to `after`: a name
      no entry of `props` carries keeps its value (or its absence), and any
      other name holds what the last entry carrying it receives. */
  ghost predicate PropsSet(inj: Injector, fuel: nat, heap: seq<Obj>, before: map<string, Value>, after: map<string, Value>, props: seq<PropertyMeta>) {
    (forall n :: LastWith(props, PropName, n).None? ==>
       (n in after <==> n in before) && (n in before ==> after[n] == before[n]))
    && (forall n :: LastWith(props, PropName, n).Some? ==>
          n in after && ParamReceives(inj, fuel, heap, LastWith(props, PropName, n).value.param, after[n]))
  }

  lemma PropsSetGrows(inj: Injector, fuel: nat, h1: seq<Obj>, h2: seq<Obj>, before: map<string, Value>, after: map<string, Value>, props: seq<PropertyMeta>)
    requires h1 <= h2 && PropsSet(inj, fuel, h1, before, after, props)
    ensures PropsSet(inj, fuel, h2, before, after, props)
  {
    forall n | LastWith(props, PropName, n).Some?
      ensures ParamReceives(inj, fuel, h2, LastWith(props, PropName, n).value.param, after[n])
    {
      ParamReceivesGrows(inj, fuel, h1, h2, LastWith(props, PropName, n).value.param, after[n]);
    }
  }

  /** Setting the first property and then the remaining ones is setting
      them all. */
  lemma {:induction false} PropsSetStep(inj: Injector, fuel: nat, h1: seq<Obj>, h2: seq<Obj>, before: map<string, Value>,
                                        after: map<string, Value>, props: seq<PropertyMeta>, v: Value)
    requires props != [] && h1 <= h2 && ParamReceives(inj, fuel, h1, props[0].param, v)
    requires PropsSet(inj, fuel, h2, before[props[0].name := v], after, props[1..])
    ensures PropsSet(inj, fuel, h2, before, after, props)
  {
    ParamReceivesGrows(inj, fuel, h1, h2, props[0].param, v);
    assert props == [props[0]] + props[1..];
    forall n
      ensures LastWith(props, PropName, n)
           == if LastWith(props[1..], PropName, n).Some? then LastWith(props[1..], PropName, n)
              else if PropName(props[0]) == n then Some(props[0]) else None
    {
      LastWithCons(props[0], props[1..], PropName, n);
    }
  }

  /** `injectMembers(object)`: all injectable properties, then all
      injectable setters, of the object's class. */
  function InjectMembers(inj: Injector, fuel: nat, st: State, id: nat, cls: string): (r: Run<State, ()>)
    ensures Frame(inj, st, r.st, Shared(inj) + {id})
    ensures r.out.Ok? ==> cls in r.st.meta
    ensures r.out.Ok? && id < |st.heap| && id !in Shared(inj) ==>
              Logged(inj, fuel, r.st.heap, MemberOf(st, id).calls, MemberOf(r.st, id).calls, InjectableSetters(r.st.meta[cls]))
    ensures r.out.Ok? && id < |st.heap| && id !in Shared(inj) ==>
              PropsSet(inj, fuel, r.st.heap, MemberOf(st, id).props, MemberOf(r.st, id).props, r.st.meta[cls].properties)
    ensures Coherent(inj, st) && Extract(Decl(inj.world, cls)).Fail? ==> r.out == Fail(Extract(Decl(inj.world, cls)).error)
    ensures Coherent(inj, st) && Extract(Decl(inj.world, cls)).Ok? ==>
              InjectionOutcome(inj, fuel, Extract(Decl(inj.world, cls)).value, r.out)
    decreases fuel, 5
  {
    var m := Meta(inj, st, cls);
    FrameWeaken(inj, st, m.st, {}, Shared(inj) + {id});
    if m.out.Fail? then Run(Fail(m.out.error), m.st)
    else
      var p := InjectProperties(inj, fuel, m.st, id, m.out.value.properties);
      FrameTrans(inj, st, m.st, p.st, Shared(inj) + {id}, Shared(inj) + {id}, Shared(inj) + {id});
      if p.out.Fail? then p
      else
        var q := InjectSetters(inj, fuel, p.st, id, InjectableSetters(m.out.value));
        FrameTrans(inj, st, p.st, q.st, Shared(inj) + {id}, Shared(inj) + {id}, Shared(inj) + {id});
        if q.out.Ok? && id < |st.heap| && id !in Shared(inj) then
          MembersStep(inj, fuel, st, m.st, p.st, q.st, id, cls, m.out.value);
          q
        else q
  }

  /** Properties and then setters: the heap only grows between the two,
      and the setters leave the properties as they are. */
  lemma MembersStep(inj: Injector, fuel: nat, st: State, mst: State, pst: State, qst: State, id: nat, cls: string, mc: MetaClass)
    requires Frame(inj, st, mst, Shared(inj) + {id}) && Frame(inj, mst, pst, Shared(inj) + {id}) && Frame(inj, pst, qst, Shared(inj) + {id})
    requires cls in mst.meta && mst.meta[cls] == mc && MemberOf(mst, id) == MemberOf(st, id)
    requires PropsSet(inj, fuel, pst.heap, MemberOf(mst, id).props, MemberOf(pst, id).props, mc.properties)
    requires Logged(inj, fuel, qst.heap, MemberOf(pst, id).calls, MemberOf(qst, id).calls, InjectableSetters(mc))
    requires MemberOf(qst, id).props == MemberOf(pst, id).props
    requires MemberOf(pst, id).calls == MemberOf(mst, id).calls
    ensures cls in qst.meta && qst.meta[cls] == mc
    ensures Logged(inj, fuel, qst.heap, MemberOf(st, id).calls, MemberOf(qst, id).calls, InjectableSetters(qst.meta[cls]))
    ensures PropsSet(inj, fuel, qst.heap, MemberOf(st, id).props, MemberOf(qst, id).props, qst.meta[cls].properties)
  {
    FrameHeap(inj, pst, qst, Shared(inj) + {id});
    PropsSetGrows(inj, fuel, pst.heap, qst.heap, MemberOf(mst, id).props, MemberOf(pst, id).props, mc.properties);
  }

  lemma PropertiesStep(st: State, vst: State, rst: State, id: nat, props: seq<PropertyMeta>, v: Value, shared: set<nat>)
    requires props != [] && id < |st.heap| && id !in shared
    requires st.heap <= vst.heap && Untouched(st, vst, shared)
    requires Extends(SetProperty(vst, id, props[0].name, v), rst)
    requires MemberOf(rst, id).calls == MemberOf(SetProperty(vst, id, props[0].name, v), id).calls
    requires forall k :: 0 <= k < |props[1..]| ==> props[1..][k].name in MemberOf(rst, id).props
    ensures MemberOf(rst, id).calls == MemberOf(st, id).calls
    ensures MemberOf(SetProperty(vst, id, props[0].name, v), id).props == MemberOf(st, id).props[props[0].name := v]
    ensures forall k :: 0 <= k < |props| ==> props[k].name in MemberOf(rst, id).props
  {
    var st1 := SetProperty(vst, id, props[0].name, v);
    MembersKept(st1, rst, id);
    assert MemberOf(vst, id) == MemberOf(st, id);
    forall k | 0 <= k < |props|
      ensures props[k].name in MemberOf(rst, id).props
    {
      if k > 0 {
        assert props[k] == props[1..][k - 1];
      }
    }
  }

  /** `injectProperties`: each property in order receives the value its
      parameter resolves to. */
  function InjectProperties(inj: Injector, fuel: nat, st: State, id: nat, props: seq<PropertyMeta>): (r: Run<State, ()>)
    ensures Frame(inj, st, r.st, Shared(inj) + {id})
    ensures r.out.Ok? && id < |st.heap| && id !in Shared(inj) ==>
              MemberOf(r.st, id).calls == MemberOf(st, id).calls
              && forall k :: 0 <= k < |props| ==> props[k].name in MemberOf(r.st, id).props
    ensures r.out.Ok? && id < |st.heap| && id !in Shared(inj) ==>
              PropsSet(inj, fuel, r.st.heap, MemberOf(st, id).props, MemberOf(r.st, id).props, props)
    ensures PropsSucceed(inj, fuel, props) ==> r.out.Ok?
    decreases fuel, 3, |props|
  {
    if props == [] then
      PropsSetEmpty(inj, fuel, st.heap, MemberOf(st, id).props);
      Run(Ok(()), st)
    else
      var v := CreateParameter(inj, fuel, st, props[0].param);
      PropsSucceedTail(inj, fuel, props);
      FrameWeaken(inj, st, v.st, Shared(inj), Shared(inj) + {id});
      if v.out.Fail? then Run(Fail(v.out.error), v.st)
      else
        var rest := InjectProperties(inj, fuel, SetProperty(v.st, id, props[0].name, v.out.value), id, props[1..]);
        PropertyStep(inj, fuel, st, v.st, rest.st, id, props, v.out.value, rest.out.Ok?);
        rest
  }

  /** The inductive step of `InjectProperties`: resolving the first
      property, setting it, and then injecting the remaining ones. */
  lemma PropertyStep(inj: Injector, fuel: nat, st: State, vst: State, rst: State, id: nat, props: seq<PropertyMeta>, v: Value, ok: bool)
    requires props != []
    requires Frame(inj, st, vst, Shared(inj)) && ParamReceives(inj, fuel, vst.heap, props[0].param, v)
    requires var st1 := SetProperty(vst, id, props[0].name, v);
             Frame(inj, st1, rst, Shared(inj) + {id})
             && (ok && id < |st1.heap| && id !in Shared(inj) ==>
                   MemberOf(rst, id).calls == MemberOf(st1, id).calls
                   && (forall k :: 0 <= k < |props[1..]| ==> props[1..][k].name in MemberOf(rst, id).props)
                   && PropsSet(inj, fuel, rst.heap, MemberOf(st1, id).props, MemberOf(rst, id).props, props[1..]))
    ensures Frame(inj, st, rst, Shared(inj) + {id})
    ensures ok && id < |st.heap| && id !in Shared(inj) ==>
              MemberOf(rst, id).calls == MemberOf(st, id).calls
              && (forall k :: 0 <= k < |props| ==> props[k].name in MemberOf(rst, id).props)
              && PropsSet(inj, fuel, rst.heap, MemberOf(st, id).props, MemberOf(rst, id).props, props)
  {
    var st1 := SetProperty(vst, id, props[0].name, v);
    FrameWeaken(inj, st, vst, Shared(inj), Shared(inj) + {id});
    FrameSetProperty(inj, vst, id, props[0].name, v);
    FrameTrans(inj, st, vst, st1, Shared(inj) + {id}, {id}, Shared(inj) + {id});
    FrameTrans(inj, st, st1, rst, Shared(inj) + {id}, Shared(inj) + {id}, Shared(inj) + {id});
    if ok && id < |st.heap| && id !in Shared(inj) {
      PropertiesStep(st, vst, rst, id, props, v, Shared(inj));
      FrameHeap(inj, vst, rst, Shared(inj) + {id});
      PropsSetStep(inj, fuel, vst.heap, rst.heap, MemberOf(st, id).props, MemberOf(rst, id).props, props, v);
    }
  }

  lemma {:induction false} PropsSucceedTail(inj: Injector, fuel: nat, props: seq<PropertyMeta>)
    requires props != []
    ensures PropsSucceed(inj, fuel, props) ==> ParamSucceeds(inj, fuel, props[0].param) && PropsSucceed(inj, fuel, props[1..])
  {
    assert forall k :: 0 <= k < |props[1..]| ==> props[1..][k] == props[k + 1];
  }

  lemma PropsSetEmpty(inj: Injector, fuel: nat, heap: seq<Obj>, props: map<string, Value>)
    ensures PropsSet(inj, fuel, heap, props, props, [])
  {
  }

  /** `injectSetters`: each setter in order is called with its arguments
      resolved in declaration order. */
  function InjectSetters(inj: Injector, fuel: nat, st: State, id: nat, setters: seq<MethodMeta>): (r: Run<State, ()>)
    ensures Frame(inj, st, r.st, Shared(inj) + {id})
    ensures r.out.Ok? && id < |st.heap| && id !in Shared(inj) ==>
              Logged(inj, fuel, r.st.heap, MemberOf(st, id).calls, MemberOf(r.st, id).calls, setters)
              && MemberOf(r.st, id).props == MemberOf(st, id).props
    ensures SettersSucceed(inj, fuel, setters) ==> r.out.Ok?
    ensures forall i, k :: SetterFailsFirst(inj, fuel, setters, i, k) ==>
              r.out == Fail(ParamSettled(inj, fuel, setters[i].params[k]).value.error)
    decreases fuel, 3, |setters|
  {
    if setters == [] then
      assert MemberOf(st, id).calls[..|MemberOf(st, id).calls|] == MemberOf(st, id).calls;
      Run(Ok(()), st)
    else
      var a := SetterArgs(inj, fuel, st, setters[0].params);
      FrameWeaken(inj, st, a.st, Shared(inj), Shared(inj) + {id});
      if a.out.Fail? then
        SettersOutcomeStep(inj, fuel, setters, a.out, Ok(()), Fail(a.out.error));
        Run(Fail(a.out.error), a.st)
      else
        var call := SetterCall(setters[0].name, a.out.value);
        var st1 := RecordCall(a.st, id, call);
        FrameRecordCall(inj, a.st, id, call);
        FrameTrans(inj, st, a.st, st1, Shared(inj) + {id}, {id}, Shared(inj) + {id});
        var rest := InjectSetters(inj, fuel, st1, id, setters[1..]);
        FrameTrans(inj, st, st1, rest.st, Shared(inj) + {id}, Shared(inj) + {id}, Shared(inj) + {id});
        SettersOutcomeStep(inj, fuel, setters, a.out, rest.out, rest.out);
        if rest.out.Ok? && id < |st.heap| && id !in Shared(inj) then
          SetterLogStep(inj, fuel, st, a.st, rest.st, id, setters, a.out.value);
          rest
        else rest
  }

  /** One logged call and then the remaining setters' calls are all the
      setters' calls. */
  lemma SetterLogStep(inj: Injector, fuel: nat, st: State, ast: State, rst: State, id: nat, setters: seq<MethodMeta>, args: seq<Value>)
    requires setters != [] && id < |st.heap| && id !in Shared(inj)
    requires Frame(inj, st, ast, Shared(inj))
    requires var st1 := RecordCall(ast, id, SetterCall(setters[0].name, args));
             Frame(inj, st1, rst, Shared(inj) + {id})
             && Logged(inj, fuel, rst.heap, MemberOf(st1, id).calls, MemberOf(rst, id).calls, setters[1..])
             && MemberOf(rst, id).props == MemberOf(st1, id).props
    requires ArgsReceive(inj, fuel, ast.heap, setters[0].params, args)
    ensures Logged(inj, fuel, rst.heap, MemberOf(st, id).calls, MemberOf(rst, id).calls, setters)
    ensures MemberOf(rst, id).props == MemberOf(st, id).props
  {
    var st1 := RecordCall(ast, id, SetterCall(setters[0].name, args));
    assert MemberOf(ast, id) == MemberOf(st, id);
    FrameHeap(inj, st1, rst, Shared(inj) + {id});
    LoggedStep(inj, fuel, ast.heap, rst.heap, MemberOf(st, id).calls, args, MemberOf(rst, id).calls, setters);
  }

  /** The outcome of the first setter's arguments followed by that of the
      remaining setters gives the outcome of all of them. */
  lemma SettersOutcomeStep<T, U>(inj: Injector, fuel: nat, setters: seq<MethodMeta>, a: Result<T>, rest: Result<U>, out: Result<U>)
    requires setters != []
    requires (forall k :: 0 <= k < |setters[0].params| ==> ParamSucceeds(inj, fuel, setters[0].params[k])) ==> a.Ok?
    requires forall k :: ParamFailsFirst(inj, fuel, setters[0].params, k) ==>
               a == Fail(ParamSettled(inj, fuel, setters[0].params[k]).value.error)
    requires a.Ok? ==> SettersSucceed(inj, fuel, setters[1..]) ==> rest.Ok?
    requires a.Ok? ==> forall i, k :: SetterFailsFirst(inj, fuel, setters[1..], i, k) ==>
               rest == Fail(ParamSettled(inj, fuel, setters[1..][i].params[k]).value.error)
    requires a.Fail? ==> out == Fail(a.error)
    requires a.Ok? ==> out == rest
    ensures SettersSucceed(inj, fuel, setters) ==> out.Ok?
    ensures forall i, k :: SetterFailsFirst(inj, fuel, setters, i, k) ==>
              out == Fail(ParamSettled(inj, fuel, setters[i].params[k]).value.error)
  {
    SetterFailsFirstTail(inj, fuel, setters);
  }

  /** The first setter certain to fail after the first setter is the first
      among the remaining setters. */
  lemma {:induction false} SetterFailsFirstTail(inj: Injector, fuel: nat, setters: seq<MethodMeta>)
    requires setters != []
    ensures forall i, k :: SetterFailsFirst(inj, fuel, setters, i, k) && i > 0 ==>
              (forall m :: 0 <= m < |setters[0].params| ==> ParamSucceeds(inj, fuel, setters[0].params[m]))
              && SetterFailsFirst(inj, fuel, setters[1..], i - 1, k) && setters[1..][i - 1] == setters[i]
    ensures forall k :: SetterFailsFirst(inj, fuel, setters, 0, k) ==> ParamFailsFirst(inj, fuel, setters[0].params, k)
    ensures SettersSucceed(inj, fuel, setters) ==>
              (forall m :: 0 <= m < |setters[0].params| ==> ParamSucceeds(inj, fuel, setters[0].params[m]))
              && SettersSucceed(inj, fuel, setters[1..])
  {
    forall i, k | SetterFailsFirst(inj, fuel, setters, i, k) && i > 0
      ensures (forall m :: 0 <= m < |setters[0].params| ==> ParamSucceeds(inj, fuel, setters[0].params[m]))
              && SetterFailsFirst(inj, fuel, setters[1..], i - 1, k)
    {
      assert setters[..i][0] == setters[0];
      assert setters[1..][..i - 1] == setters[..i][1..];
      assert forall j :: 0 <= j < i - 1 ==> setters[..i][1..][j] == setters[..i][j + 1];
    }
    if SettersSucceed(inj, fuel, setters) {
      assert forall j :: 0 <= j < |setters| - 1 ==> setters[1..][j] == setters[j + 1];
    }
  }

  /** The arguments of one setter call, in declaration order. */
  function SetterArgs(inj: Injector, fuel: nat, st: State, ps: seq<InjectionParameter>): (r: Run<State, seq<Value>>)
    ensures Frame(inj, st, r.st, Shared(inj))
    ensures r.out.Ok? ==> |r.out.value| == |ps|
    ensures r.out.Ok? ==> ArgsReceive(inj, fuel, r.st.heap, ps, r.out.value)
    ensures (forall k :: 0 <= k < |ps| ==> ParamSucceeds(inj, fuel, ps[k])) ==> r.out.Ok?
    ensures forall k :: ParamFailsFirst(inj, fuel, ps, k) ==> r.out == Fail(ParamSettled(inj, fuel, ps[k]).value.error)
    decreases fuel, 2, |ps|
  {
    if ps == [] then Run(Ok([]), st)
    else
      var a := CreateParameter(inj, fuel, st, ps[0]);
      if a.out.Fail? then
        ArgsOutcomeStep(inj, fuel, ps, a.out, Ok([]), Fail(a.out.error));
        Run(Fail(a.out.error), a.st)
      else
        var rest := SetterArgs(inj, fuel, a.st, ps[1..]);
        if rest.out.Fail? then
          ArgsOutcomeStep(inj, fuel, ps, a.out, rest.out, Fail(rest.out.error));
          Run(Fail(rest.out.error), rest.st)
        else
          FrameHeap(inj, a.st, rest.st, Shared(inj));
          ArgsReceiveCons(inj, fuel, a.st.heap, rest.st.heap, ps, a.out.value, rest.out.value);
          ArgsOutcomeStep(inj, fuel, ps, a.out, rest.out, Ok([a.out.value] + rest.out.value));
          Run(Ok([a.out.value] + rest.out.value), rest.st)
  }

  /** The outcome of the first parameter followed by that of the rest
      gives the outcome of all of them. */
  lemma ArgsOutcomeStep(inj: Injector, fuel: nat, ps: seq<InjectionParameter>, a: Result<Value>, rest: Result<seq<Value>>, out: Result<seq<Value>>)
    requires ps != []
    requires IsProvider(ps[0]) ==> a.Ok?
    requires ParamSettled(inj, fuel, ps[0]).Some? ==> a == ParamSettled(inj, fuel, ps[0]).value
    requires a.Ok? ==> (forall k :: 0 <= k < |ps[1..]| ==> ParamSucceeds(inj, fuel, ps[1..][k])) ==> rest.Ok?
    requires a.Ok? ==> forall k :: ParamFailsFirst(inj, fuel, ps[1..], k) ==> rest == Fail(ParamSettled(inj, fuel, ps[1..][k]).value.error)
    requires a.Fail? ==> out == Fail(a.error)
    requires a.Ok? && rest.Fail? ==> out == Fail(rest.error)
    requires a.Ok? && rest.Ok? ==> out.Ok?
    ensures (forall k :: 0 <= k < |ps| ==> ParamSucceeds(inj, fuel, ps[k])) ==> out.Ok?
    ensures forall k :: ParamFailsFirst(inj, fuel, ps, k) ==> out == Fail(ParamSettled(inj, fuel, ps[k]).value.error)
  {
    ParamFailsFirstTail(inj, fuel, ps);
  }

  /** The first certain failure after the first parameter is the first
      certain failure among the remaining parameters. */
  lemma {:induction false} ParamFailsFirstTail(inj: Injector, fuel: nat, ps: seq<InjectionParameter>)
    requires ps != []
    ensures forall k :: ParamFailsFirst(inj, fuel, ps, k) && k > 0 ==>
              ParamSucceeds(inj, fuel, ps[0]) && ParamFailsFirst(inj, fuel, ps[1..], k - 1) && ps[1..][k - 1] == ps[k]
    ensures ParamFailsFirst(inj, fuel, ps, 0) ==> !ParamSucceeds(inj, fuel, ps[0])
    ensures (forall k :: 0 <= k < |ps| ==> ParamSucceeds(inj, fuel, ps[k])) ==>
              forall k :: 0 <= k < |ps[1..]| ==> ParamSucceeds(inj, fuel, ps[1..][k])
  {
    forall k | ParamFailsFirst(inj, fuel, ps, k) && k > 0
      ensures ParamSucceeds(inj, fuel, ps[0]) && ParamFailsFirst(inj, fuel, ps[1..], k - 1)
    {
      assert forall j :: 0 <= j < k - 1 ==> ps[1..][j] == ps[j + 1];
    }
    assert forall k :: 0 <= k < |ps[1..]| ==> ps[1..][k] == ps[k + 1];
  }

  lemma {:induction false} ArgsReceiveCons(inj: Injector, fuel: nat, h1: seq<Obj>, h2: seq<Obj>, ps: seq<InjectionParameter>,
                                           v: Value, rest: seq<Value>)
    requires ps != [] && h1 <= h2
    requires ParamReceives(inj, fuel, h1, ps[0], v)
    requires ArgsReceive(inj, fuel, h2, ps[1..], rest)
    ensures ArgsReceive(inj, fuel, h2, ps, [v] + rest)
  {
    ParamReceivesGrows(inj, fuel, h1, h2, ps[0], v);
    forall k | 0 <= k < |ps|
      ensures ParamReceives(inj, fuel, h2, ps[k], ([v] + rest)[k])
    {
      if k > 0 {
        assert ps[k] == ps[1..][k - 1];
        assert ([v] + rest)[k] == rest[k - 1];
      }
    }
  }

  /** The generated factory at the provider's cache path: the file already
      there, or a newly generated one. */
  function Artifact(w: World, st: State, fp: FactoryProvider): (r: Result<GeneratedFactory>)
    ensures fp.cachePath in st.artifacts ==> r == Ok(st.artifacts[fp.cachePath])
    ensures fp.cachePath !in st.artifacts ==>
              (r.Ok? <==> FactoryMethods(w.interfaces, fp.iface).Ok?)
              && (r.Ok? ==> r.value.className == fp.implName && r.value.iface == fp.iface
                            && FactoryMethods(w.interfaces, fp.iface) == Ok(r.value.methods))
  {
    if fp.cachePath in st.artifacts then Ok(st.artifacts[fp.cachePath])
    else Generate(w.interfaces, fp)
  }

  /** Recording a new factory object for a provider that has none. */
  function AddFactory(st: State, fp: FactoryProvider, g: GeneratedFactory): (r: State)
    ensures r.heap == st.heap + [FactoryObject(g)]
    ensures fp.id in r.factories && r.factories[fp.id] == |st.heap| && r.heap[r.factories[fp.id]] == FactoryObject(g)
    ensures fp.cachePath in r.artifacts && r.artifacts[fp.cachePath] == g
    ensures r.members == st.members && r.meta == st.meta && r.singletons == st.singletons
  {
    st.(heap := st.heap + [FactoryObject(g)],
        artifacts := st.artifacts[fp.cachePath := g],
        factories := st.factories[fp.id := |st.heap|])
  }

  lemma FrameAddFactory(inj: Injector, st: State, fp: FactoryProvider, g: GeneratedFactory)
    requires fp.id !in st.factories
    requires fp.cachePath in st.artifacts ==> g == st.artifacts[fp.cachePath]
    ensures Frame(inj, st, AddFactory(st, fp, g), {})
  {
    AddFactoryExtends(st, fp, g);
    AddFactoryUntouched(st, fp, g);
    FrameSameMeta(inj, st, AddFactory(st, fp, g), {});
  }

  lemma AddFactoryExtends(st: State, fp: FactoryProvider, g: GeneratedFactory)
    requires fp.id !in st.factories
    requires fp.cachePath in st.artifacts ==> g == st.artifacts[fp.cachePath]
    ensures Extends(st, AddFactory(st, fp, g))
  {
  }

  lemma AddFactoryUntouched(st: State, fp: FactoryProvider, g: GeneratedFactory)
    ensures Untouched(st, AddFactory(st, fp, g), {})
  {
  }

  /** The state after a new factory object is added, as `FactoryGet` states it. */
  lemma FactoryAdded(inj: Injector, st: State, fp: FactoryProvider, g: GeneratedFactory)
    requires fp.id !in st.factories && Artifact(inj.world, st, fp) == Ok(g)
    ensures var r := AddFactory(st, fp, g);
            Frame(inj, st, r, {}) && r.members == st.members
            && (fp.cachePath in st.artifacts ==> r.artifacts == st.artifacts)
            && fp.id in r.factories && r.factories[fp.id] == |st.heap| && |r.heap| == |st.heap| + 1
            && r.heap[|st.heap|].FactoryObject? && fp.cachePath in r.artifacts
            && r.heap[|st.heap|].factory == r.artifacts[fp.cachePath]
  {
    FrameAddFactory(inj, st, fp, g);
  }

  /** The factory provider's `get`: the factory object made on the first
      call is returned on every later one. The first call writes the
      generated file only when no file exists at the cache path; an
      existing file is used as it is. */
  function FactoryGet(inj: Injector, st: State, fp: FactoryProvider): (r: Run<State, Value>)
    ensures Frame(inj, st, r.st, {})
    ensures r.st.members == st.members
    ensures fp.id in st.factories ==> r == Run(Ok(Ref(st.factories[fp.id])), st)
    ensures fp.cachePath in st.artifacts ==> r.st.artifacts == st.artifacts
    ensures r.out.Ok? ==> r.out.value.Ref? && fp.id in r.st.factories && r.st.factories[fp.id] == r.out.value.id
    ensures fp.id !in st.factories && r.out.Ok? ==>
              (r.out.value.id == |st.heap| && |r.st.heap| == |st.heap| + 1
               && r.st.heap[r.out.value.id].FactoryObject?
               && fp.cachePath in r.st.artifacts
               && r.st.heap[r.out.value.id].factory == r.st.artifacts[fp.cachePath])
    ensures fp.id !in st.factories && fp.cachePath !in st.artifacts ==>
              (r.out.Ok? <==> Generate(inj.world.interfaces, fp).Ok?)
  {
    if fp.id in st.factories then Run(Ok(Ref(st.factories[fp.id])), st)
    else
      var g := Artifact(inj.world, st, fp);
      if g.Fail? then Run(Fail(g.error), st)
      else
        FactoryAdded(inj, st, fp, g.value);
        Run(Ok(Ref(|st.heap|)), AddFactory(st, fp, g.value))
  }

  /** `ProviderImpl::get()` on the object `id`: resolves its key anew on
      every call, with no assisted values and not optional. */
  function ProviderGet(inj: Injector, fuel: nat, st: State, id: nat): (r: Run<State, Value>)
    ensures id < |st.heap| && st.heap[id].LazyProvider? ==>
              r == GetInstance(inj, fuel, st, st.heap[id].key, Bool(false), false)
    ensures !(id < |st.heap| && st.heap[id].LazyProvider?) ==> r == Run(Fail(NoSuchMethod("get")), st)
  {
    if id < |st.heap| && st.heap[id].LazyProvider? then GetInstance(inj, fuel, st, st.heap[id].key, Bool(false), false)
    else Run(Fail(NoSuchMethod("get")), st)
  }

  /** Calling method `name` with `args` on the generated factory object
      `id`: the one `getInstance` call the method makes. */
  function CallFactory(inj: Injector, fuel: nat, st: State, id: nat, name: string, args: seq<Value>): (r: Run<State, Value>)
    ensures !(id < |st.heap| && st.heap[id].FactoryObject?) ==> r == Run(Fail(NoSuchMethod(name)), st)
    ensures id < |st.heap| && st.heap[id].FactoryObject? && FactoryRequest(st.heap[id].factory, name, args).Ok? ==>
              var q := FactoryRequest(st.heap[id].factory, name, args).value;
              r == GetInstance(inj, fuel, st, q.key, q.assisted, false)
    ensures id < |st.heap| && st.heap[id].FactoryObject? && FactoryRequest(st.heap[id].factory, name, args).Fail? ==>
              r == Run(Fail(FactoryRequest(st.heap[id].factory, name, args).error), st)
  {
    if !(id < |st.heap| && st.heap[id].FactoryObject?) then Run(Fail(NoSuchMethod(name)), st)
    else
      var q := FactoryRequest(st.heap[id].factory, name, args);
      if q.Fail? then Run(Fail(q.error), st)
      else GetInstance(inj, fuel, st, q.value.key, q.value.assisted, false)
  }
}

=== FILE: metaclasses.dfy ===
/** The injection points of a class: lib/Meta/InjectionMetaClass.php.

    PHP reflection and the annotation reader are replaced by a declarative
    class descriptor (`ClassDecl`): every method with its ordered parameters
    and the annotations it carries, every property with its annotations and
    default value.
 */
module MetaClasses {
  import opened Failures
  import opened Values
  import opened Parameters
  import opened Seqs

  const Ctor := "__construct"

  /** A declared parameter. `typeName` is the declared type as written,
      a nullable type keeping its leading `?`, or `None` when the parameter
      is untyped. */
  datatype ParamDecl = ParamDecl(name: string, typeName: Option<string>, defaultValue: Option<Value>)

  /** A declared method and the method-level annotations it carries:
      Inject, Named (parameter name to alias), Assisted (parameter names)
      and Provides (parameter name to provided key). */
  datatype MethodDecl = MethodDecl(
    name: string,
    params: seq<ParamDecl>,
    inject: bool,
    named: map<string, string>,
    assisted: set<string>,
    providers: map<string, string>)

  /** A declared property: whether it carries Inject and the Inject value
      ("" when the annotation has none), the Named and Provides values when
      present, and its declared default (null when it has none). */
  datatype PropertyDecl = PropertyDecl(
    name: string,
    inject: bool,
    injectValue: string,
    named: Option<string>,
    providesKey: Option<string>,
    defaultValue: Value)

  /** A class as reflection would report it, methods and properties in
      declaration order. */
  datatype ClassDecl = ClassDecl(methods: seq<MethodDecl>, properties: seq<PropertyDecl>)

  /** `getConstructor()` is not null. */
  predicate HasConstructor(c: ClassDecl) {
    exists i :: 0 <= i < |c.methods| && c.methods[i].name == Ctor
  }

  datatype PropertyMeta = PropertyMeta(name: string, param: InjectionParameter)
  datatype MethodMeta = MethodMeta(name: string, params: seq<InjectionParameter>)

  /** What the injector caches per class. */
  datatype MetaClass = MetaClass(properties: seq<PropertyMeta>, methods: seq<MethodMeta>)

  /** `trim($s, '?')`: `s` without the `?` at either end. */
  function TrimQuestion(s: string): (r: string)
    ensures |r| <= |s|
    ensures r == [] || (r[0] != '?' && r[|r| - 1] != '?')
    ensures '?' !in s ==> r == s
    decreases |s|
  {
    if |s| > 0 && s[0] == '?' then TrimQuestion(s[1..])
    else if |s| > 0 && s[|s| - 1] == '?' then
      assert '?' in s;
      TrimQuestion(s[..|s| - 1])
    else s
  }

  /** `getParameterClassName`: the declared type with its `?` trimmed,
      unless the type as written is `array`. The comparison comes before
      the trim, so a nullable `?array` gives the class name `array`. */
  function ParameterClassName(p: ParamDecl): (r: Option<string>)
    ensures r.Some? <==> p.typeName.Some? && p.typeName.value != "array"
    ensures r.Some? ==> r.value == TrimQuestion(p.typeName.value)
  {
    match p.typeName
    case Some(t) => if t == "array" then None else Some(TrimQuestion(t))
    case None => None
  }

  /** A nullable class type names its class; a nullable `array` names the
      class `array`, while a plain `array` names none. */
  lemma {:induction false} NullableTypeTrimmed(name: string, t: string, d: Option<Value>)
    requires '?' !in t
    ensures ParameterClassName(ParamDecl(name, Some("?" + t), d)) == Some(t)
    ensures ParameterClassName(ParamDecl(name, Some("?array"), d)) == Some("array")
    ensures ParameterClassName(ParamDecl(name, Some("array"), d)).None?
  {
    assert ("?" + t)[1..] == t;
    assert "?array"[1..] == "array";
    assert TrimQuestion("array") == "array";
  }

  /** Assisted injection is only allowed on the constructor. */
  predicate AssistedMisplaced(m: MethodDecl, p: ParamDecl) {
    p.name in m.assisted && m.name != Ctor
  }

  function WithDefault(q: InjectionParameter, p: ParamDecl): InjectionParameter {
    if p.defaultValue.Some? then SetDefaultValue(q, p.defaultValue.value) else q
  }

  /** Classification of one method parameter:
      assisted > named alias > provides > declared class type. */
  function ClassifyParameter(m: MethodDecl, p: ParamDecl): (r: Result<InjectionParameter>)
    ensures r.Fail? <==> AssistedMisplaced(m, p)
    ensures r.Fail? ==> r.error == AssistedOnSetter
    ensures r.Ok? ==> r.value.name == p.name
    ensures r.Ok? ==> (r.value.isOptional <==> p.defaultValue.Some?)
    ensures r.Ok? && p.defaultValue.Some? ==> r.value.defaultValue == p.defaultValue.value
    ensures r.Ok? ==> (r.value.isAssisted <==> p.name in m.assisted)
    ensures r.Ok? && p.name in m.assisted ==> !IsProvider(r.value)
    ensures r.Ok? && p.name !in m.assisted && p.name in m.named ==>
              Type(r.value) == m.named[p.name] && !IsProvider(r.value)
    ensures r.Ok? && p.name !in m.assisted && p.name !in m.named && p.name in m.providers ==>
              r.value.providesKey == Some(m.providers[p.name])
    ensures r.Ok? && p.name !in m.assisted && p.name !in m.named && p.name !in m.providers ==>
              Type(r.value) == ParameterClassName(p).GetOr(p.name) && !IsProvider(r.value)
  {
    var base := New(p.name);
    if p.name in m.assisted then
      if m.name != Ctor then Fail(AssistedOnSetter)
      else Ok(WithDefault(SetIsAssisted(base, true), p))
    else if p.name in m.named then Ok(WithDefault(SetAlias(base, m.named[p.name]), p))
    else if p.name in m.providers then Ok(WithDefault(SetProvides(base, m.providers[p.name]), p))
    else match ParameterClassName(p)
      case Some(c) => Ok(WithDefault(SetInterface(base, c), p))
      case None => Ok(WithDefault(base, p))
  }

  /** The parameters of `m` from position `i` on, classified in order. */
  function ClassifyParameters(m: MethodDecl, i: nat): (r: Result<seq<InjectionParameter>>)
    requires i <= |m.params|
    ensures r.Ok? ==> |r.value| == |m.params| - i
    ensures r.Ok? ==> forall j :: i <= j < |m.params| ==>
              ClassifyParameter(m, m.params[j]) == Ok(r.value[j - i])
    ensures r.Fail? <==> exists j :: i <= j < |m.params| && AssistedMisplaced(m, m.params[j])
    ensures r.Fail? ==> r.error == AssistedOnSetter
    decreases |m.params| - i
  {
    if i == |m.params| then Ok([])
    else
      var q := ClassifyParameter(m, m.params[i]);
      if q.Fail? then Fail(q.error)
      else
        var rest := ClassifyParameters(m, i + 1);
        if rest.Fail? then Fail(rest.error)
        else Ok([q.value] + rest.value)
  }

  /** A method is recorded when it carries Inject and has parameters. */
  predicate Recorded(m: MethodDecl) {
    m.inject && |m.params| > 0
  }

  /** A method that would make the extraction fail. */
  predicate Misconfigured(m: MethodDecl) {
    m.inject && ClassifyParameters(m, 0).Fail?
  }

  /** What one declared method contributes: nothing when it carries no
      Inject or has no parameters, its classified parameters otherwise. */
  function MethodEntry(m: MethodDecl): (r: Result<seq<MethodMeta>>)
    ensures r.Fail? <==> Misconfigured(m)
    ensures r.Fail? ==> r.error == AssistedOnSetter
    ensures r.Ok? ==> |r.value| == |Filter([m], Recorded)|
    ensures r.Ok? && Recorded(m) ==> Classified(m, r.value[0])
  {
    if !m.inject then Ok([])
    else
      var ps := ClassifyParameters(m, 0);
      if ps.Fail? then Fail(ps.error)
      else if |ps.value| > 0 then Ok([MethodMeta(m.name, ps.value)])
      else Ok([])
  }

  /** The recorded methods of `ms`, in declaration order: the methods
      `Recorded` keeps, each with its parameters classified. */
  function InjectableMethods(ms: seq<MethodDecl>): (r: Result<seq<MethodMeta>>)
    ensures r.Fail? <==> exists j :: 0 <= j < |ms| && Misconfigured(ms[j])
    ensures r.Fail? ==> r.error == AssistedOnSetter
    ensures r.Ok? ==> |r.value| == |Filter(ms, Recorded)|
    ensures r.Ok? ==> forall k :: 0 <= k < |r.value| ==> Classified(Filter(ms, Recorded)[k], r.value[k])
    decreases |ms|
  {
    if ms == [] then Ok([])
    else
      var h := MethodEntry(ms[0]);
      var rest := InjectableMethods(ms[1..]);
      MisconfiguredCons(ms);
      if h.Fail? then Fail(h.error)
      else if rest.Fail? then Fail(rest.error)
      else
        ClassifiedCons(ms, h.value, rest.value);
        Ok(h.value + rest.value)
  }

  /** Some method of `ms` is misconfigured exactly when the first one or
      one of the rest is. */
  lemma {:induction false} MisconfiguredCons(ms: seq<MethodDecl>)
    requires ms != []
    ensures (exists j :: 0 <= j < |ms| && Misconfigured(ms[j])) <==>
            Misconfigured(ms[0]) || exists j :: 0 <= j < |ms[1..]| && Misconfigured(ms[1..][j])
  {
    if exists j :: 0 <= j < |ms| && Misconfigured(ms[j]) {
      var j :| 0 <= j < |ms| && Misconfigured(ms[j]);
      if j > 0 {
        assert ms[1..][j - 1] == ms[j];
      }
    }
    if exists j :: 0 <= j < |ms[1..]| && Misconfigured(ms[1..][j]) {
      var j :| 0 <= j < |ms[1..]| && Misconfigured(ms[1..][j]);
      assert ms[j + 1] == ms[1..][j];
    }
  }

  /** The entry of the first method followed by the entries of the rest
      records the methods `Recorded` keeps, in order. */
  lemma {:induction false} ClassifiedCons(ms: seq<MethodDecl>, h: seq<MethodMeta>, rest: seq<MethodMeta>)
    requires ms != []
    requires |h| == |Filter([ms[0]], Recorded)| && (Recorded(ms[0]) ==> Classified(ms[0], h[0]))
    requires |rest| == |Filter(ms[1..], Recorded)|
    requires forall k :: 0 <= k < |rest| ==> Classified(Filter(ms[1..], Recorded)[k], rest[k])
    ensures |h + rest| == |Filter(ms, Recorded)|
    ensures forall k :: 0 <= k < |h + rest| ==> Classified(Filter(ms, Recorded)[k], (h + rest)[k])
  {
    var f := Filter(ms, Recorded);
    var g := Filter(ms[1..], Recorded);
    if Recorded(ms[0]) {
      assert f == [ms[0]] + g;
      assert |h| == 1;
      forall k | 0 <= k < |h + rest|
        ensures Classified(f[k], (h + rest)[k])
      {
        if k > 0 {
          assert f[k] == g[k - 1];
          assert (h + rest)[k] == rest[k - 1];
        }
      }
    } else {
      assert f == g;
      assert Filter([ms[0]], Recorded) == [];
      assert h + rest == rest;
    }
  }

  /** `mm` is the metadata recorded for the declared method `m`. */
  predicate Classified(m: MethodDecl, mm: MethodMeta) {
    mm.name == m.name && ClassifyParameters(m, 0) == Ok(mm.params)
  }

  /** The parameter recorded for an injectable property: Named > Provides >
      Inject value, and always a default (so always optional). */
  function PropertyParameter(p: PropertyDecl): (r: InjectionParameter)
    ensures r.name == p.name && r.isOptional && !r.isAssisted
    ensures r.defaultValue == p.defaultValue
    ensures p.named.Some? && TruthyString(p.named.value) ==> Type(r) == p.named.value && !IsProvider(r)
    ensures (!(p.named.Some? && TruthyString(p.named.value))
              && p.providesKey.Some? && TruthyString(p.providesKey.value))
              ==> IsProvider(r) && r.providesKey == p.providesKey
    ensures !(p.named.Some? && TruthyString(p.named.value))
              && !(p.providesKey.Some? && TruthyString(p.providesKey.value)) ==>
              !IsProvider(r) && Type(r) == (if TruthyString(p.injectValue) then p.injectValue else p.name)
  {
    var base := New(p.name);
    var q :=
      if p.named.Some? && TruthyString(p.named.value) then SetAlias(base, p.named.value)
      else if p.providesKey.Some? && TruthyString(p.providesKey.value) then SetProvides(base, p.providesKey.value)
      else if TruthyString(p.injectValue) then SetInterface(base, p.injectValue)
      else base;
    SetDefaultValue(q, p.defaultValue)
  }

  predicate Injected(p: PropertyDecl) {
    p.inject
  }

  /** The properties of `ps` from position `i` on that carry Inject, in
      declaration order, each with its recorded parameter. */
  function InjectableProperties(ps: seq<PropertyDecl>, i: nat): (r: seq<PropertyMeta>)
    requires i <= |ps|
    ensures |r| == |Filter(ps[i..], Injected)|
    ensures forall k :: 0 <= k < |r| ==>
              r[k] == PropertyMeta(Filter(ps[i..], Injected)[k].name, PropertyParameter(Filter(ps[i..], Injected)[k]))
    decreases |ps| - i
  {
    if i == |ps| then
      assert ps[i..] == [];
      []
    else
      var rest := InjectableProperties(ps, i + 1);
      PropertiesCons(ps, i, rest);
      if ps[i].inject then [PropertyMeta(ps[i].name, PropertyParameter(ps[i]))] + rest
      else rest
  }

  /** The record of property `i`, when it carries Inject, goes before the
      records of the later properties. */
  lemma {:induction false} PropertiesCons(ps: seq<PropertyDecl>, i: nat, rest: seq<PropertyMeta>)
    requires i < |ps|
    requires |rest| == |Filter(ps[i + 1..], Injected)|
    requires forall k :: 0 <= k < |rest| ==>
               rest[k] == PropertyMeta(Filter(ps[i + 1..], Injected)[k].name, PropertyParameter(Filter(ps[i + 1..], Injected)[k]))
    ensures var r := if ps[i].inject then [PropertyMeta(ps[i].name, PropertyParameter(ps[i]))] + rest else rest;
            |r| == |Filter(ps[i..], Injected)|
            && forall k :: 0 <= k < |r| ==>
                 r[k] == PropertyMeta(Filter(ps[i..], Injected)[k].name, PropertyParameter(Filter(ps[i..], Injected)[k]))
  {
    assert ps[i..][0] == ps[i] && ps[i..][1..] == ps[i + 1..];
    var f := Filter(ps[i..], Injected);
    var g := Filter(ps[i + 1..], Injected);
    assert f == (if ps[i].inject then [ps[i]] else []) + g;
    if ps[i].inject {
      var r := [PropertyMeta(ps[i].name, PropertyParameter(ps[i]))] + rest;
      forall k | 0 <= k < |r|
        ensures r[k] == PropertyMeta(f[k].name, PropertyParameter(f[k]))
      {
        if k > 0 {
          assert r[k] == rest[k - 1] && f[k] == g[k - 1];
        }
      }
    }
  }

  /** `new InjectionMetaClass($class)`: properties are scanned first, then
      methods; a misplaced Assisted annotation aborts the extraction. */
  function Extract(c: ClassDecl): (r: Result<MetaClass>)
    ensures r.Fail? <==> exists j :: 0 <= j < |c.methods| && Misconfigured(c.methods[j])
    ensures r.Ok? ==> r.value.properties == InjectableProperties(c.properties, 0)
    ensures r.Ok? ==> InjectableMethods(c.methods) == Ok(r.value.methods)
  {
    var methods := InjectableMethods(c.methods);
    if methods.Fail? then Fail(methods.error)
    else Ok(MetaClass(InjectableProperties(c.properties, 0), methods.value))
  }

  predicate HasInjectableConstructor(mc: MetaClass) {
    exists k :: 0 <= k < |mc.methods| && mc.methods[k].name == Ctor
  }

  /** The recorded constructor parameters; fails when there is none. */
  function InjectableConstructor(mc: MetaClass): (r: Result<seq<InjectionParameter>>)
    ensures r.Ok? <==> HasInjectableConstructor(mc)
    ensures r.Fail? ==> r.error == NoInjectableConstructor
    ensures r.Ok? ==> exists k :: 0 <= k < |mc.methods| && mc.methods[k] == MethodMeta(Ctor, r.value)
    decreases |mc.methods|
  {
    if mc.methods == [] then Fail(NoInjectableConstructor)
    else if mc.methods[0].name == Ctor then Ok(mc.methods[0].params)
    else
      var r := InjectableConstructor(MetaClass(mc.properties, mc.methods[1..]));
      assert forall k :: 1 <= k < |mc.methods| ==> mc.methods[k] == mc.methods[1..][k - 1];
      r
  }

  predicate NotCtor(m: MethodMeta) {
    m.name != Ctor
  }

  /** Every recorded method except the constructor, in order. */
  function InjectableSetters(mc: MetaClass): (r: seq<MethodMeta>)
    ensures forall k :: 0 <= k < |r| ==> r[k].name != Ctor && r[k] in mc.methods
    ensures forall m :: m in mc.methods && m.name != Ctor ==> m in r
    ensures r == Filter(mc.methods, NotCtor)
    decreases |mc.methods|
  {
    if mc.methods == [] then []
    else
      var rest := InjectableSetters(MetaClass(mc.properties, mc.methods[1..]));
      if mc.methods[0].name == Ctor then rest else [mc.methods[0]] + rest
  }

  /** In any successfully extracted metadata, an assisted parameter belongs
      to the constructor: assisted injection never reaches a setter. */
  lemma AssistedOnlyInConstructor(c: ClassDecl, k: nat, j: nat)
    requires Extract(c).Ok?
    requires k < |Extract(c).value.methods| && j < |Extract(c).value.methods[k].params|
    requires Extract(c).value.methods[k].params[j].isAssisted
    ensures Extract(c).value.methods[k].name == Ctor
  {
    var ms := Extract(c).value.methods;
    var recorded := Filter(c.methods, Recorded);
    var m := recorded[k];
    FilterMembership(c.methods, Recorded, m);
    assert ClassifyParameter(m, m.params[j]) == Ok(ms[k].params[j]);
  }
}

=== FILE: parameters.dfy ===
/** One injection point (a method parameter or a property) and how it is
    resolved: lib/Meta/InjectionParameter.php.
 */
module Parameters {
  import opened Failures
  import opened Values

  /** `iface` stands for the typed `$interface` property; an unset
      interface is `None` (the source reads it uninitialised, which the
      surrounding code evidently means as "no interface"). */
  datatype InjectionParameter = InjectionParameter(
    name: string,
    iface: Option<string>,
    alias: Option<string>,
    isAssisted: bool,
    isOptional: bool,
    defaultValue: Value,
    providesKey: Option<string>)

  /** A freshly constructed parameter. */
  function New(name: string): (r: InjectionParameter)
    ensures r.name == name && Type(r) == name
    ensures !r.isAssisted && !r.isOptional && !IsProvider(r) && r.defaultValue == Null
  {
    InjectionParameter(name, None, None, false, false, Null, None)
  }

  /** Marking a parameter assisted changes neither its key nor whether it
      is a provider. */
  function SetIsAssisted(p: InjectionParameter, assisted: bool): (r: InjectionParameter)
    ensures r.isAssisted == assisted && r.name == p.name && r.isOptional == p.isOptional
    ensures Type(r) == Type(p) && (IsProvider(r) <==> IsProvider(p))
  {
    p.(isAssisted := assisted)
  }

  /** An interface decides the key unless an alias is set. */
  function SetInterface(p: InjectionParameter, iface: string): (r: InjectionParameter)
    ensures Type(r) == (if p.alias.Some? then p.alias.value else iface)
    ensures r.name == p.name && r.isAssisted == p.isAssisted && r.isOptional == p.isOptional
    ensures IsProvider(r) <==> IsProvider(p)
  {
    p.(iface := Some(iface))
  }

  /** An alias always decides the key. */
  function SetAlias(p: InjectionParameter, alias: string): (r: InjectionParameter)
    ensures Type(r) == alias
    ensures r.name == p.name && r.isAssisted == p.isAssisted && r.isOptional == p.isOptional
    ensures IsProvider(r) <==> IsProvider(p)
  {
    p.(alias := Some(alias))
  }

  /** Recording a default makes the parameter optional, whatever the default. */
  function SetDefaultValue(p: InjectionParameter, d: Value): (r: InjectionParameter)
    ensures r.isOptional && r.defaultValue == d
    ensures r.name == p.name && Type(r) == Type(p) && r.isAssisted == p.isAssisted
  {
    p.(defaultValue := d, isOptional := true)
  }

  /** The parameter becomes a provider exactly when the marker is a truthy
      string; its key is unaffected. */
  function SetProvides(p: InjectionParameter, key: string): (r: InjectionParameter)
    ensures IsProvider(r) <==> TruthyString(key)
    ensures r.providesKey == Some(key) && Type(r) == Type(p) && r.name == p.name
  {
    p.(providesKey := Some(key))
  }

  /** `isProvider()`: the provides marker holds a truthy string. */
  predicate IsProvider(p: InjectionParameter) {
    p.providesKey.Some? && TruthyString(p.providesKey.value)
  }

  /** `type()`: the key the parameter resolves to. */
  function Type(p: InjectionParameter): string {
    if p.alias.Some? then p.alias.value
    else if p.iface.Some? then p.iface.value
    else p.name
  }

  /** Reference definition of "the first present candidate". */
  function FirstPresent(cs: seq<Option<string>>, fallback: string): (r: string)
    ensures r == fallback || exists i :: 0 <= i < |cs| && cs[i] == Some(r)
  {
    if cs == [] then fallback
    else if cs[0].Some? then cs[0].value
    else
      var r := FirstPresent(cs[1..], fallback);
      assert forall i :: 1 <= i < |cs| ==> cs[i] == cs[1..][i - 1];
      r
  }

  /** `type()` is alias, else interface, else the parameter's own name. */
  lemma TypePrecedence(p: InjectionParameter)
    ensures Type(p) == FirstPresent([p.alias, p.iface], p.name)
  {
    var cs := [p.alias, p.iface];
    assert cs[1..] == [p.iface];
    assert cs[1..][1..] == [];
  }

  /** A new parameter resolves to its own name, is not assisted, not
      optional and not a provider. */
  lemma FreshParameter(name: string)
    ensures Type(New(name)) == name
    ensures !New(name).isAssisted && !New(name).isOptional
    ensures !IsProvider(New(name)) && New(name).alias.None?
  {
  }

  /** An alias wins over any interface, set before or after it. */
  lemma AliasWins(p: InjectionParameter, alias: string, iface: string)
    ensures Type(SetInterface(SetAlias(p, alias), iface)) == alias
    ensures Type(SetAlias(SetInterface(p, iface), alias)) == alias
  {
  }

  /** A null default still makes the parameter optional, and the default
      read back is the last one set. */
  lemma DefaultMakesOptional(p: InjectionParameter, d1: Value, d2: Value)
    ensures SetDefaultValue(p, Null).isOptional
    ensures SetDefaultValue(SetDefaultValue(p, d1), d2).defaultValue == d2
    ensures SetDefaultValue(SetDefaultValue(p, d1), d2).isOptional
  {
  }

  /** The setters available on a parameter, as a sequence of calls. */
  datatype ParamOp =
    | OpAssisted(b: bool)
    | OpInterface(i: string)
    | OpAlias(a: string)
    | OpDefault(d: Value)
    | OpProvides(t: string)

  function Apply(p: InjectionParameter, ops: seq<ParamOp>): InjectionParameter
    decreases |ops|
  {
    if ops == [] then p
    else
      var q := match ops[0]
        case OpAssisted(b) => SetIsAssisted(p, b)
        case OpInterface(i) => SetInterface(p, i)
        case OpAlias(a) => SetAlias(p, a)
        case OpDefault(d) => SetDefaultValue(p, d)
        case OpProvides(t) => SetProvides(p, t);
      Apply(q, ops[1..])
  }

  /** `name()` never changes after construction, and optionality is never
      withdrawn: no sequence of setter calls alters either. */
  lemma {:induction false} NameStable(p: InjectionParameter, ops: seq<ParamOp>)
    ensures Apply(p, ops).name == p.name
    ensures p.isOptional ==> Apply(p, ops).isOptional
    decreases |ops|
  {
    if ops != [] {
      var q := match ops[0]
        case OpAssisted(b) => SetIsAssisted(p, b)
        case OpInterface(i) => SetInterface(p, i)
        case OpAlias(a) => SetAlias(p, a)
        case OpDefault(d) => SetDefaultValue(p, d)
        case OpProvides(t) => SetProvides(p, t);
      NameStable(q, ops[1..]);
    }
  }
}

=== FILE: scopes.dfy ===
/** The scope registry: lib/Scope/Scopes.php.

    `Scopes::instance()` and `Scopes::singleton()` hand out one scope object
    per name, created on first request; any other name is rejected. The
    registry is a static array in the source; here it is a value threaded
    through configuration. Scope objects are named by explicit ids.
 */
module Scopes {
  import opened Failures

  const InstanceName := "instance"
  const SingletonName := "singleton"

  datatype ScopeKind = InstanceKind | SingletonKind

  /** A scope object: its identity and which class it is. */
  datatype ScopeObject = ScopeObject(id: nat, kind: ScopeKind)

  datatype ScopeRegistry = ScopeRegistry(scopes: map<string, ScopeObject>, nextId: nat)

  const EmptyRegistry := ScopeRegistry(map[], 0)

  /** The kind of scope a valid name denotes. */
  function KindOf(name: string): (r: Option<ScopeKind>)
    ensures r == Some(InstanceKind) <==> name == InstanceName
    ensures r == Some(SingletonKind) <==> name == SingletonName
    ensures r.None? <==> name != InstanceName && name != SingletonName
  {
    if name == InstanceName then Some(InstanceKind)
    else if name == SingletonName then Some(SingletonKind)
    else None
  }

  /** Only valid names are registered, each under the kind its name
      denotes, and distinct names hold distinct objects with ids below
      `nextId`. */
  predicate Valid(reg: ScopeRegistry) {
    (forall n :: n in reg.scopes ==> KindOf(n) == Some(reg.scopes[n].kind) && reg.scopes[n].id < reg.nextId)
    && (forall n1, n2 :: n1 in reg.scopes && n2 in reg.scopes && n1 != n2 ==>
          reg.scopes[n1].id != reg.scopes[n2].id)
  }

  /** `Scopes::<name>()`. */
  function ScopeFor(reg: ScopeRegistry, name: string): (r: Run<ScopeRegistry, ScopeObject>)
    requires Valid(reg)
    ensures Valid(r.st)
    ensures r.out.Ok? <==> KindOf(name).Some?
    ensures r.out.Ok? ==> r.out.value.kind == KindOf(name).value && name in r.st.scopes && r.st.scopes[name] == r.out.value
    ensures r.out.Fail? ==> r.out.error == InvalidScope && r.st == reg
    ensures name in reg.scopes ==> r == Run(Ok(reg.scopes[name]), reg)
    ensures forall n :: n in reg.scopes ==> n in r.st.scopes && r.st.scopes[n] == reg.scopes[n]
  {
    if name in reg.scopes then Run(Ok(reg.scopes[name]), reg)
    else match KindOf(name)
      case None => Run(Fail(InvalidScope), reg)
      case Some(k) =>
        var s := ScopeObject(reg.nextId, k);
        Run(Ok(s), ScopeRegistry(reg.scopes[name := s], reg.nextId + 1))
  }

  /** Repeated requests for the same name return the identical object and
      leave the registry as the first request left it. */
  lemma ScopeMemoised(reg: ScopeRegistry, name: string)
    requires Valid(reg)
    ensures ScopeFor(ScopeFor(reg, name).st, name) == Run(ScopeFor(reg, name).out, ScopeFor(reg, name).st)
  {
  }

  /** The two valid names never share a scope object, in whichever order
      they are first requested. */
  lemma {:induction false} InstanceAndSingletonDiffer(reg: ScopeRegistry)
    requires Valid(reg)
    ensures var a := ScopeFor(reg, InstanceName);
            var b := ScopeFor(a.st, SingletonName);
            a.out.value.id != b.out.value.id && a.out.value.kind == InstanceKind && b.out.value.kind == SingletonKind
  {
    var a := ScopeFor(reg, InstanceName);
    var b := ScopeFor(a.st, SingletonName);
    assert a.st.scopes[InstanceName] == a.out.value;
    assert b.st.scopes[InstanceName] == a.out.value;
    assert b.st.scopes[SingletonName] == b.out.value;
  }
}

=== FILE: seqs.dfy ===
/** Sequence helpers shared by the model. */
module Seqs {
  import opened Failures

  /** The elements of `xs` satisfying `f`, in their original order. */
  function Filter<T>(xs: seq<T>, f: T -> bool): (r: seq<T>)
    ensures |r| <= |xs|
    decreases |xs|
  {
    if xs == [] then []
    else (if f(xs[0]) then [xs[0]] else []) + Filter(xs[1..], f)
  }

  /** An element survives the filter exactly when it is in the input and
      satisfies the predicate. */
  lemma {:induction false} FilterMembership<T>(xs: seq<T>, f: T -> bool, x: T)
    ensures x in Filter(xs, f) <==> x in xs && f(x)
    decreases |xs|
  {
    if xs != [] {
      FilterMembership(xs[1..], f, x);
      assert xs == [xs[0]] + xs[1..];
    }
  }

  /** Filtering distributes over concatenation. */
  lemma {:induction false} FilterAppend<T>(xs: seq<T>, ys: seq<T>, f: T -> bool)
    ensures Filter(xs + ys, f) == Filter(xs, f) + Filter(ys, f)
    decreases |xs|
  {
    if xs != [] {
      assert (xs + ys)[1..] == xs[1..] + ys;
      FilterAppend(xs[1..], ys, f);
    } else {
      assert xs + ys == ys;
    }
  }

  /** How many times `x` occurs in `xs`. */
  function Count<T(==)>(xs: seq<T>, x: T): nat
    decreases |xs|
  {
    if xs == [] then 0 else (if xs[0] == x then 1 else 0) + Count(xs[1..], x)
  }

  lemma {:induction false} CountAppend<T>(xs: seq<T>, ys: seq<T>, x: T)
    ensures Count(xs + ys, x) == Count(xs, x) + Count(ys, x)
    decreases |xs|
  {
    if xs != [] {
      assert (xs + ys)[1..] == xs[1..] + ys;
      CountAppend(xs[1..], ys, x);
    } else {
      assert xs + ys == ys;
    }
  }

  /** The last element of `xs` whose key is `k`: the one a sequence of
      overwriting writes leaves in place. */
  function LastWith<T, K(==)>(xs: seq<T>, key: T -> K, k: K): (r: Option<T>)
    ensures r.None? <==> forall i :: 0 <= i < |xs| ==> key(xs[i]) != k
    ensures r.Some? ==> key(r.value) == k
    decreases |xs|
  {
    if xs == [] then None
    else if key(xs[|xs| - 1]) == k then Some(xs[|xs| - 1])
    else
      var init := xs[..|xs| - 1];
      assert forall i :: 0 <= i < |init| ==> init[i] == xs[i];
      LastWith(init, key, k)
  }

  /** The element found is in `xs`, and no element after it has key `k`. */
  lemma {:induction false} LastWithIsLast<T, K>(xs: seq<T>, key: T -> K, k: K)
    ensures LastWith(xs, key, k).Some? ==>
              exists i :: 0 <= i < |xs| && xs[i] == LastWith(xs, key, k).value && forall j :: i < j < |xs| ==> key(xs[j]) != k
    decreases |xs|
  {
    if xs != [] {
      var n := |xs| - 1;
      if key(xs[n]) == k {
        assert LastWith(xs, key, k) == Some(xs[n]);
      } else {
        var init := xs[..n];
        assert LastWith(xs, key, k) == LastWith(init, key, k);
        LastWithIsLast(init, key, k);
        if LastWith(init, key, k).Some? {
          var i :| 0 <= i < |init| && init[i] == LastWith(init, key, k).value && forall j :: i < j < |init| ==> key(init[j]) != k;
          assert xs[i] == init[i];
          forall j | i < j < |xs|
            ensures key(xs[j]) != k
          {
            if j < n {
              assert xs[j] == init[j];
            }
          }
        }
      }
    }
  }

  /** Putting an element in front changes the last match only when the
      rest has none. */
  lemma {:induction false} LastWithCons<T, K>(x: T, xs: seq<T>, key: T -> K, k: K)
    ensures LastWith([x] + xs, key, k)
         == if LastWith(xs, key, k).Some? then LastWith(xs, key, k)
            else if key(x) == k then Some(x) else None
    decreases |xs|
  {
    if xs == [] {
      assert [x] + xs == [x];
      assert [x][..0] == [];
    } else {
      var init := xs[..|xs| - 1];
      assert ([x] + xs)[..|xs|] == [x] + init;
      LastWithCons(x, init, key, k);
    }
  }
}

=== FILE: singletons.dfy ===
/** The cache key of the singleton scope: lib/Scope/SingletonScope.php.

    The key is the binding's identity followed by the assisted values
    flattened in order: objects by identity, arrays recursively, any other
    value as its string conversion; parameter names play no part. The source
    joins these pieces into one string with ":::" (modelled by `JoinedKey`),
    which lets different argument lists meet on the same key; the model's
    cache uses the structured key `CacheKey` instead.
 */
module Singletons {
  import opened Values

  datatype HashPart = ObjPart(id: nat) | ScalarPart(text: string)

  /** The cache key of one singleton scope: the scope object, the binding
      object and the flattened assisted values. */
  datatype CacheKey = CacheKey(scopeId: nat, bindingId: nat, parts: seq<HashPart>)

  function DigitChar(d: nat): char
    requires d < 10
  {
    "0123456789"[d]
  }

  /** Decimal digits of a natural number, without leading zeros. */
  function NatToString(n: nat): (r: string)
    ensures |r| > 0
    ensures forall k :: 0 <= k < |r| ==> r[k] in "0123456789"
    decreases n
  {
    if n < 10 then [DigitChar(n)] else NatToString(n / 10) + [DigitChar(n % 10)]
  }

  /** PHP's string conversion of a scalar. */
  function ScalarText(v: Value): string {
    match v
    case Null => ""
    case Bool(b) => if b then "1" else ""
    case Int(i) => if i < 0 then "-" + NatToString(-i) else NatToString(i)
    case Str(s) => s
    case _ => ""
  }

  /** The pieces one assisted value contributes. */
  function Parts(v: Value): seq<HashPart>
    decreases v
  {
    match v
    case Arr(es) => PartsOf(es)
    case Ref(id) => [ObjPart(id)]
    case _ => [ScalarPart(ScalarText(v))]
  }

  /** The pieces of the values of `es`, in order, keys ignored. */
  function PartsOf(es: seq<Entry>): seq<HashPart>
    decreases es
  {
    if es == [] then [] else EntryParts(es[0]) + PartsOf(es[1..])
  }

  function EntryParts(e: Entry): seq<HashPart>
    decreases e
  {
    Parts(e.val)
  }

  /** The flattened assisted values: nothing unless the parameters form a
      non-empty array. */
  function Hash(assisted: Value): (r: seq<HashPart>)
    ensures !assisted.Arr? || assisted.entries == [] ==> r == []
    ensures assisted.Arr? && (forall k :: 0 <= k < |assisted.entries| ==> Scalar(assisted.entries[k].val)) ==>
              |r| == |assisted.entries|
              && forall k :: 0 <= k < |r| ==> r[k] == ScalarPart(ScalarText(assisted.entries[k].val))
  {
    if Truthy(assisted) && assisted.Arr? then
      if forall k :: 0 <= k < |assisted.entries| ==> Scalar(assisted.entries[k].val) then
        FlatParts(assisted.entries);
        PartsOf(assisted.entries)
      else PartsOf(assisted.entries)
    else []
  }

  /** `uniqueKey`: the scope, the binding and the flattened assisted values. */
  function UniqueKey(scopeId: nat, bindingId: nat, assisted: Value): (r: CacheKey)
    ensures r.scopeId == scopeId && r.bindingId == bindingId && r.parts == Hash(assisted)
  {
    CacheKey(scopeId, bindingId, Hash(assisted))
  }

  /** Two requests share a cache entry exactly when they come through the
      same scope and binding and flatten to the same pieces. */
  lemma UniqueKeyIdentifies(s1: nat, b1: nat, a1: Value, s2: nat, b2: nat, a2: Value)
    ensures UniqueKey(s1, b1, a1) == UniqueKey(s2, b2, a2) <==> s1 == s2 && b1 == b2 && Hash(a1) == Hash(a2)
  {
  }

  /** Null, false and the empty array all leave the key at the binding's
      identity alone. */
  lemma AbsentParamsShareKey(scopeId: nat, bindingId: nat)
    ensures UniqueKey(scopeId, bindingId, Null) == CacheKey(scopeId, bindingId, [])
    ensures UniqueKey(scopeId, bindingId, Bool(false)) == CacheKey(scopeId, bindingId, [])
    ensures UniqueKey(scopeId, bindingId, Arr([])) == CacheKey(scopeId, bindingId, [])
  {
  }

  /** Flattening distributes over concatenation of entries. */
  lemma {:induction false} PartsOfAppend(es1: seq<Entry>, es2: seq<Entry>)
    ensures PartsOf(es1 + es2) == PartsOf(es1) + PartsOf(es2)
    decreases |es1|
  {
    if es1 != [] {
      assert (es1 + es2)[1..] == es1[1..] + es2;
      PartsOfAppend(es1[1..], es2);
    } else {
      assert es1 + es2 == es2;
    }
  }

  /** Two parameter arrays holding the same values in the same order
      share a key, whatever their keys. */
  lemma {:induction false} NamesIgnored(es1: seq<Entry>, es2: seq<Entry>)
    requires |es1| == |es2|
    requires forall k :: 0 <= k < |es1| ==> es1[k].val == es2[k].val
    ensures PartsOf(es1) == PartsOf(es2)
    decreases |es1|
  {
    if es1 != [] {
      NamesIgnored(es1[1..], es2[1..]);
    }
  }

  /** A nested array contributes its own pieces in place. */
  lemma NestedArraysFlatten(k: Key, inner: seq<Entry>, rest: seq<Entry>)
    ensures PartsOf([Entry(k, Arr(inner))] + rest) == PartsOf(inner) + PartsOf(rest)
  {
    assert ([Entry(k, Arr(inner))] + rest)[1..] == rest;
    assert EntryParts(Entry(k, Arr(inner))) == PartsOf(inner);
  }

  /** A scalar-only value. */
  predicate Scalar(v: Value) {
    !v.Arr? && !v.Ref?
  }

  /** For scalar values the key has one piece per value, in order: the
      reference definition of the flattening on flat arrays. */
  lemma {:induction false} FlatParts(es: seq<Entry>)
    requires forall k :: 0 <= k < |es| ==> Scalar(es[k].val)
    ensures |PartsOf(es)| == |es|
    ensures forall k :: 0 <= k < |es| ==> PartsOf(es)[k] == ScalarPart(ScalarText(es[k].val))
    decreases |es|
  {
    if es != [] {
      FlatParts(es[1..]);
      assert EntryParts(es[0]) == [ScalarPart(ScalarText(es[0].val))];
    }
  }

  /** With the structured key, two arrays of strings share a cache entry
      only when they hold the same strings in the same order. */
  lemma {:induction false} CacheKeySeparatesStrings(es1: seq<Entry>, es2: seq<Entry>)
    requires forall k :: 0 <= k < |es1| ==> es1[k].val.Str?
    requires forall k :: 0 <= k < |es2| ==> es2[k].val.Str?
    requires PartsOf(es1) == PartsOf(es2)
    ensures |es1| == |es2|
    ensures forall k :: 0 <= k < |es1| ==> es1[k].val == es2[k].val
  {
    FlatParts(es1);
    FlatParts(es2);
    forall k | 0 <= k < |es1|
      ensures es1[k].val == es2[k].val
    {
      assert PartsOf(es1)[k] == ScalarPart(es1[k].val.s);
      assert PartsOf(es2)[k] == ScalarPart(es2[k].val.s);
    }
  }

  /** The text each piece has in the joined key; `objectHash` stands for
      `spl_object_hash`. */
  function PartText(p: HashPart, objectHash: nat -> string): string {
    match p
    case ObjPart(id) => objectHash(id)
    case ScalarPart(t) => t
  }

  /** `implode(':::', ...)` of the binding's hash followed by the pieces. */
  function Join(head: string, parts: seq<HashPart>, objectHash: nat -> string): (r: string)
    ensures parts == [] ==> r == head
    ensures |parts| == 1 ==> r == head + ":::" + PartText(parts[0], objectHash)
    ensures |r| >= |head| && r[..|head|] == head
    decreases |parts|
  {
    if parts == [] then head
    else
      var next := head + ":::" + PartText(parts[0], objectHash);
      var r := Join(next, parts[1..], objectHash);
      assert r[..|head|] == r[..|next|][..|head|];
      r
  }

  /** The key as the source computes it: it starts with the binding's hash,
      and absent assisted values leave it at that. */
  function JoinedKey(bindingHash: string, assisted: Value, objectHash: nat -> string): (r: string)
    ensures |r| >= |bindingHash| && r[..|bindingHash|] == bindingHash
    ensures !assisted.Arr? || assisted.entries == [] ==> r == bindingHash
  {
    Join(bindingHash, Hash(assisted), objectHash)
  }

  /** The joined key conflates one string containing the separator with
      two strings: `["x" => "a:::b"]` and `["x" => "a", "y" => "b"]` are
      different assisted arguments but reach the same singleton. The
      structured key keeps them apart. */
  lemma JoinedKeyCollides(bindingHash: string, objectHash: nat -> string, scopeId: nat, bindingId: nat)
    ensures var one := Arr([Entry(StrKey("x"), Str("a:::b"))]);
            var two := Arr([Entry(StrKey("x"), Str("a")), Entry(StrKey("y"), Str("b"))]);
            JoinedKey(bindingHash, one, objectHash) == JoinedKey(bindingHash, two, objectHash)
            && UniqueKey(scopeId, bindingId, one) != UniqueKey(scopeId, bindingId, two)
  {
    var one := [Entry(StrKey("x"), Str("a:::b"))];
    var two := [Entry(StrKey("x"), Str("a")), Entry(StrKey("y"), Str("b"))];
    FlatParts(one);
    FlatParts(two);
    assert PartsOf(one) == [ScalarPart("a:::b")];
    assert PartsOf(two) == [ScalarPart("a"), ScalarPart("b")];
    assert Join(bindingHash, [ScalarPart("a:::b")], objectHash) == bindingHash + ":::" + "a:::b";
    assert [ScalarPart("a"), ScalarPart("b")][1..] == [ScalarPart("b")];
    assert Join(bindingHash, [ScalarPart("a"), ScalarPart("b")], objectHash)
        == Join(bindingHash + ":::" + "a", [ScalarPart("b")], objectHash);
    assert bindingHash + ":::" + "a:::b" == bindingHash + ":::" + "a" + ":::" + "b";
  }
}

=== FILE: values.dfy ===
/** PHP values as the container sees them: scalars, ordered arrays and object
    references. Objects are named by explicit ids; what an id denotes lives in
    the injector state (module Injectors). Floating-point values are not
    modelled.
 */
module Values {
  import opened Failures

  datatype Key = IntKey(i: int) | StrKey(s: string)

  datatype Value =
    | Null
    | Bool(b: bool)
    | Int(i: int)
    | Str(s: string)
    | Arr(entries: seq<Entry>)
    | Ref(id: nat)

  datatype Entry = Entry(key: Key, val: Value)

  /** PHP truthiness of a string: only "" and "0" are falsy. */
  predicate TruthyString(s: string) {
    s != "" && s != "0"
  }

  /** PHP truthiness (`if ($v)`, `!!$v`). */
  predicate Truthy(v: Value) {
    match v
    case Null => false
    case Bool(b) => b
    case Int(i) => i != 0
    case Str(s) => TruthyString(s)
    case Arr(es) => |es| > 0
    case Ref(_) => true
  }

  /** The value stored under `k`, first entry wins (PHP keys are unique). */
  function Lookup(es: seq<Entry>, k: Key): (r: Option<Value>)
    ensures r.Some? <==> exists i :: 0 <= i < |es| && es[i].key == k
    ensures r.Some? ==> exists i :: 0 <= i < |es| && es[i].key == k && es[i].val == r.value
  {
    if es == [] then None
    else if es[0].key == k then Some(es[0].val)
    else
      var r := Lookup(es[1..], k);
      assert forall i :: 1 <= i < |es| ==> es[i] == es[1..][i - 1];
      r
  }

  /** `isset($params[$name])`: `$params` is an array holding a non-null value
      under the string key `name`. Null and false hold nothing. */
  predicate IssetKey(params: Value, name: string) {
    params.Arr? && Lookup(params.entries, StrKey(name)).Some?
    && Lookup(params.entries, StrKey(name)).value != Null
  }

  /** `$params[$name]`, meaningful when `IssetKey` holds. */
  function ValueAt(params: Value, name: string): (r: Value)
    requires IssetKey(params, name)
    ensures r != Null
    ensures exists i :: 0 <= i < |params.entries| && params.entries[i] == Entry(StrKey(name), r)
  {
    Lookup(params.entries, StrKey(name)).value
  }

  /** `(array)$v`: null becomes the empty array, an array stays as it is,
      an object becomes its property table (`tables`, indexed by object id,
      since the model does not track objects' properties) and any other
      single value becomes a one-element list. */
  function ArrayCast(v: Value, tables: nat -> seq<Entry>): (r: seq<Entry>)
    ensures v.Null? ==> r == []
    ensures v.Arr? ==> r == v.entries
    ensures v.Ref? ==> r == tables(v.id)
    ensures !v.Null? && !v.Arr? && !v.Ref? ==> r == [Entry(IntKey(0), v)]
  {
    match v
    case Null => []
    case Arr(es) => es
    case Ref(id) => tables(id)
    case _ => [Entry(IntKey(0), v)]
  }

  /** A PHP list: the values under the keys 0, 1, 2, ... in order. */
  function ListOf(vs: seq<Value>): (r: seq<Entry>)
    ensures |r| == |vs|
    ensures forall i :: 0 <= i < |vs| ==> r[i] == Entry(IntKey(i), vs[i])
  {
    seq(|vs|, i requires 0 <= i < |vs| => Entry(IntKey(i), vs[i]))
  }
}
